=== FILE: README.md ===
# TCFnetworks graph construction, modelled in Dafny

TCFnetworks turns linguistically annotated text (TCF documents: tokens with
part-of-speech tags, lemmas, named entities, coreference references and
dependency parses) into word networks. This project models the part of it
that decides what the networks look like:

- **Token tests** (`tcfnetworks/annotators/base.py`): the `test_token_*`
  predicates (`full`, `nonclosed`, `lexical`, `semantic`, `concept`,
  `entity`, `actor`, `postag`) over a token record with part-of-speech
  flags, an optional named entity and an optional list of reference tokens;
  the stop-word list and filter selection done by the worker's constructor.
  The older copies of the tests in the two dependency workers are modelled
  too (`dep_filters.dfy`).
- **Dependency-tree walker** (`find_dependents`, `find_edges`): recursive
  descent over an inductive parse tree that replaces an excluded dependent
  by its own filtered dependents and, under an excluded head, connects all
  pairs of the filtered dependents (`parse_tree.dfy`, `pairs.dfy`).
- **Graph builders**: the dependency network (`dependency.py`), the
  extended dependency network with its bounded-distance expansion
  (`extended_dependency.py`) and the word-gap co-occurrence network
  (`cooccurrence.py`). Nodes are found or created by label, edges are added
  with weight 1 or incremented.
- **Graph mergers**: `utils.merge_graphs` (type-aware attribute merge) with
  `graph_to_tcf` (export with `n_<index>` node IDs), and
  `ComparingWorker.merge_graphs` of `compare.py` (weight sum, label-set
  union) with its edge-labelling loops.
- **The test script** `scripts/test_dependency.py`: the plain tree-edge
  enumerator, `parse_to_tree` and the method-string handling of
  `iter_graphs`.

One graph type (`Graphs.Graph`) stands for both the igraph graphs and the
TCF `graph` elements: a sequence of vertices (a name and an attribute map)
and a sequence of edges (two vertex indices and an attribute map). Edges
are undirected everywhere: `FindEdge` matches an edge in either direction,
which is how igraph's undirected graphs behave. For the TCF `find_edge`
this is a modelling convention: the co-occurrence builder
(`cooccurrence.py:124-128`) and the comparing merge (`compare.py:93-96`)
do look up an edge with its endpoints in the reverse order of an existing
one, for instance the tokens x y x with gap 2, and the model then finds
that edge.
The in-place builders work on `Graphs.GraphStore`, a class holding that
graph's vertex and edge sequences; every method on it is proved equal to a
function on graph values, and the properties are proved about those
functions.

Values whose Python type varies (attribute values) are the datatype
`Graphs.Attr`: text, integer, list, set and dict. Weights are integers.

## Model

| member | source | states |
|---|---|---|
| Filters.PassesStopwords | tcfnetworks/annotators/base.py:113-116 | the stop-word test: the configured feature of the token is not in the list; `StopwordMembership` states both directions |
| Filters.FullTest | tcfnetworks/annotators/base.py:118-121 | `full`: punctuation fails, anything else is decided by the stop-word test (`FullIsStopwordsWithoutPunctuation`) |
| Filters.NonclosedTest | tcfnetworks/annotators/base.py:123-126 | `nonclosed`: a closed-class token fails, anything else is decided by the stop-word test |
| Filters.LexicalTest | tcfnetworks/annotators/base.py:128-135 | `lexical`: the stop-word test on open-class non-adverbs, otherwise an entity or a reference (`LexicalCases`) |
| Filters.SemanticTest | tcfnetworks/annotators/base.py:137-146 | `semantic`: every verb, then as `lexical` (`SemanticExtendsLexical`, `VerbsIgnoreStopwords`) |
| Filters.ConceptTest | tcfnetworks/annotators/base.py:148-153 | `concept`: `semantic` without verbs (`ConceptIsSemanticNonVerb`) |
| Filters.EntityTest | tcfnetworks/annotators/base.py:155-162 | `entity`: the token has an entity or, with resolution on, one of its reference tokens has one (`EntityResolvesOneLevel`) |
| Filters.ActorTest | tcfnetworks/annotators/base.py:164-173 | `actor`: a `PER` or `ORG` entity on the token or, with resolution on, on a reference token (`ActorImpliesEntity`, `ActorResolvesOneLevel`) |
| Filters.HasPos | tcfnetworks/annotators/base.py:87-91 | the flag-and-break search: some listed tag applies to the token (`TestTokenPostag`) |
| Filters.PostagTest | tcfnetworks/annotators/base.py:86-98 | `postag`: a tagged token by its stop-word test, otherwise a tagged reference token's (`PostagByTaggedReference`, `PostagResolvesOneLevel`) |
| Filters.Accepts | tcfnetworks/annotators/base.py:99-108 | `self.test_token` after configuration: the selected test with resolution on |
| Filters.PolicyNamed | tcfnetworks/annotators/base.py:101-108 | the `getattr` lookup of `test_token_<name>`: the eight test names and nothing else (`Configure`) |
| Tokens.Attribute | tcfnetworks/annotators/base.py:113-114 | `str()` of `getattr(token, attr)` for the three attribute names the options use |
| Tokens.AttrNamed | tcfnetworks/annotators/extended_dependency.py:78 | the `label` option as a token attribute: a known name gives the attribute it names |
| Tokens.AttrNamedInverse | tcfnetworks/annotators/extended_dependency.py:78 | exactly `text`, `lemma` and `semantic_unit` are known, each naming its own attribute (both directions) |
| Filters.Configure | tcfnetworks/annotators/base.py:52-108 | a missing stop-word preset, `postag` without tags (an empty tag list or an empty first tag), an unknown tag and an unknown filter name are errors; otherwise the filter keeps the feature and its stop words are exactly the inline list (unless its first entry is empty) plus the loaded preset |
| Filters.TestTokenPostag | tcfnetworks/annotators/base.py:86-98 | the flag-and-break loop over the reference tokens returns exactly the `postag` test |
| Filters.PostagByTaggedReference | tcfnetworks/annotators/base.py:86-98 | a tagged token gets its own stop-word test; otherwise the test holds iff some reference token is tagged and passes its stop-word test; no reference means rejection |
| Filters.StopwordMembership | tcfnetworks/annotators/base.py:113-116 | the stop-word test fails exactly when the token's configured feature value occurs in the stop-word list |
| Filters.FullIsStopwordsWithoutPunctuation | tcfnetworks/annotators/base.py:118-121 | `full` holds iff the token is not punctuation and passes the stop-word test |
| Filters.LexicalCases | tcfnetworks/annotators/base.py:128-135 | `lexical` is the stop-word test on open-class non-adverbs; otherwise it holds iff the token has an entity or a reference |
| Filters.SemanticExtendsLexical | tcfnetworks/annotators/base.py:137-146 | `semantic` holds iff the token is a verb or `lexical` holds; on non-verbs the two agree |
| Filters.VerbsIgnoreStopwords | tcfnetworks/annotators/base.py:137-146 | every verb passes `semantic` whatever the stop-word list |
| Filters.ConceptIsSemanticNonVerb | tcfnetworks/annotators/base.py:148-153 | `concept` holds iff `semantic` holds and the token is not a verb |
| Filters.ActorImpliesEntity | tcfnetworks/annotators/base.py:155-173 | every token `actor` accepts is accepted by `entity` |
| Filters.CutReferenceUnseen | tcfnetworks/annotators/base.py:155-173 | with resolution off, `entity`, `actor` and `postag` do not look at the token's references |
| Filters.EntityResolvesOneLevel | tcfnetworks/annotators/base.py:155-162 | `entity` gives the same answer when the references of the reference tokens are cut off: resolution goes one level deep |
| Filters.ActorResolvesOneLevel | tcfnetworks/annotators/base.py:164-173 | the same one-level property for `actor` |
| Filters.PostagResolvesOneLevel | tcfnetworks/annotators/base.py:86-98 | the same one-level property for `postag` |
| DepFilters.FullTest | tcfnetworks/annotators/dependency.py:97-98 | the older `full`: not punctuation, with no stop-word test (`AgreeWithBaseWithoutStopwords`) |
| DepFilters.NonclosedTest | tcfnetworks/annotators/dependency.py:100-101 | the older `nonclosed`: not closed-class (`AgreeWithBaseWithoutStopwords`) |
| DepFilters.SemanticTest | tcfnetworks/annotators/dependency.py:103-110 | the older `semantic`: open class, an entity or a reference; verbs get no case of their own |
| DepFilters.ConceptTest | tcfnetworks/annotators/extended_dependency.py:148-153 | the extended `concept`: `semantic` without verbs and adverbs (`ConceptRejectsVerbsAndAdverbs`) |
| DepFilters.Accepts | tcfnetworks/annotators/extended_dependency.py:133-173 | the test a dependency worker's method name selects; `entity` and `actor` are the same tests as the base class's (extended_dependency.py:155-173 repeats them) |
| DepFilters.DependencyPolicyNamed | tcfnetworks/annotators/dependency.py:60-64 | exactly `full`, `nonclosed` and `semantic` name a test of the dependency worker |
| DepFilters.ExtendedPolicyNamed | tcfnetworks/annotators/extended_dependency.py:66-72 | the extended worker knows the dependency worker's names plus exactly `concept`, `entity` and `actor` |
| DepFilters.ConceptRejectsVerbsAndAdverbs | tcfnetworks/annotators/extended_dependency.py:148-153 | the extended `concept` holds iff `semantic` holds and the token is neither verb nor adverb |
| DepFilters.AgreeWithBaseWithoutStopwords | tcfnetworks/annotators/dependency.py:97-110 | the older `full` and `nonclosed` equal the base tests with an empty stop-word list, and the base `lexical` implies the older `semantic` |
| ParseTree.FindDependents | tcfnetworks/annotators/dependency.py:146-166 | every dependent returned passes the filter and lies strictly inside the parse |
| ParseTree.FindEdges | tcfnetworks/annotators/dependency.py:112-144 | both tokens of every pair returned pass the filter |
| ParseTree.HeadEdges | tcfnetworks/annotators/dependency.py:127-134 | under an accepted head, the (head, dependent) pairs and subtree pairs have both ends accepted |
| ParseTree.SubtreeEdges | tcfnetworks/annotators/dependency.py:141-144 | the subtree pairs collected after the dependents have both ends accepted |
| ParseTree.FindDependentsReached | tcfnetworks/annotators/dependency.py:146-166 | a dependent is found iff it is accepted and reached from the head through excluded tokens only (both directions) |
| ParseTree.DescentSkipsExcluded | tcfnetworks/annotators/dependency.py:146-166 | for a → b → c with b excluded, the dependents of a are [c] and its only edge is (a, c) |
| ParseTree.ExcludedHeadPairsDependents | tcfnetworks/annotators/dependency.py:135-144 | under an excluded head, the edges begin with all pairs i < j of the filtered dependents and never touch the head |
| ParseTree.KeepAllEdgesAreTreeEdges | tcfnetworks/annotators/dependency.py:112-166 | with a filter that accepts everything, `find_edges` is the plain tree-edge enumeration |
| ParseTree.TreeEdgesCount | tcfnetworks/scripts/test_dependency.py:120-125 | a tree of n tokens has exactly n − 1 tree edges |
| ParseTree.TreeEdgesAreParentChild | tcfnetworks/scripts/test_dependency.py:120-125 | every tree edge joins a token to one of its own dependents |
| ParseTree.TreeEdgesFromCount | tcfnetworks/scripts/test_dependency.py:120-125 | `TreeEdgesFrom`, the enumeration from the i-th dependent on, yields one edge per token of those dependents' subtrees |
| ParseTree.TreeEdgesFromParentChild | tcfnetworks/scripts/test_dependency.py:120-125 | every edge `TreeEdgesFrom` yields joins two tokens of the tree, a token and one of its own dependents |
| ParseTree.DependentsFromMembers | tcfnetworks/annotators/dependency.py:160-166 | the `for dependent in` loop from the i-th dependent on yields d iff some later dependent is d and accepted, or is excluded and yields d from its own dependents |
| ParseTree.Subtrees | tcfnetworks/scripts/test_dependency.py:120-125 | the pre-order list of subtrees starts with the tree itself |
| Pairs.Combinations | tcfnetworks/annotators/dependency.py:138-140 | `combinations(s, 2)` has n(n − 1)/2 pairs, all drawn from s |
| Pairs.PairsWithFirst | tcfnetworks/annotators/dependency.py:138-140 | the pairs led by the first element pair it with every later element, in order |
| Pairs.CombinationsComplete | tcfnetworks/annotators/cooccurrence.py:124 | every (s[i], s[j]) with i < j is produced |
| Pairs.CombinationsSound | tcfnetworks/annotators/cooccurrence.py:124 | every pair produced is some (s[i], s[j]) with i < j |
| Pairs.CombinationsDistinct | tcfnetworks/annotators/cooccurrence.py:124 | distinct elements give distinct pairs |
| Graphs.FindVertex | tcfnetworks/annotators/dependency.py:71-74 | returns the first vertex carrying the name, or none when no vertex carries it |
| Graphs.FindEdge | tcfnetworks/annotators/dependency.py:81-82 | returns the first edge joining the two vertices in either direction, or none |
| Graphs.Names | tcfnetworks/utils.py:76-81 | the name set holds every vertex name and only names that `FindVertex` finds |
| Graphs.FindOrAdd | tcfnetworks/annotators/dependency.py:71-74 | an existing vertex is returned unchanged; otherwise one vertex with the name is appended; edges stay |
| Graphs.TouchVertex | tcfnetworks/annotators/dependency.py:68-75 | the returned index names the vertex; earlier vertices keep their names and edges stay |
| Graphs.RecordIdAdds | tcfnetworks/annotators/dependency.py:75 | after recording, the token ID is in the vertex's `tokenIDs`, and exactly one ID is added when the attribute holds a set |
| Graphs.TouchIds | tcfnetworks/annotators/extended_dependency.py:79-87 | touching a vertex adds the token ID to that name's ID set and to no other name's |
| Graphs.TouchKeepsUniqueIds | tcfnetworks/annotators/extended_dependency.py:84-87 | the append-if-absent recording keeps every vertex's `tokenIDs` list free of duplicates |
| Graphs.TouchDistinct | tcfnetworks/annotators/dependency.py:71-74 | find-before-add keeps vertex names unique |
| Graphs.TouchKeepsEdges | tcfnetworks/annotators/dependency.py:68-75 | touching a vertex adds its name to the name set, keeps the graph well formed and changes no edge between any names |
| Graphs.FindEdgeSymmetric | tcfnetworks/annotators/extended_dependency.py:64 | edge lookup does not depend on the order of the endpoints |
| Graphs.SetEdge | tcfnetworks/annotators/compare.py:95-101 | find the edge of a pair, add it when missing, and write its attributes; vertices unchanged (`SetEdgeBetween`, `SetEdgeValid`) |
| Graphs.Increment | tcfnetworks/annotators/dependency.py:81-90 | add an edge of weight 1 or add 1 to the existing weight (`IncrementWeightBetween`, `IncrementValid`) |
| Graphs.AddOrIncrement | tcfnetworks/annotators/extended_dependency.py:109-128 | `add_or_increment_edge`: a loop is skipped, otherwise `Increment` (`AddOrIncrementWeightBetween`, `AddOrIncrementValid`) |
| Graphs.SetEdgeBetween | tcfnetworks/annotators/compare.py:97-108 | writing an edge's attributes changes the attributes between that name pair and no other |
| Graphs.SetEdgeValid | tcfnetworks/annotators/compare.py:97-108 | writing an edge keeps one edge per name pair, positive weights and the absence of self-loops |
| Graphs.IncrementWeightBetween | tcfnetworks/annotators/dependency.py:81-90 | add-or-increment raises the weight between that name pair by one and no other weight |
| Graphs.IncrementValid | tcfnetworks/annotators/dependency.py:81-90 | add-or-increment keeps the graph valid (unique names, one edge per pair, positive weights) |
| Graphs.AddOrIncrementWeightBetween | tcfnetworks/annotators/extended_dependency.py:109-128 | `add_or_increment_edge` leaves every weight alone when source equals target, and otherwise raises exactly the weight between the two names by one |
| Graphs.AddOrIncrementValid | tcfnetworks/annotators/extended_dependency.py:109-128 | `add_or_increment_edge` keeps the graph valid and never creates a self-loop |
| Graphs.GraphStore.Empty | tcfnetworks/annotators/dependency.py:52-55 | a new graph holds no vertex and no edge |
| Graphs.GraphStore.Copy | tcfnetworks/utils.py:73-75 | the copy holds the given graph's value |
| Graphs.GraphStore.Touch | tcfnetworks/annotators/dependency.py:68-75 | the store's new value is the touched graph and the index is the vertex's |
| Graphs.GraphStore.FindOrAddVertex | tcfnetworks/annotators/compare.py:78-81 | the store's new value and the index are those of `FindOrAdd` |
| Graphs.GraphStore.PutEdge | tcfnetworks/annotators/compare.py:97-108 | the store's new value has the edge's attributes written |
| Graphs.GraphStore.AddOrIncrementEdge | tcfnetworks/annotators/extended_dependency.py:109-128 | the store's new value is `AddOrIncrement` of the old one |
| Graphs.GraphStore.IncrementEdge | tcfnetworks/annotators/dependency.py:81-90 | the store's new value is `Increment` of the old one |
| Graphs.GraphStore.SetVertexAttrs | tcfnetworks/utils.py:83-94 | only vertex i's attributes change |
| Graphs.GraphStore.SetVertexName | tcfnetworks/scripts/test_dependency.py:114-117 | only vertex i's name changes |
| Dependency.Keep | tcfnetworks/annotators/dependency.py:60-64 | the test the method name selects, as the walker's filter |
| Dependency.AddPair | tcfnetworks/annotators/dependency.py:66-90 | one walker pair: both nodes found or added, IDs recorded, edge added or incremented unless the pair is a loop (`AddPairWeight`, `AddPairValid`) |
| Dependency.AddPairs | tcfnetworks/annotators/dependency.py:65-90 | the pair loop in order (`AddPairsWeights`, `AddPairsNames`, `AddPairsIds`, `AddPairsValid`) |
| Dependency.PairCount | tcfnetworks/annotators/dependency.py:77-90 | the number of non-loop pairs joining two labels, the weight `AddPairsWeights` adds |
| Dependency.TouchPair | tcfnetworks/annotators/dependency.py:68-75 | both endpoints are found or added by label and no edge changes |
| Dependency.TouchPairShape | tcfnetworks/annotators/dependency.py:68-75 | the pair's two labels join the name set and the graph stays valid |
| Dependency.TouchPairKeepsEdges | tcfnetworks/annotators/dependency.py:68-75 | finding or adding the pair's nodes changes no edge between any two names |
| Dependency.TouchPairIds | tcfnetworks/annotators/dependency.py:68-75 | both token IDs are recorded on their nodes, also when the pair is a loop |
| Dependency.AddPairTo | tcfnetworks/annotators/dependency.py:65-90 | one loop step leaves the store holding `AddPair` of the old value |
| Dependency.AddPairsTo | tcfnetworks/annotators/dependency.py:65-90 | the pair loop leaves the store holding `AddPairs` of the old value |
| Dependency.AddPairWeight | tcfnetworks/annotators/dependency.py:77-90 | one pair raises the weight between its two labels by one, and nothing when both tokens share a label |
| Dependency.AddPairValid | tcfnetworks/annotators/dependency.py:77-90 | one pair keeps the graph valid and free of self-loops |
| Dependency.AddPairsValid | tcfnetworks/annotators/dependency.py:65-90 | the builder keeps the graph valid and free of self-loops |
| Dependency.AddPairsWeights | tcfnetworks/annotators/dependency.py:65-90 | every final weight is the start weight plus the number of non-loop pairs mapping to that label pair; no self-loop weight ever grows |
| Dependency.AddPairsNames | tcfnetworks/annotators/dependency.py:68-75 | the node labels are the start labels plus the labels of every pair's tokens, loops included |
| Dependency.AddPairsExactIds | tcfnetworks/annotators/dependency.py:75 | every `tokenIDs` stays a set |
| Dependency.AddPairsIds | tcfnetworks/annotators/dependency.py:68-75 | each node's `tokenIDs` is its start set plus the IDs of all pair tokens carrying its label |
| Dependency.NodesPassTest | tcfnetworks/annotators/dependency.py:65-75 | every node the builder adds is the label of some token that passes the filter |
| Dependency.ParseToGraph | tcfnetworks/annotators/dependency.py:47-92 | an unknown method name is an error that leaves a supplied graph unchanged; otherwise the supplied graph is extended in place (a new one created when none is given) with the pairs of `find_edges` |
| Dependency.AddSemanticParse | tcfnetworks/annotators/dependency.py:39-41 | one parse goes into the running graph with the `semantic` test and `semantic_unit` labels |
| Dependency.AddAnnotations | tcfnetworks/annotators/dependency.py:37-45 | a document without parses is an error, where the source fails on the missing graph; otherwise the graph is built from the pairs of all parses in order |
| Dependency.DocumentPairs | tcfnetworks/annotators/dependency.py:37-45 | every pair of the document passes the filter |
| Dependency.AddPairsAppend | tcfnetworks/annotators/dependency.py:37-45 | adding pairs in two batches equals adding their concatenation, so successive parses accumulate |
| Extended.Within | tcfnetworks/annotators/extended_dependency.py:97-98 | reference for a shortest-path length of at most `distance`: a walk of at most that many edges (`BallIsWithin`) |
| Extended.Neighbours | tcfnetworks/annotators/extended_dependency.py:91-99 | one step along any edge, in either direction |
| Extended.Close | tcfnetworks/annotators/extended_dependency.py:96-99 | the pairs kept by the distance test, in order (`CloseMembers`) |
| Extended.Expansion | tcfnetworks/annotators/extended_dependency.py:91-99 | the `additional_edges` of all vertex pairs (`ExpansionPairs`, `AdditionalEdges`) |
| Extended.ApplyEdges | tcfnetworks/annotators/extended_dependency.py:101-102 | `add_or_increment_edge` for each collected pair (`ApplyEdgesWeight`, `ApplyEdgesValid`) |
| Extended.Ball | tcfnetworks/annotators/extended_dependency.py:91-99 | the vertex itself is within any distance of itself |
| Extended.BallIsWithin | tcfnetworks/annotators/extended_dependency.py:91-99 | a vertex is in the ball iff a walk of at most `distance` edges reaches it (both directions) |
| Extended.BallSound | tcfnetworks/annotators/extended_dependency.py:91-99 | every ball member is reached by a walk of at most `distance` edges |
| Extended.BallComplete | tcfnetworks/annotators/extended_dependency.py:91-99 | the end of every walk of at most `distance` edges is in the ball |
| Extended.Indices | tcfnetworks/annotators/extended_dependency.py:93-94 | the vertex indices 0 .. n − 1 in order |
| Extended.CloseMembers | tcfnetworks/annotators/extended_dependency.py:95-99 | a candidate pair is kept iff its second vertex is within distance of its first |
| Extended.ExpansionPairs | tcfnetworks/annotators/extended_dependency.py:91-99 | the collected pairs are distinct, ordered, and (i, j) with i < j is collected iff j is within distance of i; unreachable pairs are skipped |
| Extended.AdditionalEdges | tcfnetworks/annotators/extended_dependency.py:91-99 | the collection loop, run on the unmodified graph, returns exactly the expansion pairs |
| Extended.ApplyEdgesTo | tcfnetworks/annotators/extended_dependency.py:101-102 | the apply loop leaves the store holding `ApplyEdges` of the old value |
| Extended.ApplyEdgesWeight | tcfnetworks/annotators/extended_dependency.py:101-102 | each collected pair raises its weight by exactly one and no other weight changes |
| Extended.ApplyEdgesValid | tcfnetworks/annotators/extended_dependency.py:101-102 | applying the pairs keeps the graph valid and free of self-loops |
| Extended.ExpansionWeight | tcfnetworks/annotators/extended_dependency.py:91-102 | the expansion raises a vertex pair's weight by one iff the pair is within distance |
| Extended.AdjacentGrows | tcfnetworks/annotators/extended_dependency.py:91-102 | already adjacent pairs gain one more unit of weight |
| Extended.PathExample | tcfnetworks/annotators/extended_dependency.py:91-99 | on the path a–b–c–d, c is within distance 2 of a and d is not |
| Extended.ParseGraph | tcfnetworks/annotators/extended_dependency.py:63-107 | one parse's graph is valid (unique node names, one edge per name pair, weights that are positive integers) and has no self-loop |
| Extended.ParseGraphValid | tcfnetworks/annotators/extended_dependency.py:76-91 | node `tokenIDs` lists hold no duplicates, every node's `tokenIDs` is a list and every edge's `weight` a number, and with the default distance 1 no expansion happens |
| Extended.ParseGraphNames | tcfnetworks/annotators/extended_dependency.py:73-90 | the parse graph's names are the labels of the pairs' tokens |
| Extended.AddOrIncrementConforms | tcfnetworks/annotators/extended_dependency.py:109-128 | `add_or_increment_edge` keeps every attribute of the expected type |
| Extended.TouchConforms | tcfnetworks/annotators/extended_dependency.py:76-88 | adding a token to its vertex keeps every attribute of the expected type |
| Extended.AddPairsConforms | tcfnetworks/annotators/extended_dependency.py:73-90 | the pair loop keeps every attribute of the expected type and `tokenIDs` free of duplicates |
| Extended.ApplyEdgesConforms | tcfnetworks/annotators/extended_dependency.py:101-102 | the expansion keeps every attribute of the expected type |
| Extended.MergeBuilt | tcfnetworks/annotators/extended_dependency.py:104-107 | merging a parse graph into a running graph never fails, keeps it valid and loop-free and unions the names |
| Extended.ParseToGraph | tcfnetworks/annotators/extended_dependency.py:63-107 | an unknown method name is an error; without a graph the result is the parse graph; with one it is a new graph holding the merge of the given graph and the parse graph, succeeding exactly when that merge does |
| Extended.AddParse | tcfnetworks/annotators/extended_dependency.py:53-54 | one `parse_to_graph` call with a known test: the first parse yields its parse graph, a later one the merge of its parse graph into the running graph, which never fails; the result is valid and its names are the earlier names plus this parse's labels |
| Extended.NetworkStep | tcfnetworks/annotators/extended_dependency.py:104-107 | merging the n-th parse graph into the network of the earlier parses never fails and gives the network of the first n parses |
| Extended.AddNextParse | tcfnetworks/annotators/extended_dependency.py:52-54 | one round of the parse loop turns the network of the first i parses into that of the first i + 1 |
| Extended.BuildDocument | tcfnetworks/annotators/extended_dependency.py:49-54 | the parse loop leaves the network of all parses of the document |
| Extended.NetworkWeights | tcfnetworks/annotators/extended_dependency.py:49-54 | the weight between two names in the network is the sum of the weights the parse graphs give them |
| Extended.NetworkNames | tcfnetworks/annotators/extended_dependency.py:49-54 | the network's nodes are exactly the labels of the walker pairs of all parses read so far |
| Extended.NetworkIds | tcfnetworks/annotators/extended_dependency.py:78-87 | a node of the network carries exactly the IDs of the walker-pair tokens read so far that carry its label |
| Extended.ParseGraphIds | tcfnetworks/annotators/extended_dependency.py:78-87 | a parse graph's node carries exactly the IDs of that parse's walker-pair tokens with its label |
| Extended.PairLabelsStep | tcfnetworks/annotators/extended_dependency.py:52-54 | the labels of the first n parses' pairs are those of the first n − 1 plus the n-th parse graph's nodes |
| Extended.PairIdsStep | tcfnetworks/annotators/extended_dependency.py:52-54 | the IDs per label of the first n parses' pairs are those of the first n − 1 plus the n-th parse graph's |
| Extended.NetworkNamesStep | tcfnetworks/annotators/extended_dependency.py:104-107 | merging the n-th parse graph adds exactly its node names |
| Extended.NetworkIdsStep | tcfnetworks/annotators/extended_dependency.py:104-107 | merging the n-th parse graph adds its IDs to the node of the same name |
| Extended.AddAnnotations | tcfnetworks/annotators/extended_dependency.py:49-61 | a document without parses is an error, where the source fails converting the missing graph; an unknown method name is an error once there is a parse; otherwise the result is the `graph_to_tcf` export of the network of all parses (`NetworkWeights`, `NetworkNames`, `NetworkIds` state its content) |
| Cooccurrence.SelectTokens | tcfnetworks/annotators/cooccurrence.py:75-84 | the selection loop returns exactly `Selection` |
| Cooccurrence.Selection | tcfnetworks/annotators/cooccurrence.py:75-84 | the selection is never longer than the token list |
| Cooccurrence.SelectionMembers | tcfnetworks/annotators/cooccurrence.py:75-84 | a token is selected iff it passes the filter and is not a later token of an entity |
| Cooccurrence.SelectionConcat | tcfnetworks/annotators/cooccurrence.py:75-84 | selection distributes over concatenation, so document order is kept |
| Cooccurrence.SelectionEntityOnce | tcfnetworks/annotators/cooccurrence.py:80-83 | each entity is selected at most once |
| Cooccurrence.ClassAttrs | tcfnetworks/annotators/cooccurrence.py:117-120 | a new node gets a `class` exactly when its unit is a lemma or an entity |
| Cooccurrence.AddNode | tcfnetworks/annotators/cooccurrence.py:112-121 | one token: its unit's node found or created with its `class`, then the token ID appended; no edge changes (`AddNodeClass`) |
| Cooccurrence.AddNodes | tcfnetworks/annotators/cooccurrence.py:112-121 | the node loop in order; no edge changes (`AddNodesNames`, `AddNodesIds`, `AddNodesShape`) |
| Cooccurrence.Bump | tcfnetworks/annotators/cooccurrence.py:126-135 | one window pair: add an edge of weight 1 or add 1, loops included; no vertex changes |
| Cooccurrence.CountPairs | tcfnetworks/annotators/cooccurrence.py:124-135 | the window pairs counted in order; no vertex changes (`CountPairsWeight`, `CountPairsValid`) |
| Cooccurrence.WindowCount | tcfnetworks/annotators/cooccurrence.py:122 | the number of iterations of `range(len(tokens) - (gap - 1))`, none when that is not positive |
| Cooccurrence.Cooccurrences | tcfnetworks/annotators/cooccurrence.py:122-124 | every pair of every window (`WindowPairsSound`, `WindowPairsIncludes`, `CooccurrencesMembers`) |
| Cooccurrence.BuildReal | tcfnetworks/annotators/cooccurrence.py:112-135 | the node loop, then every window pair counted (`BuildRealShape`, `BuildRealWeight`, `BuildRealJoins`) |
| Cooccurrence.AddNodesTo | tcfnetworks/annotators/cooccurrence.py:112-121 | the node loop leaves the store holding `AddNodes` of the old value |
| Cooccurrence.AddNodesNames | tcfnetworks/annotators/cooccurrence.py:112-121 | one node per distinct semantic unit: the names become the old names plus the units' texts |
| Cooccurrence.AddNodesShape | tcfnetworks/annotators/cooccurrence.py:112-121 | the node loop keeps the graph valid |
| Cooccurrence.AddNodesEdges | tcfnetworks/annotators/cooccurrence.py:112-121 | the node loop changes no edge |
| Cooccurrence.AddNodesIds | tcfnetworks/annotators/cooccurrence.py:121 | every token's ID is appended to its node's `tokenIDs` list, in order |
| Cooccurrence.AddNodeClass | tcfnetworks/annotators/cooccurrence.py:114-120 | `class` is set only on the node's creation |
| Cooccurrence.AddNodesKeepClass | tcfnetworks/annotators/cooccurrence.py:114-120 | an existing node's `class` is never changed |
| Cooccurrence.AddNodesNewClass | tcfnetworks/annotators/cooccurrence.py:114-120 | a new node's `class` comes from the first token with that unit |
| Cooccurrence.CountWindow | tcfnetworks/annotators/cooccurrence.py:122-135 | one window's pair loop extends the count from the first w windows to the first w + 1 |
| Cooccurrence.CountPairTo | tcfnetworks/annotators/cooccurrence.py:125-135 | one pair step adds that pair to the count |
| Cooccurrence.CountPairsWeight | tcfnetworks/annotators/cooccurrence.py:125-135 | the weight between two names grows by the number of occurrences of the pair in either order, self-pairs included |
| Cooccurrence.CountPairsValid | tcfnetworks/annotators/cooccurrence.py:125-135 | counting keeps one edge per pair with positive integer weight |
| Cooccurrence.WindowPairs | tcfnetworks/annotators/cooccurrence.py:122-124 | every pair of the first n windows is made of window tokens |
| Cooccurrence.WindowPairsSound | tcfnetworks/annotators/cooccurrence.py:122-124 | every counted pair is (us[i], us[j]) with i < j < i + gap |
| Cooccurrence.WindowPairsIncludes | tcfnetworks/annotators/cooccurrence.py:122-124 | every pair inside every window is counted |
| Cooccurrence.CooccurrencesComplete | tcfnetworks/annotators/cooccurrence.py:122-124 | when the list is at least `gap` long, every i < j < i + gap gives a counted pair |
| Cooccurrence.CooccurrencesMembers | tcfnetworks/annotators/cooccurrence.py:122-135 | a pair is counted iff the list is at least `gap` long and the two occur fewer than `gap` apart; shorter lists give no edge |
| Cooccurrence.OccurrencesPositive | tcfnetworks/annotators/cooccurrence.py:125-135 | an occurrence count is positive iff the pair occurs in either order |
| Cooccurrence.Units | tcfnetworks/annotators/cooccurrence.py:113 | the semantic unit texts of the tokens, in order |
| Cooccurrence.UnitsNamed | tcfnetworks/annotators/cooccurrence.py:112-128 | every window token finds its node |
| Cooccurrence.BuildWordsReal | tcfnetworks/annotators/cooccurrence.py:91-137 | `build_graph_words_real` creates a graph when none is given and otherwise extends the given one in place, to `BuildReal` |
| Cooccurrence.BuildRealShape | tcfnetworks/annotators/cooccurrence.py:91-137 | one gap keeps the graph valid and adds the tokens' unit texts as names |
| Cooccurrence.BuildRealWeight | tcfnetworks/annotators/cooccurrence.py:122-135 | every weight grows by the number of (window, pair) occurrences |
| Cooccurrence.BuildRealJoins | tcfnetworks/annotators/cooccurrence.py:122-135 | a weight grows iff two tokens with those units occur fewer than `gap` apart in a list at least `gap` long |
| Cooccurrence.BuildRealIds | tcfnetworks/annotators/cooccurrence.py:121 | each call appends the tokens' IDs to their nodes |
| Cooccurrence.AddGap | tcfnetworks/annotators/cooccurrence.py:86-88 | one round of the gap loop turns the graph of the first k gaps into that of the first k + 1 |
| Cooccurrence.BuildWords | tcfnetworks/annotators/cooccurrence.py:63-89 | no gaps means no graph; otherwise a new graph built from the selection over all gaps |
| Cooccurrence.BuildAll | tcfnetworks/annotators/cooccurrence.py:85-89 | the gap loop gives a graph iff there is at least one gap |
| Cooccurrence.BuildAllShape | tcfnetworks/annotators/cooccurrence.py:85-89 | the graph is valid and has one node per distinct unit |
| Cooccurrence.BuildAllWeight | tcfnetworks/annotators/cooccurrence.py:85-89 | each weight is the sum over all gaps of the pair's occurrences |
| Cooccurrence.BuildAllGrows | tcfnetworks/annotators/cooccurrence.py:85-89 | later gaps only increase weights |
| Cooccurrence.BuildAllIds | tcfnetworks/annotators/cooccurrence.py:86-88 | a node's `tokenIDs` is its tokens' IDs repeated once per gap |
| Cooccurrence.BuildAllClass | tcfnetworks/annotators/cooccurrence.py:114-120 | a node's `class` is that of its first token's unit |
| Cooccurrence.LoopExample | tcfnetworks/annotators/cooccurrence.py:124-135 | two adjacent tokens with the same unit produce a self-loop of weight 1 |
| Cooccurrence.AdjacentPair | tcfnetworks/annotators/cooccurrence.py:122-124 | the list [x, x] with gap 2 counts (x, x) once |
| Cooccurrence.AddAnnotations | tcfnetworks/annotators/cooccurrence.py:43-58 | an unknown method is an error; `words_real` without arguments is an error; `words` without gaps gives no graph; otherwise the graph of all gaps |
| Cooccurrence.BuilderNamed | tcfnetworks/annotators/cooccurrence.py:45-51 | the `getattr` lookup of `build_graph_<method>`: a found builder is the one the method names |
| Cooccurrence.BuilderNamedInverse | tcfnetworks/annotators/cooccurrence.py:45-51 | exactly `words` and `words_real` find a builder, each its own (both directions) |
| Utils.MergeAttr | tcfnetworks/utils.py:86-94 | the type-aware merge of one present and one incoming value, or the error Python raises (`MergeAttrKeepsKind`) |
| Utils.MergeAttrMaps | tcfnetworks/utils.py:83-94 | the attribute maps after the merge loop, or its error (`MergeAttrMapsKeys`, `MergeAttrMapsWeight`, `MergeAttrMapsIds`) |
| Utils.MergeAllFrom | tcfnetworks/utils.py:76-119 | the remaining graphs merged in argument order, stopping at the first error (`MergeAllNames`, `MergeAllValid`, `MergeAllWeights`) |
| Utils.MergeAttributes | tcfnetworks/utils.py:83-94 | the attribute loop computes exactly the type-aware merge `MergeAttrMaps` |
| Utils.MergeAttrKeepsKind | tcfnetworks/utils.py:83-94 | a merged value keeps the type of the present one; same-typed values always merge; a set merges into a dict only when empty; a number merges only into a number |
| Utils.MergeAttrMapsKeys | tcfnetworks/utils.py:83-94 | missing keys are set, keys only present are kept |
| Utils.MergeAttrMapsWeight | tcfnetworks/utils.py:108-119 | merged weights are summed and stay positive |
| Utils.MergeAttrMapsIds | tcfnetworks/utils.py:83-94 | merged `tokenIDs` lists contain the IDs of both |
| Utils.MergeVertex | tcfnetworks/utils.py:77-94 | merging a vertex adds its name and changes no edge |
| Utils.MergeVerticesFrom | tcfnetworks/utils.py:77-94 | the vertex loop adds exactly the incoming names and changes no edge |
| Utils.MergeEdge | tcfnetworks/utils.py:95-119 | merging an edge changes no vertex |
| Utils.MergeEdgesFrom | tcfnetworks/utils.py:95-119 | the edge loop changes no vertex |
| Utils.MergeInto | tcfnetworks/utils.py:76-119 | merging one graph keeps every edge's endpoints in range |
| Utils.MergeVertexInto | tcfnetworks/utils.py:77-94 | the in-place vertex step succeeds iff `MergeVertex` does and then holds its value |
| Utils.MergeVerticesInto | tcfnetworks/utils.py:77-94 | the in-place vertex loop equals `MergeVerticesFrom` |
| Utils.MergeEdgeInto | tcfnetworks/utils.py:95-119 | the in-place edge step equals `MergeEdge` |
| Utils.MergeEdgesInto | tcfnetworks/utils.py:95-119 | the in-place edge loop equals `MergeEdgesFrom` |
| Utils.MergeGraphInto | tcfnetworks/utils.py:76-119 | one round of the outer loop equals `MergeInto` |
| Utils.MergeGraphs | tcfnetworks/utils.py:72-120 | a fresh copy of the first graph receives the others in argument order; success iff every attribute merge succeeds |
| Utils.MergeVertexKeepsEdges | tcfnetworks/utils.py:77-94 | the vertex phase changes no edge between any names |
| Utils.MergeEdgeWeight | tcfnetworks/utils.py:95-119 | merging an edge adds its weight to that name pair's weight only |
| Utils.MergeEdgesValid | tcfnetworks/utils.py:95-119 | the edge loop keeps one edge per pair, positive weights and no self-loops |
| Utils.MergeIntoNames | tcfnetworks/utils.py:76-81 | the merged names are the union of both name sets |
| Utils.MergeIntoValid | tcfnetworks/utils.py:76-119 | merging keeps the graph valid and free of self-loops |
| Utils.MergeIntoWeights | tcfnetworks/utils.py:107-119 | the merged weight between two names is the sum of both weights |
| Utils.MergeIntoIds | tcfnetworks/utils.py:83-94 | a merged node's `tokenIDs` holds the IDs of both nodes |
| Utils.MergeIntoConforms | tcfnetworks/utils.py:76-119 | graphs whose attributes have the same types always merge and keep those types |
| Utils.MergeAllNames | tcfnetworks/utils.py:72-120 | the final names are the union of all input names |
| Utils.MergeAllValid | tcfnetworks/utils.py:72-120 | merging valid graphs gives a valid graph |
| Utils.MergeAllWeights | tcfnetworks/utils.py:72-120 | each final weight is the sum of that pair's weights over all graphs |
| Utils.MergeWeightAssociative | tcfnetworks/utils.py:72-120 | weights do not depend on how the merges are grouped |
| Utils.ParseInt | tcfnetworks/annotators/compare.py:103-104 | Python's `int` of a string, none where Python raises (`IntToStringRoundTrip`) |
| Utils.NodeId | tcfnetworks/utils.py:39-42 | the node ID `n_<index>` (`NodeIdInjective`) |
| Utils.ExportValue | tcfnetworks/utils.py:46-49 | lists as value lists, everything else as its `str` (`ExportAttributes`) |
| Utils.NatToStringRoundTrip | tcfnetworks/utils.py:39-42 | the decimal text of a number reads back as that number |
| Utils.IntToStringRoundTrip | tcfnetworks/utils.py:54-58 | the text written for an integer attribute parses back to it |
| Utils.NatToString | tcfnetworks/utils.py:39-42 | the `n_<index>` node IDs' number text is a non-empty string of decimal digits (`NatToStringRoundTrip` reads it back) |
| Utils.IntToString | tcfnetworks/utils.py:49-58 | `str()` of an integer attribute: non-empty, with a leading minus sign exactly for a negative number (`IntToStringRoundTrip` reads it back) |
| Utils.NodeIdInjective | tcfnetworks/utils.py:39-42 | distinct vertex indices get distinct `n_` IDs |
| Utils.ExportAttributes | tcfnetworks/utils.py:43-49 | every attribute but the skipped ones is written: lists as value lists, the rest as text |
| Utils.GraphToTcf | tcfnetworks/utils.py:34-59 | the export loops produce the element described by `Exports` |
| Utils.ExportedNodeText | tcfnetworks/utils.py:40-42 | node `n_i` carries vertex i's name as text |
| Utils.ExportedEdgesResolve | tcfnetworks/utils.py:50-53 | each edge's source and target IDs resolve to its endpoints' names |
| Utils.ExportedWeightParses | tcfnetworks/utils.py:54-58 | an exported weight is written and reads back as the same integer |
| Compare.LabelsOf | tcfnetworks/annotators/compare.py:105-106 | `get_value_set('label')` of an edge (`AddLabels`) |
| Compare.Combine | tcfnetworks/annotators/compare.py:102-108 | the existing edge with the incoming weight added and the label sets united (`CompareEdgeCombines`, `CompareIntoBetween`) |
| Compare.AddNodes | tcfnetworks/annotators/compare.py:78-81 | the node loop adds exactly the incoming labels and no edge |
| Compare.AddNodesVertices | tcfnetworks/annotators/compare.py:78-81 | existing nodes are untouched and new nodes carry only their label |
| Compare.AddNodesTo | tcfnetworks/annotators/compare.py:78-81 | the in-place node loop equals `AddNodes` |
| Compare.CompareEdge | tcfnetworks/annotators/compare.py:82-108 | one edge step changes no node; its effect on the edge is stated by `CompareEdgeCombines` and `CompareEdgeBetween` |
| Compare.CompareEdgeCombines | tcfnetworks/annotators/compare.py:82-108 | the step writes the combination of the base edge's attributes and the incoming ones |
| Compare.CompareEdgeBetween | tcfnetworks/annotators/compare.py:97-108 | the step adds the incoming weight and labels to that pair only |
| Compare.CompareEdgeValid | tcfnetworks/annotators/compare.py:97-108 | the step keeps one edge per pair, labelled edges and no self-loops |
| Compare.CompareEdges | tcfnetworks/annotators/compare.py:82-108 | the edge loop changes no node |
| Compare.CompareEdgesBetween | tcfnetworks/annotators/compare.py:82-108 | after the loop, each weight is increased by the incoming weights and each label set by the incoming labels |
| Compare.CompareEdgesValid | tcfnetworks/annotators/compare.py:82-108 | the edge loop keeps the graph well formed and labelled |
| Compare.AddLabels | tcfnetworks/annotators/compare.py:105-108 | the label update is the union of both sets |
| Compare.CompareEdgeInto | tcfnetworks/annotators/compare.py:82-108 | the in-place edge step equals `CompareEdge` |
| Compare.CompareEdgesInto | tcfnetworks/annotators/compare.py:82-108 | the in-place edge loop equals `CompareEdges` |
| Compare.MergeGraphs | tcfnetworks/annotators/compare.py:70-109 | the base graph object is returned and ends up holding all graphs merged in argument order |
| Compare.CompareInto | tcfnetworks/annotators/compare.py:76-108 | one further graph: its nodes, then its edges (`CompareIntoNames`, `CompareIntoValid`, `CompareIntoBetween`) |
| Compare.CompareAll | tcfnetworks/annotators/compare.py:75-108 | all further graphs in argument order (`CompareAllNodes`, `CompareAllWeight`, `CompareAllLabels`) |
| Compare.CompareIntoNames | tcfnetworks/annotators/compare.py:78-81 | every label of the merged graph ends up in the base exactly once |
| Compare.CompareIntoVertices | tcfnetworks/annotators/compare.py:81 | only labels are copied for new nodes |
| Compare.CompareIntoValid | tcfnetworks/annotators/compare.py:78-108 | merging keeps one edge per pair, labelled edges and no self-loops |
| Compare.CompareIntoBetween | tcfnetworks/annotators/compare.py:97-108 | merged weight is the sum of both and merged labels the union of both |
| Compare.CompareAllSimple | tcfnetworks/annotators/compare.py:70-109 | merging several graphs keeps the base well formed |
| Compare.CompareAllNodes | tcfnetworks/annotators/compare.py:70-109 | the final labels are the union of all graphs' labels |
| Compare.CompareAllWeight | tcfnetworks/annotators/compare.py:70-109 | each final weight is the sum over all graphs |
| Compare.CompareAllLabels | tcfnetworks/annotators/compare.py:70-109 | each final label set is the union over all graphs |
| Compare.LabelEdges | tcfnetworks/annotators/compare.py:42-43 | every edge's `label` becomes the set holding the method name, nothing else changes |
| Compare.LabelledAfterLabelling | tcfnetworks/annotators/compare.py:42-43 | after labelling every edge carries exactly that label |
| TreeScript.IdPairs | tcfnetworks/scripts/test_dependency.py:97 | each tree edge becomes the pair of its token IDs |
| TreeScript.AddTreeEdge | tcfnetworks/scripts/test_dependency.py:102-112 | one ID pair: both nodes found or added, an edge added unless there is one (`AddTreeEdgeLinks`, `AddTreeEdgeShape`) |
| TreeScript.AddTreeEdges | tcfnetworks/scripts/test_dependency.py:97-112 | the pair loop in order (`AddTreeEdgesShape`, `AddTreeEdgesLinks`) |
| TreeScript.TreeGraph | tcfnetworks/scripts/test_dependency.py:94-112 | the tree graph before relabelling (`TreeShape`, `TreeLinks`, `TreeNames`) |
| TreeScript.AddTreeEdgeTo | tcfnetworks/scripts/test_dependency.py:97-112 | one loop step leaves the store holding `AddTreeEdge` of the old value |
| TreeScript.AddTreeEdgeLinks | tcfnetworks/scripts/test_dependency.py:102-112 | after a step, two IDs are linked iff they were before or the step's pair joins them |
| TreeScript.AddTreeEdgeShape | tcfnetworks/scripts/test_dependency.py:102-112 | a step adds both IDs as nodes and keeps one unweighted edge per pair |
| TreeScript.AddTreeEdgesTo | tcfnetworks/scripts/test_dependency.py:97-112 | the pair loop leaves the store holding `AddTreeEdges` of the old value |
| TreeScript.AddTreeEdgesShape | tcfnetworks/scripts/test_dependency.py:97-112 | one node per distinct token ID, at most one unweighted edge per pair |
| TreeScript.AddTreeEdgesLinks | tcfnetworks/scripts/test_dependency.py:97-112 | two IDs are linked iff some pair joins them |
| TreeScript.TreeEdgesComplete | tcfnetworks/scripts/test_dependency.py:120-125 | every (head, dependent) link of the tree is enumerated |
| TreeScript.TreePairsJoin | tcfnetworks/scripts/test_dependency.py:120-125 | an ID pair is enumerated iff one is the parent of the other |
| TreeScript.TreeShape | tcfnetworks/scripts/test_dependency.py:97-112 | the tree graph has unique nodes and at most one unweighted edge per pair |
| TreeScript.TreeLinks | tcfnetworks/scripts/test_dependency.py:97-112 | two IDs are linked iff they are parent and child in the parse |
| TreeScript.TreeNames | tcfnetworks/scripts/test_dependency.py:97-112 | the nodes are all token IDs of the tree, and none for a single-token tree |
| TreeScript.TreeEdgesJoinParentChild | tcfnetworks/scripts/test_dependency.py:109-112 | every edge of the graph joins a parent and a child |
| TreeScript.Relabel | tcfnetworks/scripts/test_dependency.py:114-117 | each node's token ID replaced by its token's text (`RelabelKeeps`) |
| TreeScript.RelabelKeeps | tcfnetworks/scripts/test_dependency.py:113-117 | relabelling replaces each node's ID by its token's text and changes nothing else |
| TreeScript.RelabelNodes | tcfnetworks/scripts/test_dependency.py:113-117 | the relabel loop equals `Relabel` |
| TreeScript.TreeOf | tcfnetworks/scripts/test_dependency.py:93-118 | the tree's node texts are the texts of all its tokens |
| TreeScript.ParseToTree | tcfnetworks/scripts/test_dependency.py:93-118 | `parse_to_tree` builds a new graph equal to `TreeOf` |
| TreeScript.Join | tcfnetworks/scripts/test_dependency.py:89-90 | `':'.join`, which `Split` inverts (`SplitJoin`, `JoinSplit`) |
| TreeScript.Split | tcfnetworks/scripts/test_dependency.py:89-90 | `str.split(':')` returns at least one piece |
| TreeScript.SplitJoin | tcfnetworks/scripts/test_dependency.py:89-90 | joining the pieces with `:` gives back the string |
| TreeScript.JoinSplit | tcfnetworks/scripts/test_dependency.py:89-90 | splitting colon-free pieces joined with `:` gives back the pieces |
| TreeScript.SplitCount | tcfnetworks/scripts/test_dependency.py:89-90 | there is one piece more than there are colons |
| TreeScript.SplitColonFree | tcfnetworks/scripts/test_dependency.py:89-90 | a colon-free prefix joins the first piece |
| TreeScript.SettingsAfterPieces | tcfnetworks/scripts/test_dependency.py:89-90 | a method name of three colon-free pieces sets the `nodes`, `edges` and `label` options to them, in order |
| TreeScript.SettingsAfterKept | tcfnetworks/scripts/test_dependency.py:85-90 | a method name without exactly two colons (the tree among them) leaves the options unchanged |
| TreeScript.NetworkFor | tcfnetworks/scripts/test_dependency.py:91 | an unknown test name is an error; with a known test and label the result is exactly the extended parse graph; with a known test and an unknown label it is an error iff the walker finds a pair, and otherwise the empty graph |
| TreeScript.NetworkIgnoresFilterFields | tcfnetworks/scripts/test_dependency.py:89-91 | for a three-piece method only the third piece (the label) changes the network |
| TreeScript.DefaultLexicalNetwork | tcfnetworks/scripts/test_dependency.py:41-43 | the default `lexical:dependency:lemma` yields the lemma-labelled network of the worker's own test |
| TreeScript.Step | tcfnetworks/scripts/test_dependency.py:85-91 | one method: the tree, an unpacking error unless the name has three pieces, or `NetworkFor` the label (`RunNext`, `RunStop`) |
| TreeScript.Run | tcfnetworks/scripts/test_dependency.py:84-91 | the method loop: yields in order until the first failing method (`RunYields`) |
| TreeScript.RunYields | tcfnetworks/scripts/test_dependency.py:84-91 | the yielded (method, graph) pairs follow the methods in order until the first failing one |
| TreeScript.RunNext | tcfnetworks/scripts/test_dependency.py:84-91 | a succeeding method is yielded and the run continues with the updated options |
| TreeScript.RunStop | tcfnetworks/scripts/test_dependency.py:84-91 | a failing method stops the run with its error |
| TreeScript.ParseToNetwork | tcfnetworks/scripts/test_dependency.py:91 | the worker's graph for a method is `NetworkFor` its settings |
| TreeScript.ComparingWorker.Default | tcfnetworks/scripts/test_dependency.py:37-45 | the worker starts with the default method, distance, label and method list |
| TreeScript.ComparingWorker.GraphOf | tcfnetworks/scripts/test_dependency.py:85-91 | one method is one step; the options change as the split assigns them |
| TreeScript.ComparingWorker.IterGraphs | tcfnetworks/scripts/test_dependency.py:84-91 | the loop yields what `Run` yields and leaves the options as `Run` leaves them |

## Left out

- igraph's graph-wide attribute table: a vertex attribute absent from one vertex is absent in the model rather than `None`.
- Float weights: weights are integers and `int()` on their text is modelled as exact decimal parsing.
- Floating-point `inf` from igraph's shortest paths: an unreachable pair is simply not within distance.
- igraph's shortest-path algorithm: distance is defined as "reachable by a walk of at most `distance` edges" (`Extended.Ball`), not computed the way igraph computes it.
- Shared list objects after igraph's shallow `copy()`: the model has value semantics, so a merged list never changes an input graph.
- The text Python's `str()` gives a set or dict attribute in `graph_to_tcf`: the model records the value itself.
- Attribute values of types other than text, integer, list, set and dict (`None`, tuples, floats).
- Iteration order of Python dicts and of vertex attributes: attribute maps are unordered maps.
- `utils.merge_graphs` with no arguments: the model takes the first graph as a separate argument.
- The tcflib document and XML API (`find_token`, `xpath`, `add_node`, node IDs assigned by tcflib): tokens arrive as records with their references, parses as trees, and `find_token` as a map from token ID to text that covers the parse (a precondition of `TreeScript.ParseToTree`).
- The ISOcat tag set: part-of-speech classes are flags on the token.
- Stop-word preset files: the loaded word list is an input.
- Logging, `sys.exit` and the command-line entry points: fatal configuration errors are error results.
- Generators: `find_dependents`, `find_edges`, `find_dependency_edges` and `iter_graphs` return finished sequences.
- Negative `gap` values: gaps are natural numbers.
- Entities whose `tokenIDs` list is empty: the source fails with an index error there, and `Cooccurrence.Selection` requires every accepted entity token's entity to list at least one token.
- Token attributes other than `text`, `lemma` and `semantic_unit` as node labels: Python's `getattr` would read any token attribute, while `TreeScript.NetworkFor` treats any other label name as an error once an edge needs a node.
- `compare.add_annotations` as a whole: it changes the distance option mid-run and calls the co-occurrence builder with arguments that method does not accept; only its edge-labelling loops (`Compare.LabelEdges`) and `merge_graphs` are modelled.
- `tcf_to_graph`, the exporters and `setup.py`: serialisation through files and libraries.
- Plotting, layouts and file output in `test_dependency.add_annotations`.
- TCF `find_edge` is taken to match either direction: a direction-sensitive lookup would add a second edge for a pair met in the other order (tokens x y x with gap 2), where the model adds to the one edge.
- Tokens.Attribute: the semantic unit is taken as its text, i.e. the unit element is assumed to compare equal to `str()` of itself; whether a tcflib element equals a string is not part of this model. The same assumption covers the `find_node(a.semantic_unit)` lookups at cooccurrence.py:126-127, which the model makes by the unit's text as line 114 does.
- Filters.PassesStopwords: for the `semantic_unit` feature the stop-word test compares the unit's text with the list, where base.py:114 tests the unit element itself (see `Tokens.Attribute`).
- Utils.MergeAttr: a non-empty set merged into a dict is an error here, while Python's `dict.update` accepts a set of two-character strings and adds their pairs in set iteration order; the empty set is modelled exactly.
- Utils.MergeAttributes: inherits that one difference from `Utils.MergeAttr`.
- Compare.CompareEdge: an incoming edge without a weight counts as weight 0 and one without a label as an empty label set, where `compare.py:100-101` raises `TypeError` setting an attribute to `None` and `compare.py:103-104` raises it on `int(None)`.
- Compare.Combine: likewise, a base edge without a weight counts as weight 0 instead of the `TypeError` of `int(None)`.
- Cooccurrence.AddAnnotations: the missing-argument error of the `words_real` method is a named error rather than Python's `TypeError`.

=== FILE: compare.dfy ===
/**
 * The merger of tcfnetworks/annotators/compare.py, which combines the TCF
 * graphs of three builders into the first of them. A TCF graph is a Graph
 * value here: vertex i is the node with ID `n_<i>`, its name is the node's
 * text, and an edge's endpoints are the positions those IDs name (see
 * Utils.ExportedEdgesResolve). An edge's `weight` is a number and its
 * `label` is the value set tcflib reads from the attribute.
 *
 * Nodes are merged by text: a text the base lacks becomes a new node with
 * no attributes. Edges are merged by their endpoints' texts: a new edge
 * copies only the incoming label and weight; an existing one gets the sum
 * of both weights and the union of both label sets.
 */
module Compare {
  import opened Graphs
  import Utils

  const LabelKey: string := "label"

  /** The labels of an edge (`get_value_set('label')`); none without a label. */
  function LabelsOf(a: Attrs): set<string>
  {
    if LabelKey in a && a[LabelKey].Set? then a[LabelKey].members else {}
  }

  /** The labels of the edge joining the nodes with texts `a` and `b`; none when either or the edge is missing. */
  function LabelsBetween(g: Graph, a: string, b: string): set<string>
  {
    LabelsOf(AttrsBetween(g, a, b))
  }

  /** Whether edge attributes hold a numeric weight and a label set. */
  predicate EdgeLabelled(a: Attrs)
  {
    WeightKey in a && a[WeightKey].Num? && LabelKey in a && a[LabelKey].Set?
  }

  /** Whether every edge carries a numeric weight and a label set, as the edges of an exported and labelled graph do. */
  ghost predicate Labelled(es: seq<Edge>)
  {
    forall k | 0 <= k < |es| :: EdgeLabelled(es[k].attrs)
  }

  // ----------------------------------------------------------- the merge

  /** The node texts of `vs[i..]` added to the base, each unless a node already has it. */
  function AddNodes(g: Graph, vs: seq<Vertex>, i: nat): (r: Graph)
    ensures r.edges == g.edges
    ensures Names(r) == Names(g) + Utils.NamesFrom(vs, i)
    decreases |vs| - i
  {
    if i >= |vs| then g
    else
      var g1 := FindOrAdd(g, vs[i].name, map[]).0;
      assert Names(g1) == Names(g) + {vs[i].name} by {
        if FindVertex(g.vertices, vs[i].name).None? {
          NamesAppend(g, Vertex(vs[i].name, map[]));
        }
      }
      AddNodes(g1, vs, i + 1)
  }

  /** An existing edge's attributes `b` with an incoming edge's weight added and its labels united into `b`'s. */
  function Combine(b: Attrs, a: Attrs): Attrs
  {
    b[WeightKey := Num(WeightAttr(b) + WeightAttr(a))][LabelKey := Set(LabelsOf(b) + LabelsOf(a))]
  }

  /**
   * The base edge for one incoming edge, given by its endpoints' texts: a
   * new edge with only the incoming label and weight, or the existing edge
   * with the weights summed and the label sets united.
   */
  function CompareEdge(g: Graph, s: string, t: string, a: Attrs): (r: Graph)
    requires s in Names(g) && t in Names(g)
    ensures r.vertices == g.vertices
  {
    var i, j := FindVertex(g.vertices, s).value, FindVertex(g.vertices, t).value;
    match FindEdge(g.edges, i, j)
    case None => SetEdge(g, i, j, map[WeightKey := Num(WeightAttr(a)), LabelKey := Set(LabelsOf(a))])
    case Some(k) => SetEdge(g, i, j, Combine(g.edges[k].attrs, a))
  }

  /** The incoming edges `es[n..]` of a graph with nodes `vs` merged into the base, in order. */
  function CompareEdges(g: Graph, vs: seq<Vertex>, es: seq<Edge>, n: nat): (r: Graph)
    requires Utils.EndpointsIn(vs, es)
    requires forall k | 0 <= k < |vs| :: vs[k].name in Names(g)
    ensures r.vertices == g.vertices
    decreases |es| - n
  {
    if n >= |es| then g
    else CompareEdges(CompareEdge(g, vs[es[n].source].name, vs[es[n].target].name, es[n].attrs), vs, es, n + 1)
  }

  /** One further graph merged into the base: its nodes first, then its edges. */
  function CompareInto(g: Graph, h: Graph): (r: Graph)
    requires EdgesInRange(h)
  {
    var g1 := AddNodes(g, h.vertices, 0);
    CompareEdges(g1, h.vertices, h.edges, 0)
  }

  /** The graphs `hs[n..]` merged into the base, in argument order. */
  function CompareAll(g: Graph, hs: seq<Graph>, n: nat): Graph
    requires forall k | 0 <= k < |hs| :: EdgesInRange(hs[k])
    decreases |hs| - n
  {
    if n >= |hs| then g else CompareAll(CompareInto(g, hs[n]), hs, n + 1)
  }

  // ------------------------------------------------------------- on the base

  /** The loop over the incoming nodes: each text the base lacks is added as a new node. */
  method AddNodesTo(base: GraphStore, vs: seq<Vertex>)
    modifies base
    ensures base.Value() == AddNodes(old(base.Value()), vs, 0)
  {
    ghost var g0 := base.Value();
    for i := 0 to |vs|
      invariant AddNodes(g0, vs, 0) == AddNodes(base.Value(), vs, i)
    {
      var _ := base.FindOrAddVertex(vs[i].name, map[]);
    }
  }

  /** The loop that adds each incoming label the base's label set lacks. */
  method AddLabels(present: set<string>, incoming: set<string>) returns (r: set<string>)
    ensures r == present + incoming
  {
    r := present;
    var todo := incoming;
    while todo != {}
      invariant todo <= incoming
      invariant r + todo == present + incoming
      decreases todo
    {
      var l :| l in todo;
      if l !in r {
        r := r + {l};
      }
      todo := todo - {l};
    }
  }

  /** The body of the loop over the incoming edges, for one edge given by its endpoints' texts. */
  method CompareEdgeInto(base: GraphStore, s: string, t: string, a: Attrs)
    requires s in Names(base.Value()) && t in Names(base.Value())
    modifies base
    ensures base.Value() == CompareEdge(old(base.Value()), s, t, a)
  {
    var i, j := FindVertex(base.vertices, s).value, FindVertex(base.vertices, t).value;
    var found := FindEdge(base.edges, i, j);
    if found.None? {
      base.PutEdge(i, j, map[WeightKey := Num(WeightAttr(a)), LabelKey := Set(LabelsOf(a))]);
    } else {
      var b := base.edges[found.value].attrs;
      var labels := AddLabels(LabelsOf(b), LabelsOf(a));
      base.PutEdge(i, j, b[WeightKey := Num(WeightAttr(b) + WeightAttr(a))][LabelKey := Set(labels)]);
      assert b[WeightKey := Num(WeightAttr(b) + WeightAttr(a))][LabelKey := Set(labels)] == Combine(b, a);
    }
  }

  /** The loop over the incoming edges. */
  method CompareEdgesInto(base: GraphStore, vs: seq<Vertex>, es: seq<Edge>)
    requires Utils.EndpointsIn(vs, es)
    requires forall k | 0 <= k < |vs| :: vs[k].name in Names(base.Value())
    modifies base
    ensures base.Value() == CompareEdges(old(base.Value()), vs, es, 0)
  {
    ghost var g0 := base.Value();
    for n := 0 to |es|
      invariant base.vertices == g0.vertices
      invariant CompareEdges(g0, vs, es, 0) == CompareEdges(base.Value(), vs, es, n)
    {
      assert Names(base.Value()) == Names(g0);
      CompareEdgeInto(base, vs[es[n].source].name, vs[es[n].target].name, es[n].attrs);
    }
  }

  /**
   * `merge_graphs`: the first graph is the base, updated in place and
   * returned; the others are merged into it in argument order and only read.
   */
  method MergeGraphs(base: GraphStore, graphs: seq<Graph>) returns (r: GraphStore)
    requires forall k | 0 <= k < |graphs| :: EdgesInRange(graphs[k])
    modifies base
    ensures r == base
    ensures base.Value() == CompareAll(old(base.Value()), graphs, 0)
  {
    ghost var g0 := base.Value();
    for n := 0 to |graphs|
      invariant CompareAll(g0, graphs, 0) == CompareAll(base.Value(), graphs, n)
    {
      var h := graphs[n];
      AddNodesTo(base, h.vertices);
      assert forall k | 0 <= k < |h.vertices| :: h.vertices[k].name in Names(base.Value());
      CompareEdgesInto(base, h.vertices, h.edges);
    }
    return base;
  }

  /** The loop of `add_annotations` that sets every edge's label to `name`. */
  method LabelEdges(g: GraphStore, name: string)
    modifies g
    ensures g.vertices == old(g.vertices) && |g.edges| == |old(g.edges)|
    ensures forall k | 0 <= k < |g.edges| ::
      g.edges[k] == old(g.edges[k]).(attrs := old(g.edges[k]).attrs[LabelKey := Set({name})])
  {
    for k := 0 to |g.edges|
      invariant g.vertices == old(g.vertices) && |g.edges| == |old(g.edges)|
      invariant forall l | 0 <= l < k :: g.edges[l] == old(g.edges[l]).(attrs := old(g.edges[l]).attrs[LabelKey := Set({name})])
      invariant forall l | k <= l < |g.edges| :: g.edges[l] == old(g.edges[l])
    {
      g.edges := g.edges[k := g.edges[k].(attrs := g.edges[k].attrs[LabelKey := Set({name})])];
    }
  }

  // ---------------------------------------------------- lemmas: labelling

  /** After labelling, every edge carries exactly that label, and a weighted graph becomes a labelled one. */
  lemma LabelledAfterLabelling(es: seq<Edge>, es': seq<Edge>, name: string)
    requires |es'| == |es|
    requires forall k | 0 <= k < |es| :: es'[k] == es[k].(attrs := es[k].attrs[LabelKey := Set({name})])
    ensures forall k | 0 <= k < |es'| :: LabelsOf(es'[k].attrs) == {name}
    ensures (forall k | 0 <= k < |es| :: WeightKey in es[k].attrs && es[k].attrs[WeightKey].Num?) ==> Labelled(es')
  {
  }

  // ------------------------------------------------------ lemmas: nodes

  /** Adding nodes keeps every existing node as it was and gives the new ones no attributes. */
  lemma {:induction false} AddNodesVertices(g: Graph, vs: seq<Vertex>, i: nat)
    ensures var r := AddNodes(g, vs, i);
      |g.vertices| <= |r.vertices| &&
      (forall k | 0 <= k < |g.vertices| :: r.vertices[k] == g.vertices[k]) &&
      (forall k | |g.vertices| <= k < |r.vertices| :: r.vertices[k].attrs == map[])
    decreases |vs| - i
  {
    if i < |vs| {
      var g1 := FindOrAdd(g, vs[i].name, map[]).0;
      AddNodesVertices(g1, vs, i + 1);
      assert AddNodes(g, vs, i) == AddNodes(g1, vs, i + 1);
    }
  }

  /** Adding nodes keeps every edge between texts and the graph's shape. */
  lemma {:induction false} AddNodesKeepsEdges(g: Graph, vs: seq<Vertex>, i: nat)
    requires Simple(g)
    ensures Utils.SameEdges(g, AddNodes(g, vs, i))
    decreases |vs| - i
  {
    if i < |vs| {
      var g1 := FindOrAdd(g, vs[i].name, map[]).0;
      FindOrAddKeepsEdges(g, vs[i].name, map[]);
      AddNodesKeepsEdges(g1, vs, i + 1);
      assert AddNodes(g, vs, i) == AddNodes(g1, vs, i + 1);
    }
  }

  // ------------------------------------------------------ lemmas: edges

  /**
   * Merging one incoming edge adds its weight to the weight between its
   * endpoints' texts and its labels to their labels, and changes no other
   * pair's weight or labels.
   */
  lemma CompareEdgeBetween(g: Graph, s: string, t: string, a: Attrs, x: string, y: string)
    requires DistinctNames(g.vertices)
    requires s in Names(g) && t in Names(g)
    ensures WeightBetween(CompareEdge(g, s, t, a), x, y) ==
      WeightBetween(g, x, y) + (if SamePair(x, y, s, t) then WeightAttr(a) else 0)
    ensures LabelsBetween(CompareEdge(g, s, t, a), x, y) ==
      LabelsBetween(g, x, y) + (if SamePair(x, y, s, t) then LabelsOf(a) else {})
  {
    var i, j := FindVertex(g.vertices, s).value, FindVertex(g.vertices, t).value;
    var c := Combine(EdgeAttrs(g, i, j), a);
    CompareEdgeCombines(g, s, t, a);
    SetEdgeBetween(g, i, j, c, x, y);
    if SamePair(x, y, s, t) {
      Utils.PairAttrs(g, i, j, x, y);
    }
  }

  /** Both branches of the edge merge give the found edge's attributes, none for a new edge, combined with the incoming ones. */
  lemma CompareEdgeCombines(g: Graph, s: string, t: string, a: Attrs)
    requires s in Names(g) && t in Names(g)
    ensures CompareEdge(g, s, t, a) ==
      SetEdge(g, FindVertex(g.vertices, s).value, FindVertex(g.vertices, t).value,
              Combine(EdgeAttrs(g, FindVertex(g.vertices, s).value, FindVertex(g.vertices, t).value), a))
  {
    var i, j := FindVertex(g.vertices, s).value, FindVertex(g.vertices, t).value;
    if FindEdge(g.edges, i, j).None? {
      var e: Attrs := map[];
      assert WeightAttr(e) + WeightAttr(a) == WeightAttr(a);
      assert LabelsOf(e) + LabelsOf(a) == LabelsOf(a);
      assert map[WeightKey := Num(WeightAttr(a)), LabelKey := Set(LabelsOf(a))] == Combine(e, a);
    }
  }

  /** Merging one incoming edge keeps the base simple, labelled when the incoming edge is, and free of loops when its endpoints differ. */
  lemma CompareEdgeValid(g: Graph, s: string, t: string, a: Attrs)
    requires Simple(g)
    requires s in Names(g) && t in Names(g)
    ensures Simple(CompareEdge(g, s, t, a))
    ensures Labelled(g.edges) && EdgeLabelled(a) ==> Labelled(CompareEdge(g, s, t, a).edges)
    ensures NoLoops(g.edges) && s != t ==> NoLoops(CompareEdge(g, s, t, a).edges)
  {
    var i, j := FindVertex(g.vertices, s).value, FindVertex(g.vertices, t).value;
    var a' := Combine(EdgeAttrs(g, i, j), a);
    CompareEdgeCombines(g, s, t, a);
    SetEdgeValid(g, i, j, a');
    if Labelled(g.edges) {
      SetEdgeLabelled(g, i, j, a');
    }
  }

  /** Setting labelled attributes on an edge keeps a labelled graph labelled. */
  lemma SetEdgeLabelled(g: Graph, i: nat, j: nat, a: Attrs)
    requires Labelled(g.edges)
    requires EdgeLabelled(a)
    ensures Labelled(SetEdge(g, i, j, a).edges)
  {
  }

  /** The union of the labels the edges `es[n..]` of a graph with nodes `vs` carry between the texts x and y. */
  function EdgeLabelUnion(vs: seq<Vertex>, es: seq<Edge>, x: string, y: string, n: nat): set<string>
    requires Utils.EndpointsIn(vs, es)
    decreases |es| - n
  {
    if n >= |es| then {}
    else
      var here := if SamePair(x, y, vs[es[n].source].name, vs[es[n].target].name) then LabelsOf(es[n].attrs) else {};
      here + EdgeLabelUnion(vs, es, x, y, n + 1)
  }

  /** Merging incoming edges adds, between every two texts, the weights and the labels those edges carry between them. */
  lemma {:induction false} CompareEdgesBetween(g: Graph, vs: seq<Vertex>, es: seq<Edge>, n: nat, x: string, y: string)
    requires DistinctNames(g.vertices)
    requires Utils.EndpointsIn(vs, es)
    requires forall k | 0 <= k < |vs| :: vs[k].name in Names(g)
    ensures WeightBetween(CompareEdges(g, vs, es, n), x, y) == WeightBetween(g, x, y) + Utils.EdgeWeightSum(vs, es, x, y, n)
    ensures LabelsBetween(CompareEdges(g, vs, es, n), x, y) == LabelsBetween(g, x, y) + EdgeLabelUnion(vs, es, x, y, n)
    decreases |es| - n
  {
    if n < |es| {
      var s, t := vs[es[n].source].name, vs[es[n].target].name;
      var g1 := CompareEdge(g, s, t, es[n].attrs);
      CompareEdgeBetween(g, s, t, es[n].attrs, x, y);
      assert Names(g1) == Names(g);
      CompareEdgesBetween(g1, vs, es, n + 1, x, y);
    }
  }

  /** Merging incoming edges keeps the base simple, labelled when they are, and free of loops when they join distinct texts. */
  lemma {:induction false} CompareEdgesValid(g: Graph, vs: seq<Vertex>, es: seq<Edge>, n: nat)
    requires Simple(g)
    requires Utils.EndpointsIn(vs, es)
    requires forall k | 0 <= k < |vs| :: vs[k].name in Names(g)
    ensures Simple(CompareEdges(g, vs, es, n))
    ensures Labelled(g.edges) && Labelled(es) ==> Labelled(CompareEdges(g, vs, es, n).edges)
    ensures NoLoops(g.edges) && NoLoops(es) && DistinctNames(vs) ==> NoLoops(CompareEdges(g, vs, es, n).edges)
    decreases |es| - n
  {
    if n < |es| {
      var s, t := vs[es[n].source].name, vs[es[n].target].name;
      var g1 := CompareEdge(g, s, t, es[n].attrs);
      CompareEdgeValid(g, s, t, es[n].attrs);
      assert Names(g1) == Names(g);
      CompareEdgesValid(g1, vs, es, n + 1);
    }
  }

  /** Edges none of which joins the texts x and y carry no labels between them. */
  lemma {:induction false} EdgeLabelUnionNone(vs: seq<Vertex>, es: seq<Edge>, x: string, y: string, n: nat)
    requires Utils.EndpointsIn(vs, es)
    requires forall k | n <= k < |es| :: !SamePair(x, y, vs[es[k].source].name, vs[es[k].target].name)
    ensures EdgeLabelUnion(vs, es, x, y, n) == {}
    decreases |es| - n
  {
    if n < |es| {
      EdgeLabelUnionNone(vs, es, x, y, n + 1);
    }
  }

  /** In a simple graph, the edges from `n` on carry between two texts the labels of the first of them joining the two nodes. */
  lemma {:induction false} EdgeLabelUnionFirst(h: Graph, x: string, y: string, n: nat)
    requires Simple(h)
    requires FindVertex(h.vertices, x).Some? && FindVertex(h.vertices, y).Some?
    requires forall k | 0 <= k < |h.edges| ::
      SamePair(x, y, h.vertices[h.edges[k].source].name, h.vertices[h.edges[k].target].name) <==>
      Joins(h.edges[k], FindVertex(h.vertices, x).value, FindVertex(h.vertices, y).value)
    ensures EdgeLabelUnion(h.vertices, h.edges, x, y, n) ==
      match FindEdgeFrom(h.edges, FindVertex(h.vertices, x).value, FindVertex(h.vertices, y).value, n)
      case None => {}
      case Some(k) => LabelsOf(h.edges[k].attrs)
    decreases |h.edges| - n
  {
    var i, j := FindVertex(h.vertices, x).value, FindVertex(h.vertices, y).value;
    if n < |h.edges| {
      if Joins(h.edges[n], i, j) {
        assert forall l | n < l < |h.edges| :: !Joins(h.edges[l], h.edges[n].source, h.edges[n].target);
        EdgeLabelUnionNone(h.vertices, h.edges, x, y, n + 1);
      } else {
        EdgeLabelUnionFirst(h, x, y, n + 1);
      }
    }
  }

  /** In a simple graph the labels its edges carry between two texts are the labels between them. */
  lemma EdgeLabelUnionSimple(h: Graph, x: string, y: string)
    requires Simple(h)
    ensures EdgeLabelUnion(h.vertices, h.edges, x, y, 0) == LabelsBetween(h, x, y)
  {
    var vs, es := h.vertices, h.edges;
    if FindVertex(vs, x).Some? && FindVertex(vs, y).Some? {
      var i, j := FindVertex(vs, x).value, FindVertex(vs, y).value;
      forall k | 0 <= k < |es|
        ensures SamePair(x, y, vs[es[k].source].name, vs[es[k].target].name) <==> Joins(es[k], i, j)
      {
        SamePairByName(vs, es[k].source, es[k].target, x, y);
      }
      EdgeLabelUnionFirst(h, x, y, 0);
    } else {
      EdgeLabelUnionNone(vs, es, x, y, 0);
    }
  }

  // -------------------------------------------------- lemmas: one graph in

  /** Every node text of the merged graph ends up in the base, exactly once. */
  lemma CompareIntoNames(g: Graph, h: Graph)
    requires Simple(g) && EdgesInRange(h)
    ensures Names(CompareInto(g, h)) == Names(g) + Names(h)
    ensures DistinctNames(CompareInto(g, h).vertices)
  {
    AddNodesKeepsEdges(g, h.vertices, 0);
    Utils.NamesFromAll(h);
  }

  /** The base's nodes stay as they were, and the new nodes carry no attributes: only texts are copied. */
  lemma CompareIntoVertices(g: Graph, h: Graph)
    requires EdgesInRange(h)
    ensures var r := CompareInto(g, h);
      |g.vertices| <= |r.vertices| &&
      (forall k | 0 <= k < |g.vertices| :: r.vertices[k] == g.vertices[k]) &&
      (forall k | |g.vertices| <= k < |r.vertices| :: r.vertices[k].attrs == map[])
  {
    AddNodesVertices(g, h.vertices, 0);
  }

  /** Merging a graph keeps the base simple, labelled when both are, and free of loops when both are. */
  lemma CompareIntoValid(g: Graph, h: Graph)
    requires Simple(g) && Simple(h)
    ensures Simple(CompareInto(g, h))
    ensures Labelled(g.edges) && Labelled(h.edges) ==> Labelled(CompareInto(g, h).edges)
    ensures NoLoops(g.edges) && NoLoops(h.edges) ==> NoLoops(CompareInto(g, h).edges)
  {
    var g1 := AddNodes(g, h.vertices, 0);
    AddNodesKeepsEdges(g, h.vertices, 0);
    assert forall k | 0 <= k < |h.vertices| :: h.vertices[k].name in Names(g1);
    CompareEdgesValid(g1, h.vertices, h.edges, 0);
  }

  /** Merging a simple graph adds its weight between every two texts to the base's, and its labels to the base's. */
  lemma CompareIntoBetween(g: Graph, h: Graph, x: string, y: string)
    requires Simple(g) && Simple(h)
    ensures WeightBetween(CompareInto(g, h), x, y) == WeightBetween(g, x, y) + WeightBetween(h, x, y)
    ensures LabelsBetween(CompareInto(g, h), x, y) == LabelsBetween(g, x, y) + LabelsBetween(h, x, y)
  {
    var g1 := AddNodes(g, h.vertices, 0);
    assert Simple(g1) && AttrsBetween(g1, x, y) == AttrsBetween(g, x, y) by {
      AddNodesKeepsEdges(g, h.vertices, 0);
    }
    assert forall k | 0 <= k < |h.vertices| :: h.vertices[k].name in Names(g1);
    Utils.EdgeWeightSumSimple(h, x, y);
    EdgeLabelUnionSimple(h, x, y);
    CompareEdgesBetween(g1, h.vertices, h.edges, 0, x, y);
  }

  // ------------------------------------------------- lemmas: many graphs

  /** The total weight the graphs `hs[n..]` carry between the texts x and y. */
  function WeightOfAll(hs: seq<Graph>, n: nat, x: string, y: string): int
    decreases |hs| - n
  {
    if n >= |hs| then 0 else WeightBetween(hs[n], x, y) + WeightOfAll(hs, n + 1, x, y)
  }

  /** The labels the graphs `hs[n..]` carry between the texts x and y. */
  function LabelsOfAll(hs: seq<Graph>, n: nat, x: string, y: string): set<string>
    decreases |hs| - n
  {
    if n >= |hs| then {} else LabelsBetween(hs[n], x, y) + LabelsOfAll(hs, n + 1, x, y)
  }

  /** Merging keeps the base a simple graph with distinct node texts. */
  lemma {:induction false} CompareAllSimple(g: Graph, hs: seq<Graph>, n: nat)
    requires Simple(g)
    requires forall k | 0 <= k < |hs| :: Simple(hs[k]) && EdgesInRange(hs[k])
    ensures Simple(CompareAll(g, hs, n))
    decreases |hs| - n
  {
    if n < |hs| {
      var g1 := CompareInto(g, hs[n]);
      assert Simple(g1) by { CompareIntoValid(g, hs[n]); }
      CompareAllSimple(g1, hs, n + 1);
    }
  }

  /** After `merge_graphs` the base holds every node text of every graph, each exactly once. */
  lemma {:induction false} CompareAllNodes(g: Graph, hs: seq<Graph>, n: nat)
    requires Simple(g)
    requires forall k | 0 <= k < |hs| :: Simple(hs[k]) && EdgesInRange(hs[k])
    ensures Names(CompareAll(g, hs, n)) == Names(g) + Utils.NamesOfAll(hs, n)
    decreases |hs| - n
  {
    if n < |hs| {
      var g1 := CompareInto(g, hs[n]);
      assert Simple(g1) by { CompareIntoValid(g, hs[n]); }
      assert Names(g1) == Names(g) + Names(hs[n]) by { CompareIntoNames(g, hs[n]); }
      CompareAllNodes(g1, hs, n + 1);
    }
  }

  /** After `merge_graphs` the base holds between every two texts the sum of all weights. */
  lemma {:induction false} CompareAllWeight(g: Graph, hs: seq<Graph>, n: nat, x: string, y: string)
    requires Simple(g)
    requires forall k | 0 <= k < |hs| :: Simple(hs[k]) && EdgesInRange(hs[k])
    ensures WeightBetween(CompareAll(g, hs, n), x, y) == WeightBetween(g, x, y) + WeightOfAll(hs, n, x, y)
    decreases |hs| - n
  {
    if n < |hs| {
      var g1 := CompareInto(g, hs[n]);
      assert Simple(g1) by { CompareIntoValid(g, hs[n]); }
      assert WeightBetween(g1, x, y) == WeightBetween(g, x, y) + WeightBetween(hs[n], x, y) by {
        CompareIntoBetween(g, hs[n], x, y);
      }
      CompareAllWeight(g1, hs, n + 1, x, y);
    }
  }

  /** After `merge_graphs` the base holds between every two texts the union of all labels. */
  lemma {:induction false} CompareAllLabels(g: Graph, hs: seq<Graph>, n: nat, x: string, y: string)
    requires Simple(g)
    requires forall k | 0 <= k < |hs| :: Simple(hs[k]) && EdgesInRange(hs[k])
    ensures LabelsBetween(CompareAll(g, hs, n), x, y) == LabelsBetween(g, x, y) + LabelsOfAll(hs, n, x, y)
    decreases |hs| - n
  {
    if n < |hs| {
      var g1 := CompareInto(g, hs[n]);
      assert Simple(g1) by { CompareIntoValid(g, hs[n]); }
      assert LabelsBetween(g1, x, y) == LabelsBetween(g, x, y) + LabelsBetween(hs[n], x, y) by {
        CompareIntoBetween(g, hs[n], x, y);
      }
      CompareAllLabels(g1, hs, n + 1, x, y);
    }
  }
}

=== FILE: cooccurrence.dfy ===
/**
 * The word-gap co-occurrence worker (tcfnetworks/annotators/cooccurrence.py):
 * it selects the tokens that pass the node filter, keeping one token per
 * named entity, then for each configured gap adds a node per semantic unit
 * and counts, for every window of `gap` consecutive selected tokens, every
 * pair of tokens inside the window as one unit of edge weight.
 *
 * The graph is the TCF `graph` element, read as a graph value: the node
 * elements in document order are the vertices (their text is the name),
 * `weight` is read as a number, and `find_edge` is taken to find an edge in
 * either direction.
 */
module Cooccurrence {
  import opened Wrappers
  import opened Tokens
  import opened Graphs
  import Filters
  import Pairs

  /** The node attribute naming the kind of semantic unit. */
  const ClassKey: string := "class"

  /** The `gap` option's default: a network with gap 2, then gap 5 added into it. */
  const DefaultGaps: seq<nat> := [2, 5]

  // ------------------------------------------------------------ token selection

  /**
   * Whether looking at the token's entity is defined: the first token ID of
   * an entity is read for every token the filter accepts, so such an entity
   * must list at least one token.
   */
  predicate EntityIndexed(f: Filters.Filter, t: Token)
  {
    Filters.Accepts(f, t) && t.entity.Some? ==> |t.entity.value.tokenIds| > 0
  }

  predicate EntitiesIndexed(f: Filters.Filter, ts: seq<Token>)
  {
    forall k | 0 <= k < |ts| :: EntityIndexed(f, ts[k])
  }

  /** Whether the builder keeps a token: the filter accepts it and, inside an entity, it is the entity's first token. */
  predicate Selected(f: Filters.Filter, t: Token)
    requires EntityIndexed(f, t)
  {
    Filters.Accepts(f, t) && (t.entity.None? || t.entity.value.tokenIds[0] == t.id)
  }

  /** The tokens kept, in document order. */
  function Selection(f: Filters.Filter, ts: seq<Token>): (r: seq<Token>)
    requires EntitiesIndexed(f, ts)
    ensures |r| <= |ts|
    decreases |ts|
  {
    if ts == [] then []
    else Selection(f, ts[..|ts| - 1]) + (if Selected(f, ts[|ts| - 1]) then [ts[|ts| - 1]] else [])
  }

  /** The selection loop of `build_graph_words`. */
  method SelectTokens(f: Filters.Filter, tokens: seq<Token>) returns (selected: seq<Token>)
    requires EntitiesIndexed(f, tokens)
    ensures selected == Selection(f, tokens)
  {
    selected := [];
    for k := 0 to |tokens|
      invariant selected == Selection(f, tokens[..k])
    {
      var t := tokens[k];
      assert tokens[..k + 1][..k] == tokens[..k];
      if Filters.Accepts(f, t) {
        if t.entity.Some? && t.entity.value.tokenIds[0] != t.id {
          continue;
        }
        selected := selected + [t];
      }
    }
    assert tokens[..|tokens|] == tokens;
  }

  /** A token is kept exactly when the builder's test holds of it, and nothing else is kept. */
  lemma {:induction false} SelectionMembers(f: Filters.Filter, ts: seq<Token>)
    requires EntitiesIndexed(f, ts)
    ensures forall k | 0 <= k < |ts| :: ts[k] in Selection(f, ts) <==> Selected(f, ts[k])
    ensures forall t | t in Selection(f, ts) :: t in ts
    decreases |ts|
  {
    if ts != [] {
      var init, last := ts[..|ts| - 1], ts[|ts| - 1];
      SelectionMembers(f, init);
      forall k | 0 <= k < |ts| ensures ts[k] in Selection(f, ts) <==> Selected(f, ts[k]) {
        if k < |init| {
          assert init[k] == ts[k];
          if ts[k] == last && Selected(f, last) {
            assert ts[k] in Selection(f, ts);
          }
        } else if ts[k] in Selection(f, init) {
          assert exists m | 0 <= m < |init| :: init[m] == ts[k];
        }
      }
    }
  }

  /** Selection keeps document order: selecting from two stretches of the document, one after the other, is selecting from both. */
  lemma {:induction false} SelectionConcat(f: Filters.Filter, a: seq<Token>, b: seq<Token>)
    requires EntitiesIndexed(f, a) && EntitiesIndexed(f, b)
    ensures EntitiesIndexed(f, a + b)
    ensures Selection(f, a + b) == Selection(f, a) + Selection(f, b)
    decreases |b|
  {
    assert forall k | 0 <= k < |a + b| :: (a + b)[k] == if k < |a| then a[k] else b[k - |a|];
    if b == [] {
      assert a + b == a;
    } else {
      var init := b[..|b| - 1];
      SelectionConcat(f, a, init);
      assert (a + b)[..|a + b| - 1] == a + init;
    }
  }

  /** Whether no two tokens share an ID. */
  predicate DistinctIds(ts: seq<Token>)
  {
    forall a, b | 0 <= a < b < |ts| :: ts[a].id != ts[b].id
  }

  /**
   * With token IDs unique in the document, the selection holds every token
   * at most once and every named entity at most once.
   */
  lemma {:induction false} SelectionEntityOnce(f: Filters.Filter, ts: seq<Token>)
    requires EntitiesIndexed(f, ts) && DistinctIds(ts)
    ensures DistinctIds(Selection(f, ts))
    ensures forall a, b | 0 <= a < b < |Selection(f, ts)| ::
      Selection(f, ts)[a].entity.Some? ==> Selection(f, ts)[a].entity != Selection(f, ts)[b].entity
    decreases |ts|
  {
    var s := Selection(f, ts);
    if ts != [] {
      var init, last := ts[..|ts| - 1], ts[|ts| - 1];
      SelectionEntityOnce(f, init);
      SelectionMembers(f, init);
      SelectionMembers(f, ts);
      assert forall t | t in Selection(f, init) :: t.id != last.id by {
        forall t | t in Selection(f, init) ensures t.id != last.id {
          var m :| 0 <= m < |init| && init[m] == t;
          assert ts[m] == t;
        }
      }
    }
    forall a, b | 0 <= a < b < |s| && s[a].entity.Some?
      ensures s[a].entity != s[b].entity
    {
      assert s[a] in s && s[b] in s;
      SelectionMembers(f, ts);
      var m :| 0 <= m < |ts| && ts[m] == s[b];
      assert EntityIndexed(f, ts[m]);
    }
  }

  // ------------------------------------------------------------------- nodes

  /** The attributes a new node gets: its `class`, `lemma` for a lemma and the entity's class for an entity. */
  function ClassAttrs(u: SemanticUnit): (a: Attrs)
    ensures TokenIdsKey !in a
    ensures u.TextUnit? <==> ClassKey !in a
  {
    match u
    case LemmaUnit(_) => map[ClassKey := Str("lemma")]
    case EntityUnit(_, cls) => map[ClassKey := Str(cls)]
    case TextUnit(_) => map[]
  }

  /** The `class` attribute of a unit's node, when it has one. */
  function ClassOf(u: SemanticUnit): Option<Attr>
  {
    match u
    case LemmaUnit(_) => Some(Str("lemma"))
    case EntityUnit(_, cls) => Some(Str(cls))
    case TextUnit(_) => None
  }

  /** One iteration of the node loop: find or create the unit's node and append the token ID to its `tokenIDs`. */
  function AddNode(g: Graph, t: Token): (r: Graph)
    ensures r.edges == g.edges
  {
    TouchVertex(g, t.unit.text, ClassAttrs(t.unit), t.id, Append).0
  }

  /** The node loop over a sequence of tokens. */
  function AddNodes(g: Graph, ts: seq<Token>): (r: Graph)
    ensures r.edges == g.edges
    decreases |ts|
  {
    if ts == [] then g else AddNode(AddNodes(g, ts[..|ts| - 1]), ts[|ts| - 1])
  }

  /** The semantic-unit texts of some tokens. */
  function UnitTexts(ts: seq<Token>): set<string>
  {
    set k | 0 <= k < |ts| :: ts[k].unit.text
  }

  lemma UnitTextsSnoc(ts: seq<Token>)
    requires ts != []
    ensures UnitTexts(ts) == UnitTexts(ts[..|ts| - 1]) + {ts[|ts| - 1].unit.text}
  {
    var init := ts[..|ts| - 1];
    forall a | a in UnitTexts(ts) ensures a in UnitTexts(init) + {ts[|ts| - 1].unit.text} {
      var k :| 0 <= k < |ts| && ts[k].unit.text == a;
      if k < |init| { assert init[k] == ts[k]; }
    }
    forall a | a in UnitTexts(init) ensures a in UnitTexts(ts) {
      var k :| 0 <= k < |init| && init[k].unit.text == a;
      assert ts[k] == init[k];
    }
  }

  /** One node-loop step adds the token's unit to the names, and nothing else. */
  lemma AddNodeNames(g: Graph, t: Token)
    ensures Names(AddNode(g, t)) == Names(g) + {t.unit.text}
  {
    var name := t.unit.text;
    var (g1, i) := FindOrAdd(g, name, ClassAttrs(t.unit));
    VertexAttrsKeepEdges(g1, AddNode(g, t));
    if FindVertex(g.vertices, name).None? {
      NamesAppend(g, Vertex(name, ClassAttrs(t.unit)));
    }
  }

  /** After the node loop the names are the old ones plus one per semantic unit of the tokens. */
  lemma {:induction false} AddNodesNames(g: Graph, ts: seq<Token>)
    ensures Names(AddNodes(g, ts)) == Names(g) + UnitTexts(ts)
    decreases |ts|
  {
    if ts != [] {
      AddNodesNames(g, ts[..|ts| - 1]);
      AddNodeNames(AddNodes(g, ts[..|ts| - 1]), ts[|ts| - 1]);
      UnitTextsSnoc(ts);
    }
  }

  /** The node loop keeps the graph's shape. */
  lemma {:induction false} AddNodesShape(g: Graph, ts: seq<Token>)
    requires Simple(g)
    ensures Simple(AddNodes(g, ts))
    ensures Valid(g) ==> Valid(AddNodes(g, ts))
    decreases |ts|
  {
    if ts != [] {
      var init, last := ts[..|ts| - 1], ts[|ts| - 1];
      AddNodesShape(g, init);
      TouchKeepsEdges(AddNodes(g, init), last.unit.text, ClassAttrs(last.unit), last.id, Append);
    }
  }

  /** The node loop changes no edge between two names. */
  lemma {:induction false} AddNodesEdges(g: Graph, ts: seq<Token>, a: string, b: string)
    requires Simple(g)
    ensures AttrsBetween(AddNodes(g, ts), a, b) == AttrsBetween(g, a, b)
    decreases |ts|
  {
    if ts != [] {
      var init, last := ts[..|ts| - 1], ts[|ts| - 1];
      AddNodesEdges(g, init, a, b);
      AddNodesShape(g, init);
      TouchKeepsEdges(AddNodes(g, init), last.unit.text, ClassAttrs(last.unit), last.id, Append);
    }
  }

  /** The `tokenIDs` list of an attribute map; empty when there is none. */
  function IdList(a: Attrs): seq<string>
  {
    if TokenIdsKey in a && a[TokenIdsKey].List? then a[TokenIdsKey].items else []
  }

  /** The `tokenIDs` list of the node named `a`; empty when there is no such node. */
  function IdListAt(g: Graph, a: string): seq<string>
  {
    match FindVertex(g.vertices, a)
    case None => []
    case Some(i) => IdList(g.vertices[i].attrs)
  }

  /** The IDs of the tokens whose semantic unit is `a`, in order. */
  function UnitIds(ts: seq<Token>, a: string): seq<string>
    decreases |ts|
  {
    if ts == [] then []
    else UnitIds(ts[..|ts| - 1], a) + (if ts[|ts| - 1].unit.text == a then [ts[|ts| - 1].id] else [])
  }

  /** One node-loop step appends the token ID to its unit's list and to no other list. */
  lemma AddNodeIds(g: Graph, t: Token, a: string)
    requires DistinctNames(g.vertices)
    ensures IdListAt(AddNode(g, t), a) == IdListAt(g, a) + (if a == t.unit.text then [t.id] else [])
  {
    var name := t.unit.text;
    var (g1, i) := FindOrAdd(g, name, ClassAttrs(t.unit));
    var g' := AddNode(g, t);
    FindVertexFromSameNames(g1.vertices, g'.vertices, a, 0);
    if a == name {
      assert FindVertex(g1.vertices, name) == Some(i);
    } else if FindVertex(g.vertices, name).None? {
      FindVertexAppendOther(g.vertices, Vertex(name, ClassAttrs(t.unit)), a);
    }
  }

  /** After the node loop, each unit's list holds its old IDs followed by the IDs of the unit's tokens, in order. */
  lemma {:induction false} AddNodesIds(g: Graph, ts: seq<Token>, a: string)
    requires Simple(g)
    ensures IdListAt(AddNodes(g, ts), a) == IdListAt(g, a) + UnitIds(ts, a)
    decreases |ts|
  {
    if ts != [] {
      var init, last := ts[..|ts| - 1], ts[|ts| - 1];
      var prev := AddNodes(g, init);
      var step := if last.unit.text == a then [last.id] else [];
      AddNodesIds(g, init, a);
      AddNodesShape(g, init);
      AddNodeIds(prev, last, a);
      assert UnitIds(ts, a) == UnitIds(init, a) + step;
      assert IdListAt(AddNodes(g, ts), a) == IdListAt(prev, a) + step;
      assert (IdListAt(g, a) + UnitIds(init, a)) + step == IdListAt(g, a) + (UnitIds(init, a) + step);
    }
  }

  /** The `class` attribute of the node named `a`; none without a node or an attribute. */
  function ClassAt(g: Graph, a: string): Option<Attr>
  {
    match FindVertex(g.vertices, a)
    case None => None
    case Some(i) => if ClassKey in g.vertices[i].attrs then Some(g.vertices[i].attrs[ClassKey]) else None
  }

  /** One node-loop step sets `class` only on the node it creates. */
  lemma AddNodeClass(g: Graph, t: Token, a: string)
    requires DistinctNames(g.vertices)
    ensures ClassAt(AddNode(g, t), a) ==
      if a == t.unit.text && a !in Names(g) then ClassOf(t.unit) else ClassAt(g, a)
  {
    var name := t.unit.text;
    var (g1, i) := FindOrAdd(g, name, ClassAttrs(t.unit));
    var g' := AddNode(g, t);
    FindVertexFromSameNames(g1.vertices, g'.vertices, a, 0);
    assert ClassKey != TokenIdsKey;
    if a == name {
      assert FindVertex(g1.vertices, name) == Some(i);
    } else if FindVertex(g.vertices, name).None? {
      FindVertexAppendOther(g.vertices, Vertex(name, ClassAttrs(t.unit)), a);
    }
  }

  /** The node loop leaves the `class` of every node that was already there. */
  lemma {:induction false} AddNodesKeepClass(g: Graph, ts: seq<Token>, a: string)
    requires Simple(g) && a in Names(g)
    ensures ClassAt(AddNodes(g, ts), a) == ClassAt(g, a)
    decreases |ts|
  {
    if ts != [] {
      var init := ts[..|ts| - 1];
      AddNodesKeepClass(g, init, a);
      AddNodesShape(g, init);
      AddNodesNames(g, init);
      AddNodeClass(AddNodes(g, init), ts[|ts| - 1], a);
    }
  }

  /** A node the loop creates gets its `class` from the first token of its unit. */
  lemma {:induction false} AddNodesNewClass(g: Graph, ts: seq<Token>, k: nat)
    requires Simple(g) && k < |ts| && ts[k].unit.text !in Names(g)
    requires forall m | 0 <= m < k :: ts[m].unit.text != ts[k].unit.text
    ensures ClassAt(AddNodes(g, ts), ts[k].unit.text) == ClassOf(ts[k].unit)
    decreases |ts|
  {
    var init, a := ts[..|ts| - 1], ts[k].unit.text;
    var prev := AddNodes(g, init);
    assert DistinctNames(prev.vertices) by { AddNodesShape(g, init); }
    assert Names(prev) == Names(g) + UnitTexts(init) by { AddNodesNames(g, init); }
    if k < |init| {
      assert init[k] == ts[k];
      AddNodesNewClass(g, init, k);
      assert a in UnitTexts(init);
    } else {
      assert a !in UnitTexts(init) by {
        forall m | 0 <= m < |init| ensures init[m].unit.text != a {
          assert init[m] == ts[m];
        }
      }
    }
    AddNodeClass(prev, ts[|ts| - 1], a);
    assert AddNodes(g, ts) == AddNode(prev, ts[|ts| - 1]);
  }

  // ------------------------------------------------------------------- edges

  /** One pair of a window: add an edge of weight 1 between the two units' nodes, or add 1 to its weight; loops included. */
  function Bump(g: Graph, q: (string, string)): (r: Graph)
    requires q.0 in Names(g) && q.1 in Names(g)
    ensures r.vertices == g.vertices
  {
    Increment(g, FindVertex(g.vertices, q.0).value, FindVertex(g.vertices, q.1).value)
  }

  /** The pairs counted in order. */
  function CountPairs(g: Graph, qs: seq<(string, string)>): (r: Graph)
    requires forall q | q in qs :: q.0 in Names(g) && q.1 in Names(g)
    ensures r.vertices == g.vertices
    decreases |qs|
  {
    if qs == [] then g
    else
      var prev := CountPairs(g, qs[..|qs| - 1]);
      assert Names(prev) == Names(g);
      Bump(prev, qs[|qs| - 1])
  }

  /** How many of the pairs join the units `x` and `y`, in either order. */
  function Occurrences(qs: seq<(string, string)>, x: string, y: string): nat
    decreases |qs|
  {
    if qs == [] then 0
    else Occurrences(qs[..|qs| - 1], x, y) + (if SamePair(qs[|qs| - 1].0, qs[|qs| - 1].1, x, y) then 1 else 0)
  }

  /** Counting pairs adds to the weight between two units the number of pairs joining them, and nothing else. */
  lemma {:induction false} CountPairsWeight(g: Graph, qs: seq<(string, string)>, x: string, y: string)
    requires DistinctNames(g.vertices)
    requires forall q | q in qs :: q.0 in Names(g) && q.1 in Names(g)
    ensures WeightBetween(CountPairs(g, qs), x, y) == WeightBetween(g, x, y) + Occurrences(qs, x, y)
    decreases |qs|
  {
    if qs != [] {
      var init, q := qs[..|qs| - 1], qs[|qs| - 1];
      var prev := CountPairs(g, init);
      CountPairsWeight(g, init, x, y);
      assert Names(prev) == Names(g);
      var i, j := FindVertex(prev.vertices, q.0).value, FindVertex(prev.vertices, q.1).value;
      IncrementWeightBetween(prev, i, j, x, y);
    }
  }

  /** Counting pairs keeps a graph valid. */
  lemma {:induction false} CountPairsValid(g: Graph, qs: seq<(string, string)>)
    requires Valid(g)
    requires forall q | q in qs :: q.0 in Names(g) && q.1 in Names(g)
    ensures Valid(CountPairs(g, qs))
    decreases |qs|
  {
    if qs != [] {
      var init, q := qs[..|qs| - 1], qs[|qs| - 1];
      var prev := CountPairs(g, init);
      CountPairsValid(g, init);
      assert Names(prev) == Names(g);
      IncrementValid(prev, FindVertex(prev.vertices, q.0).value, FindVertex(prev.vertices, q.1).value);
    }
  }

  /** A pair is counted at least once exactly when it occurs, in one order or the other. */
  lemma {:induction false} OccurrencesPositive(qs: seq<(string, string)>, x: string, y: string)
    ensures Occurrences(qs, x, y) > 0 <==> (x, y) in qs || (y, x) in qs
    decreases |qs|
  {
    if qs != [] {
      var init, q := qs[..|qs| - 1], qs[|qs| - 1];
      OccurrencesPositive(init, x, y);
      assert qs == init + [q];
    }
  }

  // ----------------------------------------------------------------- windows

  /** The number of windows, `len(tokens) - (gap - 1)` when that is positive and none otherwise. */
  function WindowCount(n: nat, gap: nat): nat
  {
    if gap <= n then n - gap + 1 else 0
  }

  /** The unit texts of the tokens, in order. */
  function Units(ts: seq<Token>): (us: seq<string>)
    ensures |us| == |ts| && forall k | 0 <= k < |ts| :: us[k] == ts[k].unit.text
  {
    seq(|ts|, k requires 0 <= k < |ts| => ts[k].unit.text)
  }

  /** The pairs of the first `n` windows: window `w` is `us[w .. w + gap]`, paired as `combinations(window, 2)`. */
  function WindowPairs(us: seq<string>, gap: nat, n: nat): (r: seq<(string, string)>)
    requires n <= WindowCount(|us|, gap)
    ensures forall q | q in r :: q.0 in us && q.1 in us
  {
    if n == 0 then []
    else
      var window := us[n - 1 .. n - 1 + gap];
      assert forall u | u in window :: u in us;
      WindowPairs(us, gap, n - 1) + Pairs.Combinations(window)
  }

  /** Every pair of every window. */
  function Cooccurrences(us: seq<string>, gap: nat): seq<(string, string)>
  {
    WindowPairs(us, gap, WindowCount(|us|, gap))
  }

  /** Only units at most `gap - 1` positions apart, the earlier one first, are paired. */
  lemma {:induction false} WindowPairsSound(us: seq<string>, gap: nat, n: nat)
    requires n <= WindowCount(|us|, gap)
    ensures forall q | q in WindowPairs(us, gap, n) ::
      exists i, j | 0 <= i < j < |us| && j < i + gap :: q == (us[i], us[j])
  {
    if n > 0 {
      var w := n - 1;
      var window := us[w .. w + gap];
      WindowPairsSound(us, gap, w);
      Pairs.CombinationsSound(window);
      forall q | q in Pairs.Combinations(window)
        ensures exists i, j | 0 <= i < j < |us| && j < i + gap :: q == (us[i], us[j])
      {
        var a, b :| 0 <= a < b < |window| && q == (window[a], window[b]);
        assert q == (us[w + a], us[w + b]);
      }
    }
  }

  /** The pairs of window `w` are among the pairs of the first `n` windows whenever `w < n`. */
  lemma {:induction false} WindowPairsIncludes(us: seq<string>, gap: nat, n: nat, w: nat)
    requires w < n <= WindowCount(|us|, gap)
    ensures forall q | q in Pairs.Combinations(us[w .. w + gap]) :: q in WindowPairs(us, gap, n)
  {
    var before, last := WindowPairs(us, gap, n - 1), Pairs.Combinations(us[n - 1 .. n - 1 + gap]);
    assert WindowPairs(us, gap, n) == before + last;
    if w < n - 1 {
      WindowPairsIncludes(us, gap, n - 1, w);
      forall q | q in Pairs.Combinations(us[w .. w + gap]) ensures q in before + last {
        assert q in before;
      }
    } else {
      forall q | q in Pairs.Combinations(us[w .. w + gap]) ensures q in before + last {
        assert q in last;
      }
    }
  }

  /**
   * When there are at least `gap` units, every two of them at most `gap - 1`
   * positions apart are paired, the earlier one first.
   */
  lemma {:induction false} CooccurrencesComplete(us: seq<string>, gap: nat, i: nat, j: nat)
    requires gap <= |us| && i < j < |us| && j < i + gap
    ensures (us[i], us[j]) in Cooccurrences(us, gap)
  {
    var w := WindowFor(|us|, gap, i, j);
    WindowPairAt(us, w, gap, i, j);
    WindowPairsIncludes(us, gap, WindowCount(|us|, gap), w);
  }

  /** A window holding positions `i < j`: the one starting at `i`, or the last one. */
  lemma WindowFor(len: nat, gap: nat, i: nat, j: nat) returns (w: nat)
    requires gap <= len && i < j < len && j < i + gap
    ensures w < WindowCount(len, gap) && w <= i && j < w + gap
  {
    w := if i < len - gap + 1 then i else len - gap;
  }

  /** Positions `i < j` inside the window starting at `w` are paired. */
  lemma WindowPairAt(us: seq<string>, w: nat, gap: nat, i: nat, j: nat)
    requires w <= i < j < w + gap <= |us|
    ensures (us[i], us[j]) in Pairs.Combinations(us[w .. w + gap])
  {
    var window := us[w .. w + gap];
    Pairs.CombinationsComplete(window);
    assert window[i - w] == us[i] && window[j - w] == us[j];
    assert (window[i - w], window[j - w]) in Pairs.Combinations(window);
  }

  /**
   * Two units are paired, in one order or the other, exactly when there are
   * at least `gap` units and the two stand at most `gap - 1` positions apart.
   */
  lemma {:induction false} CooccurrencesMembers(us: seq<string>, gap: nat, x: string, y: string)
    ensures Occurrences(Cooccurrences(us, gap), x, y) > 0 <==>
      gap <= |us| && exists i, j | 0 <= i < j < |us| && j < i + gap :: SamePair(us[i], us[j], x, y)
  {
    var qs := Cooccurrences(us, gap);
    OccurrencesPositive(qs, x, y);
    WindowPairsSound(us, gap, WindowCount(|us|, gap));
    if gap <= |us| && exists i, j | 0 <= i < j < |us| && j < i + gap :: SamePair(us[i], us[j], x, y) {
      var i, j :| 0 <= i < j < |us| && j < i + gap && SamePair(us[i], us[j], x, y);
      CooccurrencesComplete(us, gap, i, j);
    }
    if (x, y) in qs || (y, x) in qs {
      assert gap <= |us|;
    }
  }

  // -------------------------------------------------------------- one gap

  /** Every unit of the tokens has a node once the node loop has run. */
  lemma UnitsNamed(g: Graph, ts: seq<Token>)
    ensures forall u | u in Units(ts) :: u in Names(AddNodes(g, ts))
  {
    AddNodesNames(g, ts);
    forall u | u in Units(ts) ensures u in UnitTexts(ts) {
      var k :| 0 <= k < |ts| && Units(ts)[k] == u;
      assert ts[k].unit.text == u;
    }
  }

  /** `build_graph_words_real` on a graph value: the node loop, then every pair of every window counted. */
  function BuildReal(g: Graph, ts: seq<Token>, gap: nat): Graph
  {
    var nodes := AddNodes(g, ts);
    var qs := Cooccurrences(Units(ts), gap);
    assert forall q | q in qs :: q.0 in Names(nodes) && q.1 in Names(nodes) by {
      UnitsNamed(g, ts);
    }
    CountPairs(nodes, qs)
  }

  /** One gap keeps the graph valid and gives every semantic unit of the tokens a node. */
  lemma BuildRealShape(g: Graph, ts: seq<Token>, gap: nat)
    requires Valid(g)
    ensures Valid(BuildReal(g, ts, gap))
    ensures Names(BuildReal(g, ts, gap)) == Names(g) + UnitTexts(ts)
  {
    var nodes := AddNodes(g, ts);
    AddNodesShape(g, ts);
    AddNodesNames(g, ts);
    UnitsNamed(g, ts);
    CountPairsValid(nodes, Cooccurrences(Units(ts), gap));
    assert Names(BuildReal(g, ts, gap)) == Names(nodes);
  }

  /**
   * One gap adds to the weight between two units the number of (window,
   * pair) occurrences joining them, loops included.
   */
  lemma BuildRealWeight(g: Graph, ts: seq<Token>, gap: nat, x: string, y: string)
    requires Simple(g)
    ensures WeightBetween(BuildReal(g, ts, gap), x, y) ==
      WeightBetween(g, x, y) + Occurrences(Cooccurrences(Units(ts), gap), x, y)
  {
    var nodes := AddNodes(g, ts);
    AddNodesShape(g, ts);
    AddNodesEdges(g, ts, x, y);
    UnitsNamed(g, ts);
    CountPairsWeight(nodes, Cooccurrences(Units(ts), gap), x, y);
  }

  /**
   * One gap raises the weight between two units exactly when there are at
   * least `gap` tokens and two tokens of those units stand at most `gap - 1`
   * positions apart; with fewer tokens than `gap` nothing is joined.
   */
  lemma BuildRealJoins(g: Graph, ts: seq<Token>, gap: nat, x: string, y: string)
    requires Simple(g)
    ensures WeightBetween(BuildReal(g, ts, gap), x, y) > WeightBetween(g, x, y) <==>
      gap <= |ts| && exists i, j | 0 <= i < j < |ts| && j < i + gap :: SamePair(ts[i].unit.text, ts[j].unit.text, x, y)
  {
    var us := Units(ts);
    BuildRealWeight(g, ts, gap, x, y);
    CooccurrencesMembers(us, gap, x, y);
    assert (exists i, j | 0 <= i < j < |us| && j < i + gap :: SamePair(us[i], us[j], x, y)) <==>
      (exists i, j | 0 <= i < j < |ts| && j < i + gap :: SamePair(ts[i].unit.text, ts[j].unit.text, x, y));
  }

  /** One gap appends, to each unit's `tokenIDs`, the IDs of that unit's tokens in order. */
  lemma BuildRealIds(g: Graph, ts: seq<Token>, gap: nat, a: string)
    requires Simple(g)
    ensures IdListAt(BuildReal(g, ts, gap), a) == IdListAt(g, a) + UnitIds(ts, a)
  {
    AddNodesIds(g, ts, a);
    assert BuildReal(g, ts, gap).vertices == AddNodes(g, ts).vertices;
  }

  // ------------------------------------------------------------ all gaps

  /** The graph a gap starts from: a new empty graph when there is none yet. */
  function Start(o: Option<Graph>): Graph
  {
    if o.None? then Graph([], []) else o.value
  }

  /** `build_graph_words` after selection: each gap in turn adds to the graph the previous gap built; no graph at all without gaps. */
  function BuildAll(ts: seq<Token>, gaps: seq<nat>): (r: Option<Graph>)
    ensures r.None? <==> gaps == []
    decreases |gaps|
  {
    if gaps == [] then None
    else Some(BuildReal(Start(BuildAll(ts, gaps[..|gaps| - 1])), ts, gaps[|gaps| - 1]))
  }

  /** The built graph is valid, with exactly one node per semantic unit of the selected tokens. */
  lemma {:induction false} BuildAllShape(ts: seq<Token>, gaps: seq<nat>)
    requires gaps != []
    ensures Valid(BuildAll(ts, gaps).value)
    ensures Names(BuildAll(ts, gaps).value) == UnitTexts(ts)
    decreases |gaps|
  {
    var init := gaps[..|gaps| - 1];
    if init != [] {
      BuildAllShape(ts, init);
    } else {
      assert Names(Graph([], [])) == {};
    }
    BuildRealShape(Start(BuildAll(ts, init)), ts, gaps[|gaps| - 1]);
  }

  /** The (window, pair) occurrences joining `x` and `y`, summed over the gaps. */
  function GapCounts(us: seq<string>, gaps: seq<nat>, x: string, y: string): nat
    decreases |gaps|
  {
    if gaps == [] then 0
    else GapCounts(us, gaps[..|gaps| - 1], x, y) + Occurrences(Cooccurrences(us, gaps[|gaps| - 1]), x, y)
  }

  /** The weight between two units is the number of their (window, pair) occurrences over all gaps. */
  lemma {:induction false} BuildAllWeight(ts: seq<Token>, gaps: seq<nat>, x: string, y: string)
    requires gaps != []
    ensures WeightBetween(BuildAll(ts, gaps).value, x, y) == GapCounts(Units(ts), gaps, x, y)
    decreases |gaps|
  {
    var init := gaps[..|gaps| - 1];
    if init != [] {
      BuildAllWeight(ts, init, x, y);
      BuildAllShape(ts, init);
    }
    BuildRealWeight(Start(BuildAll(ts, init)), ts, gaps[|gaps| - 1], x, y);
  }

  /** Later gaps only add: the weight after the first `m` gaps never exceeds the weight after all of them. */
  lemma {:induction false} BuildAllGrows(ts: seq<Token>, gaps: seq<nat>, m: nat, x: string, y: string)
    requires 0 < m <= |gaps|
    ensures WeightBetween(BuildAll(ts, gaps[..m]).value, x, y) <= WeightBetween(BuildAll(ts, gaps).value, x, y)
    decreases |gaps|
  {
    BuildAllWeight(ts, gaps[..m], x, y);
    BuildAllWeight(ts, gaps, x, y);
    GapCountsGrow(Units(ts), gaps, m, x, y);
  }

  lemma {:induction false} GapCountsGrow(us: seq<string>, gaps: seq<nat>, m: nat, x: string, y: string)
    requires m <= |gaps|
    ensures GapCounts(us, gaps[..m], x, y) <= GapCounts(us, gaps, x, y)
    decreases |gaps|
  {
    if m < |gaps| {
      var init := gaps[..|gaps| - 1];
      GapCountsGrow(us, init, m, x, y);
      assert init[..m] == gaps[..m];
    } else {
      assert gaps[..m] == gaps;
    }
  }

  /** A list repeated `n` times. */
  function Repeat(xs: seq<string>, n: nat): seq<string>
  {
    if n == 0 then [] else Repeat(xs, n - 1) + xs
  }

  /** Every gap appends each token's ID again: a unit's `tokenIDs` is its tokens' IDs once per gap. */
  lemma {:induction false} BuildAllIds(ts: seq<Token>, gaps: seq<nat>, a: string)
    requires gaps != []
    ensures IdListAt(BuildAll(ts, gaps).value, a) == Repeat(UnitIds(ts, a), |gaps|)
    decreases |gaps|
  {
    var init := gaps[..|gaps| - 1];
    var prev := Start(BuildAll(ts, init));
    var ids := UnitIds(ts, a);
    assert BuildAll(ts, gaps).value == BuildReal(prev, ts, gaps[|gaps| - 1]);
    assert IdListAt(prev, a) == Repeat(ids, |init|) && Simple(prev) by {
      if init != [] {
        BuildAllIds(ts, init, a);
        BuildAllShape(ts, init);
      }
    }
    BuildRealIds(prev, ts, gaps[|gaps| - 1], a);
  }

  /** Each node's `class` comes from the first token of its unit, and later tokens and gaps never change it. */
  lemma {:induction false} BuildAllClass(ts: seq<Token>, gaps: seq<nat>, k: nat)
    requires gaps != [] && k < |ts|
    requires forall m | 0 <= m < k :: ts[m].unit.text != ts[k].unit.text
    ensures ClassAt(BuildAll(ts, gaps).value, ts[k].unit.text) == ClassOf(ts[k].unit)
    decreases |gaps|
  {
    var init, gap := gaps[..|gaps| - 1], gaps[|gaps| - 1];
    var prev := Start(BuildAll(ts, init));
    var a := ts[k].unit.text;
    if init != [] {
      BuildAllClass(ts, init, k);
      BuildAllShape(ts, init);
      assert a in Names(prev);
      AddNodesKeepClass(prev, ts, a);
    } else {
      AddNodesNewClass(prev, ts, k);
    }
    assert BuildReal(prev, ts, gap).vertices == AddNodes(prev, ts).vertices;
  }

  /**
   * Nothing stops a window from pairing a unit with itself: two adjacent
   * tokens of the same lemma give that lemma's node an edge to itself.
   */
  lemma LoopExample(t: Token, u: Token)
    requires t.unit.text == u.unit.text
    ensures WeightBetween(BuildAll([t, u], [2]).value, t.unit.text, t.unit.text) == 1
  {
    var x := t.unit.text;
    BuildAllWeight([t, u], [2], x, x);
    UnitsOfTwo(t, u);
    OneGapCounts([x, x], 2, x, x);
    AdjacentPair(x);
  }

  lemma UnitsOfTwo(t: Token, u: Token)
    ensures Units([t, u]) == [t.unit.text, u.unit.text]
  {
  }

  lemma OneGapCounts(us: seq<string>, gap: nat, x: string, y: string)
    ensures GapCounts(us, [gap], x, y) == Occurrences(Cooccurrences(us, gap), x, y)
  {
    assert [gap][..0] == [];
  }

  /** Two equal units in a window of two make one pair of a unit with itself. */
  lemma AdjacentPair(x: string)
    ensures Occurrences(Cooccurrences([x, x], 2), x, x) == 1
  {
    var us := [x, x];
    assert us[0 .. 0 + 2] == us;
    assert Pairs.Combinations(us[1..]) == [];
    assert Pairs.Combinations(us) == [(x, x)];
    assert WindowCount(2, 2) == 1;
    assert WindowPairs(us, 2, 1) == WindowPairs(us, 2, 0) + Pairs.Combinations(us[0 .. 0 + 2]);
    assert Cooccurrences(us, 2) == [(x, x)];
  }


  // -------------------------------------------------------------- builders

  /**
   * `build_graph_words_real`: adds the tokens' nodes and counts every pair
   * of every window of `gap` tokens into `graph`, or into a new graph when
   * there is none.
   */
  method BuildWordsReal(tokens: seq<Token>, gap: nat, graph: GraphStore?) returns (g: GraphStore)
    modifies graph
    ensures graph == null ==> fresh(g) && g.Value() == BuildReal(Graph([], []), tokens, gap)
    ensures graph != null ==> g == graph && g.Value() == BuildReal(old(graph.Value()), tokens, gap)
  {
    if graph == null {
      g := new GraphStore.Empty();
    } else {
      g := graph;
    }
    ghost var start := g.Value();
    AddNodesTo(g, tokens);
    ghost var nodes := g.Value();
    var us := Units(tokens);
    UnitsNamed(start, tokens);
    for w := 0 to WindowCount(|tokens|, gap)
      invariant g.Value() == CountPairs(nodes, WindowPairs(us, gap, w))
    {
      CountWindow(g, us, gap, w, nodes);
    }
  }

  /** The node loop of `build_graph_words_real`. */
  method AddNodesTo(g: GraphStore, tokens: seq<Token>)
    modifies g
    ensures g.Value() == AddNodes(old(g.Value()), tokens)
  {
    ghost var start := g.Value();
    for k := 0 to |tokens|
      invariant g.Value() == AddNodes(start, tokens[..k])
    {
      var t := tokens[k];
      var _ := g.Touch(t.unit.text, ClassAttrs(t.unit), t.id, Append);
      assert tokens[..k + 1][..k] == tokens[..k];
    }
    assert tokens[..|tokens|] == tokens;
  }

  /** One iteration of the window loop: every pair of window `w` adds 1 to its edge. */
  method CountWindow(g: GraphStore, us: seq<string>, gap: nat, w: nat, ghost nodes: Graph)
    requires w < WindowCount(|us|, gap)
    requires forall u | u in us :: u in Names(nodes)
    requires g.Value() == CountPairs(nodes, WindowPairs(us, gap, w))
    modifies g
    ensures g.Value() == CountPairs(nodes, WindowPairs(us, gap, w + 1))
  {
    ghost var all := WindowPairs(us, gap, w + 1);
    ghost var done := WindowPairs(us, gap, w);
    var pairs := Pairs.Combinations(us[w .. w + gap]);
    assert all == done + pairs;
    assert all[..|done|] == done;
    assert forall q | q in all :: q.0 in Names(nodes) && q.1 in Names(nodes);
    for m := 0 to |pairs|
      invariant g.Value() == CountPairs(nodes, all[..|done| + m])
    {
      CountPairTo(g, pairs[m], nodes, all, |done| + m);
    }
    assert all[..|all|] == all;
  }

  /** One pair of a window: add 1 to the edge between the two units' nodes. */
  method CountPairTo(g: GraphStore, q: (string, string), ghost nodes: Graph, ghost qs: seq<(string, string)>, ghost n: nat)
    requires n < |qs| && q == qs[n]
    requires forall p | p in qs :: p.0 in Names(nodes) && p.1 in Names(nodes)
    requires g.Value() == CountPairs(nodes, qs[..n])
    modifies g
    ensures g.Value() == CountPairs(nodes, qs[..n + 1])
  {
    assert qs[..n + 1][..n] == qs[..n];
    assert Names(g.Value()) == Names(nodes);
    var a := FindVertex(g.vertices, q.0);
    var b := FindVertex(g.vertices, q.1);
    g.IncrementEdge(a.value, b.value);
  }

  /**
   * `build_graph_words`: selects the tokens, then builds one network per gap
   * into the same graph; there is no graph when there are no gaps.
   */
  method BuildWords(f: Filters.Filter, tokens: seq<Token>, gaps: seq<nat>) returns (g: GraphStore?)
    requires EntitiesIndexed(f, tokens)
    ensures g == null <==> gaps == []
    ensures g != null ==> fresh(g) && g.Value() == BuildAll(Selection(f, tokens), gaps).value
  {
    var selected := SelectTokens(f, tokens);
    g := null;
    for k := 0 to |gaps|
      invariant g == null <==> k == 0
      invariant g != null ==> fresh(g) && g.Value() == BuildAll(selected, gaps[..k]).value
    {
      g := AddGap(selected, gaps, k, g);
    }
    assert gaps[..|gaps|] == gaps;
  }

  /** One gap of `build_graph_words`: the network of the `k`-th gap, built into the graph of the gaps before it. */
  method AddGap(ts: seq<Token>, gaps: seq<nat>, k: nat, graph: GraphStore?) returns (g: GraphStore)
    requires k < |gaps| && (graph == null <==> k == 0)
    requires graph != null ==> graph.Value() == BuildAll(ts, gaps[..k]).value
    modifies graph
    ensures graph == null ==> fresh(g)
    ensures graph != null ==> g == graph
    ensures g.Value() == BuildAll(ts, gaps[..k + 1]).value
  {
    assert gaps[..k + 1][..k] == gaps[..k];
    g := BuildWordsReal(ts, gaps[k], graph);
  }

  // ---------------------------------------------------------------- worker

  /** The `build_graph_<method>` methods the worker has. */
  datatype Builder = Words | WordsReal

  /** The `method` option value that selects each builder (`build_graph_<value>`). */
  function BuilderMethod(b: Builder): string
  {
    match b
    case Words => "words"
    case WordsReal => "words_real"
  }

  /** The builder `getattr` finds for the `method` option. */
  function BuilderNamed(name: string): (r: Option<Builder>)
    ensures r.Some? ==> BuilderMethod(r.value) == name
  {
    if name == "words" then Some(Words)
    else if name == "words_real" then Some(WordsReal)
    else None
  }

  /** Exactly the two builder names are found, each finding its own builder. */
  lemma BuilderNamedInverse(b: Builder, name: string)
    ensures BuilderNamed(name) == Some(b) <==> BuilderMethod(b) == name
  {
  }

  /** How a run of the worker fails. */
  datatype WorkerError =
    | Config(e: Filters.ConfigError)  // the method is not supported: the worker exits
    | MissingArguments                // `build_graph_words_real` called without tokens
    | NoGraph                         // no gaps, so there is no graph to report on

  /**
   * `CooccurrenceWorker`: looks the builder up by the `method` option, then
   * `add_annotations` builds the graph that is appended to the corpus.
   */
  method AddAnnotations(f: Filters.Filter, methodName: string, tokens: seq<Token>, gaps: seq<nat>)
    returns (r: Result<GraphStore, WorkerError>)
    requires EntitiesIndexed(f, tokens)
    ensures BuilderNamed(methodName).None? ==> r == Failure(Config(Filters.UnsupportedMethod(methodName)))
    ensures BuilderNamed(methodName) == Some(WordsReal) ==> r == Failure(MissingArguments)
    ensures BuilderNamed(methodName) == Some(Words) && gaps == [] ==> r == Failure(NoGraph)
    ensures BuilderNamed(methodName) == Some(Words) && gaps != [] ==>
      r.Success? && fresh(r.value) && r.value.Value() == BuildAll(Selection(f, tokens), gaps).value
  {
    var builder := BuilderNamed(methodName);
    if builder.None? {
      return Failure(Config(Filters.UnsupportedMethod(methodName)));
    }
    if builder.value == WordsReal {
      return Failure(MissingArguments);
    }
    var g := BuildWords(f, tokens, gaps);
    if g == null {
      return Failure(NoGraph);
    }
    return Success(g);
  }
}

=== FILE: dep_filters.dfy ===
/**
 * The older token tests that the two dependency workers carry themselves
 * (tcfnetworks/annotators/dependency.py and
 * tcfnetworks/annotators/extended_dependency.py). Neither worker has a
 * stop-word list; both select the test by method name on every
 * `parse_to_graph` call.
 */
module DepFilters {
  import opened Wrappers
  import opened Tokens
  import Filters

  /** The dependency workers' `test_token_<name>` methods. */
  datatype DepPolicy = DepFull | DepNonclosed | DepSemantic | DepConcept | DepEntity | DepActor

  /** `test_token_full` of the dependency workers. */
  predicate FullTest(t: Token)
  {
    !IsPunctuation(t)
  }

  /** `test_token_nonclosed` of the dependency workers. */
  predicate NonclosedTest(t: Token)
  {
    !t.pos.closed
  }

  /** `test_token_semantic` of the dependency workers. */
  predicate SemanticTest(t: Token)
  {
    if !t.pos.closed then true
    else if t.entity.Some? then true
    else if t.reference.Some? then true
    else false
  }

  /** `test_token_concept` of the extended dependency worker. */
  predicate ConceptTest(t: Token)
  {
    if !SemanticTest(t) then false
    else if IsVerb(t) || IsAdverb(t) then false
    else true
  }

  /**
   * The test a policy selects. `entity` and `actor` are the same tests as the
   * base class's, which the extended worker repeats (the named-entity field
   * read there is the token's entity).
   */
  predicate Accepts(p: DepPolicy, t: Token)
  {
    match p
    case DepFull => FullTest(t)
    case DepNonclosed => NonclosedTest(t)
    case DepSemantic => SemanticTest(t)
    case DepConcept => ConceptTest(t)
    case DepEntity => Filters.EntityTest(t, true)
    case DepActor => Filters.ActorTest(t, true)
  }

  /** The method names the worker of dependency.py answers to. */
  function DependencyPolicyNamed(name: string): (r: Option<DepPolicy>)
    ensures r.Some? ==> r.value in {DepFull, DepNonclosed, DepSemantic}
    ensures r.None? <==> name != "full" && name != "nonclosed" && name != "semantic"
  {
    if name == "full" then Some(DepFull)
    else if name == "nonclosed" then Some(DepNonclosed)
    else if name == "semantic" then Some(DepSemantic)
    else None
  }

  /** The method names the worker of extended_dependency.py answers to: those of dependency.py and three more. */
  function ExtendedPolicyNamed(name: string): (r: Option<DepPolicy>)
    ensures DependencyPolicyNamed(name).Some? ==> r == DependencyPolicyNamed(name)
    ensures r.None? <==> DependencyPolicyNamed(name).None? && name != "concept" && name != "entity" && name != "actor"
  {
    if name == "concept" then Some(DepConcept)
    else if name == "entity" then Some(DepEntity)
    else if name == "actor" then Some(DepActor)
    else DependencyPolicyNamed(name)
  }

  /** The extended `concept` rejects verbs and adverbs and otherwise is `semantic`. */
  lemma ConceptRejectsVerbsAndAdverbs(t: Token)
    ensures ConceptTest(t) <==> SemanticTest(t) && !IsVerb(t) && !IsAdverb(t)
  {
  }

  /**
   * The dependency workers' `full` and `nonclosed` are the base class's with
   * an empty stop-word list; their `semantic` accepts every open-class token,
   * adverbs included, and so everything the base `lexical` accepts without
   * stop words.
   */
  lemma AgreeWithBaseWithoutStopwords(t: Token, feature: TokenAttr)
    ensures FullTest(t) == Filters.FullTest(Filters.Filter([], feature, Filters.Full), t)
    ensures NonclosedTest(t) == Filters.NonclosedTest(Filters.Filter([], feature, Filters.Nonclosed), t)
    ensures Filters.LexicalTest(Filters.Filter([], feature, Filters.Lexical), t) ==> SemanticTest(t)
  {
  }
}

=== FILE: dependency.dfy ===
/**
 * The dependency-network annotator of tcfnetworks/annotators/dependency.py:
 * every pair the walker of `find_edges` yields becomes an edge between the
 * nodes labelled by the two tokens' label attribute, created on first use; a
 * repeated pair adds 1 to the edge's weight, a pair whose two tokens share a
 * label adds no edge, and every token's ID is recorded on its node.
 *
 * The per-pair step is shared with the igraph builder of
 * tcfnetworks/annotators/extended_dependency.py, which records IDs in a list
 * without repeats where this worker uses a set.
 */
module Dependency {
  import opened Wrappers
  import opened Tokens
  import opened Graphs
  import opened ParseTree
  import DepFilters
  import Filters

  /** The token test a policy selects, as the walker's `keep` parameter. */
  function Keep(p: DepFilters.DepPolicy): Token -> bool
  {
    t => DepFilters.Accepts(p, t)
  }

  /** Both nodes of a walker pair found or added, with the token IDs recorded: the graph and the two node indices. */
  function TouchPair(g: Graph, e: TokenPair, key: TokenAttr, how: IdRecording): (r: (Graph, nat, nat))
    ensures r.0.edges == g.edges
    ensures r.1 < |r.0.vertices| && r.0.vertices[r.1].name == Attribute(e.0, key)
    ensures r.2 < |r.0.vertices| && r.0.vertices[r.2].name == Attribute(e.1, key)
  {
    var (g1, a) := TouchVertex(g, Attribute(e.0, key), map[], e.0.id, how);
    var (g2, b) := TouchVertex(g1, Attribute(e.1, key), map[], e.1.id, how);
    (g2, a, b)
  }

  /** One walker pair's effect: find or add both nodes, record the IDs, then add or increment the edge unless it is a loop. */
  function AddPair(g: Graph, e: TokenPair, key: TokenAttr, how: IdRecording): Graph
  {
    var (g2, a, b) := TouchPair(g, e, key, how);
    AddOrIncrement(g2, a, b)
  }

  /** The effect of a sequence of walker pairs, in order. */
  function AddPairs(g: Graph, es: seq<TokenPair>, key: TokenAttr, how: IdRecording): Graph
    decreases |es|
  {
    if es == [] then g else AddPair(AddPairs(g, es[..|es| - 1], key, how), es[|es| - 1], key, how)
  }

  // ------------------------------------------------------- reference counts

  /** Whether a pair joins the two distinct labels {a, b}. */
  predicate Counts(e: TokenPair, key: TokenAttr, a: string, b: string)
  {
    Attribute(e.0, key) != Attribute(e.1, key) &&
    SamePair(Attribute(e.0, key), Attribute(e.1, key), a, b)
  }

  /** The number of pairs joining the distinct labels {a, b}. */
  function PairCount(es: seq<TokenPair>, key: TokenAttr, a: string, b: string): nat
    decreases |es|
  {
    if es == [] then 0
    else PairCount(es[..|es| - 1], key, a, b) + (if Counts(es[|es| - 1], key, a, b) then 1 else 0)
  }

  /** The labels of the tokens of a sequence of pairs. */
  function PairLabels(es: seq<TokenPair>, key: TokenAttr): set<string>
  {
    (set k | 0 <= k < |es| :: Attribute(es[k].0, key)) + (set k | 0 <= k < |es| :: Attribute(es[k].1, key))
  }

  /** The IDs of the tokens of a sequence of pairs whose label is `a`. */
  function PairIds(es: seq<TokenPair>, key: TokenAttr, a: string): set<string>
  {
    (set k | 0 <= k < |es| && Attribute(es[k].0, key) == a :: es[k].0.id) +
    (set k | 0 <= k < |es| && Attribute(es[k].1, key) == a :: es[k].1.id)
  }

  /** The IDs one pair contributes to the node labelled `a`. */
  function PairStepIds(e: TokenPair, key: TokenAttr, a: string): set<string>
  {
    (if Attribute(e.0, key) == a then {e.0.id} else {}) + (if Attribute(e.1, key) == a then {e.1.id} else {})
  }

  /** All walker pairs of a document's parses, parse by parse. */
  function DocumentPairs(keep: Token -> bool, parses: seq<Parse>): (r: seq<TokenPair>)
    ensures forall e | e in r :: keep(e.0) && keep(e.1)
    decreases |parses|
  {
    if parses == [] then []
    else DocumentPairs(keep, parses[..|parses| - 1]) + FindEdges(keep, parses[|parses| - 1])
  }

  // ------------------------------------------------------------- the worker

  /** The body of the loop of `parse_to_graph` for one walker pair, on the graph in place. */
  method AddPairTo(g: GraphStore, e: TokenPair, key: TokenAttr, how: IdRecording)
    modifies g
    ensures g.Value() == AddPair(old(g.Value()), e, key, how)
  {
    var a := g.Touch(Attribute(e.0, key), map[], e.0.id, how);
    var b := g.Touch(Attribute(e.1, key), map[], e.1.id, how);
    g.AddOrIncrementEdge(a, b);
  }

  /** The loop of `parse_to_graph` over a sequence of walker pairs, on the graph in place. */
  method AddPairsTo(g: GraphStore, es: seq<TokenPair>, key: TokenAttr, how: IdRecording)
    modifies g
    ensures g.Value() == AddPairs(old(g.Value()), es, key, how)
  {
    ghost var g0 := g.Value();
    for i := 0 to |es|
      invariant g.Value() == AddPairs(g0, es[..i], key, how)
    {
      AddPairTo(g, es[i], key, how);
      AddPairsPrefix(g0, es, i, key, how);
    }
    assert es[..|es|] == es;
  }

  /** One more pair of the same sequence is one more step of the fold. */
  lemma AddPairsPrefix(g: Graph, es: seq<TokenPair>, i: nat, key: TokenAttr, how: IdRecording)
    requires i < |es|
    ensures AddPairs(g, es[..i + 1], key, how) == AddPair(AddPairs(g, es[..i], key, how), es[i], key, how)
  {
    assert es[..i + 1][..i] == es[..i];
  }

  /**
   * `parse_to_graph`: extend `graph`, or a new empty graph when it is null,
   * with the walker pairs of `parse` under the test `methodName` names. An
   * unknown name ends the run in the source and is an error here, with the
   * graph untouched.
   */
  method ParseToGraph(parse: Parse, graph: GraphStore?, methodName: string, key: TokenAttr)
    returns (r: Result<GraphStore, Filters.ConfigError>)
    modifies graph
    ensures DepFilters.DependencyPolicyNamed(methodName).None? <==> r.Failure?
    ensures r.Failure? ==> r.error == Filters.UnsupportedMethod(methodName) && (graph != null ==> graph.Value() == old(graph.Value()))
    ensures r.Success? && graph != null ==> r.value == graph
    ensures r.Success? && graph == null ==> fresh(r.value)
    ensures r.Success? ==>
      var start := if graph == null then Graph([], []) else old(graph.Value());
      r.value.Value() == AddPairs(start, FindEdges(Keep(DepFilters.DependencyPolicyNamed(methodName).value), parse), key, AddToSet)
  {
    var policy := DepFilters.DependencyPolicyNamed(methodName);
    if policy.None? {
      return Failure(Filters.UnsupportedMethod(methodName));
    }
    var g: GraphStore;
    if graph == null {
      g := new GraphStore.Empty();
    } else {
      g := graph;
    }
    AddPairsTo(g, FindEdges(Keep(policy.value), parse), key, AddToSet);
    return Success(g);
  }

  /** One `parse_to_graph` call of `add_annotations`, whose `semantic` test always exists. */
  method AddSemanticParse(parse: Parse, graph: GraphStore?) returns (g: GraphStore)
    modifies graph
    ensures graph != null ==> g == graph
    ensures graph == null ==> fresh(g)
    ensures g.Value() == AddPairs(if graph == null then Graph([], []) else old(graph.Value()),
      FindEdges(Keep(DepFilters.DepSemantic), parse), SemanticUnitAttr, AddToSet)
  {
    assert DepFilters.DependencyPolicyNamed("semantic") == Some(DepFilters.DepSemantic);
    var res := ParseToGraph(parse, graph, "semantic", SemanticUnitAttr);
    g := res.value;
  }

  /** Why `add_annotations` fails: a document without parses leaves no graph to report on. */
  datatype AnnotateError = NoParses

  /**
   * `add_annotations`: one graph through all parses of the document, with
   * the default `semantic` test and `semantic_unit` labels. A document
   * without parses leaves no graph, which the source then fails on.
   */
  method AddAnnotations(parses: seq<Parse>) returns (r: Result<GraphStore, AnnotateError>)
    ensures parses == [] ==> r == Failure(NoParses)
    ensures parses != [] ==> r.Success? && r.value.Value() == AddPairs(Graph([], []), DocumentPairs(Keep(DepFilters.DepSemantic), parses), SemanticUnitAttr, AddToSet)
  {
    var graph: GraphStore? := null;
    ghost var keep := Keep(DepFilters.DepSemantic);
    ghost var built := Graph([], []);
    var i := 0;
    while i < |parses|
      invariant 0 <= i <= |parses|
      invariant i == 0 <==> graph == null
      invariant graph != null ==> fresh(graph) && graph.Value() == built
      invariant built == AddPairs(Graph([], []), DocumentPairs(keep, parses[..i]), SemanticUnitAttr, AddToSet)
    {
      graph := AddSemanticParse(parses[i], graph);
      DocumentStep(keep, parses, i, SemanticUnitAttr, AddToSet);
      built := AddPairs(built, FindEdges(keep, parses[i]), SemanticUnitAttr, AddToSet);
      i := i + 1;
    }
    assert parses[..i] == parses;
    if graph == null {
      return Failure(NoParses);
    }
    return Success(graph);
  }

  // ----------------------------------------------------------------- lemmas

  /** Adding pairs in two batches is adding their concatenation. */
  lemma {:induction false} AddPairsAppend(g: Graph, xs: seq<TokenPair>, ys: seq<TokenPair>, key: TokenAttr, how: IdRecording)
    ensures AddPairs(AddPairs(g, xs, key, how), ys, key, how) == AddPairs(g, xs + ys, key, how)
    decreases |ys|
  {
    if ys == [] {
      assert xs + ys == xs;
    } else {
      assert (xs + ys)[..|xs + ys| - 1] == xs + ys[..|ys| - 1];
      assert (xs + ys)[|xs + ys| - 1] == ys[|ys| - 1];
      AddPairsAppend(g, xs, ys[..|ys| - 1], key, how);
    }
  }

  /** One more parse adds its walker pairs to those of the parses before it. */
  lemma DocumentStep(keep: Token -> bool, parses: seq<Parse>, i: nat, key: TokenAttr, how: IdRecording)
    requires i < |parses|
    ensures AddPairs(Graph([], []), DocumentPairs(keep, parses[..i + 1]), key, how) ==
      AddPairs(AddPairs(Graph([], []), DocumentPairs(keep, parses[..i]), key, how), FindEdges(keep, parses[i]), key, how)
  {
    assert parses[..i + 1][..i] == parses[..i];
    AddPairsAppend(Graph([], []), DocumentPairs(keep, parses[..i]), FindEdges(keep, parses[i]), key, how);
  }

  /** Touching both nodes keeps the graph's shape and adds the two labels as names. */
  lemma TouchPairShape(g: Graph, e: TokenPair, key: TokenAttr, how: IdRecording)
    requires Simple(g)
    ensures var g2 := TouchPair(g, e, key, how).0;
      Simple(g2) && (Valid(g) ==> Valid(g2)) &&
      Names(g2) == Names(g) + {Attribute(e.0, key), Attribute(e.1, key)}
  {
    var x, y := Attribute(e.0, key), Attribute(e.1, key);
    var g1 := TouchVertex(g, x, map[], e.0.id, how).0;
    assert Simple(g1) && (Valid(g) ==> Valid(g1)) && Names(g1) == Names(g) + {x} by {
      TouchKeepsEdges(g, x, map[], e.0.id, how);
    }
    var g2 := TouchVertex(g1, y, map[], e.1.id, how).0;
    assert TouchPair(g, e, key, how).0 == g2;
    assert Simple(g2) && (Valid(g1) ==> Valid(g2)) && Names(g2) == Names(g1) + {y} by {
      TouchKeepsEdges(g1, y, map[], e.1.id, how);
    }
    UnionPair(Names(g), x, y);
  }

  lemma UnionPair(s: set<string>, x: string, y: string)
    ensures s + {x} + {y} == s + {x, y}
  {
  }

  lemma UnionRegroup(s: set<string>, t: set<string>, u: set<string>)
    ensures s + t + u == s + (t + u)
  {
  }

  /** Touching both nodes keeps every edge between names. */
  lemma TouchPairKeepsEdges(g: Graph, e: TokenPair, key: TokenAttr, how: IdRecording)
    requires Simple(g)
    ensures var g2 := TouchPair(g, e, key, how).0;
      forall a, b | true :: AttrsBetween(g2, a, b) == AttrsBetween(g, a, b)
  {
    var x, y := Attribute(e.0, key), Attribute(e.1, key);
    var g1 := TouchVertex(g, x, map[], e.0.id, how).0;
    assert Simple(g1) && forall a, b | true :: AttrsBetween(g1, a, b) == AttrsBetween(g, a, b) by {
      TouchKeepsEdges(g, x, map[], e.0.id, how);
    }
    var g2 := TouchVertex(g1, y, map[], e.1.id, how).0;
    assert TouchPair(g, e, key, how).0 == g2;
    assert forall a, b | true :: AttrsBetween(g2, a, b) == AttrsBetween(g1, a, b) by {
      TouchKeepsEdges(g1, y, map[], e.1.id, how);
    }
  }

  /** Touching both nodes keeps the recording exact. */
  lemma TouchPairExact(g: Graph, e: TokenPair, key: TokenAttr, how: IdRecording)
    requires ExactIds(g, how)
    ensures ExactIds(TouchPair(g, e, key, how).0, how)
  {
    var x, y := Attribute(e.0, key), Attribute(e.1, key);
    var g1 := TouchVertex(g, x, map[], e.0.id, how).0;
    TouchKeepsExactIds(g, x, map[], e.0.id, how);
    TouchKeepsExactIds(g1, y, map[], e.1.id, how);
  }

  /** Touching one node adds its token's ID to that node's IDs only, and keeps names distinct and recording exact. */
  lemma TouchStepIds(g: Graph, name: string, id: string, how: IdRecording, a: string)
    requires DistinctNames(g.vertices) && ExactIds(g, how)
    ensures var g1 := TouchVertex(g, name, map[], id, how).0;
      DistinctNames(g1.vertices) && ExactIds(g1, how) &&
      IdsAt(g1, a) == IdsAt(g, a) + (if a == name then {id} else {})
  {
    TouchDistinct(g, name, map[], id, how);
    TouchIds(g, name, map[], id, how, a);
    TouchKeepsExactIds(g, name, map[], id, how);
  }

  /** Touching both nodes adds each token's ID to its own node's IDs and to no other node's. */
  lemma TouchPairIds(g: Graph, e: TokenPair, key: TokenAttr, how: IdRecording, a: string)
    requires DistinctNames(g.vertices) && ExactIds(g, how)
    ensures IdsAt(TouchPair(g, e, key, how).0, a) == IdsAt(g, a) + PairStepIds(e, key, a)
  {
    var x, y := Attribute(e.0, key), Attribute(e.1, key);
    var g1 := TouchVertex(g, x, map[], e.0.id, how).0;
    TouchStepIds(g, x, e.0.id, how, a);
    TouchStepIds(g1, y, e.1.id, how, a);
    assert TouchPair(g, e, key, how).0 == TouchVertex(g1, y, map[], e.1.id, how).0;
    UnionRegroup(IdsAt(g, a), if a == x then {e.0.id} else {}, if a == y then {e.1.id} else {});
  }

  /** One pair keeps the graph valid, and free of loops when it was. */
  lemma AddPairValid(g: Graph, e: TokenPair, key: TokenAttr, how: IdRecording)
    requires Valid(g)
    ensures Valid(AddPair(g, e, key, how))
    ensures NoLoops(g.edges) ==> NoLoops(AddPair(g, e, key, how).edges)
  {
    var t := TouchPair(g, e, key, how);
    TouchPairShape(g, e, key, how);
    AddOrIncrementValid(t.0, t.1, t.2);
  }

  /** One pair adds 1 to the weight between its two labels when they differ, and changes no other weight. */
  lemma AddPairWeight(g: Graph, e: TokenPair, key: TokenAttr, how: IdRecording, a: string, b: string)
    requires Valid(g)
    ensures WeightBetween(AddPair(g, e, key, how), a, b) == WeightBetween(g, a, b) + (if Counts(e, key, a, b) then 1 else 0)
  {
    var t := TouchPair(g, e, key, how);
    var x, y := Attribute(e.0, key), Attribute(e.1, key);
    assert AddPair(g, e, key, how) == AddOrIncrement(t.0, t.1, t.2);
    assert DistinctNames(t.0.vertices) by { TouchPairShape(g, e, key, how); }
    assert WeightBetween(t.0, a, b) == WeightBetween(g, a, b) by { TouchPairKeepsEdges(g, e, key, how); }
    var hit := t.1 != t.2 && SamePair(a, b, x, y);
    assert WeightBetween(AddOrIncrement(t.0, t.1, t.2), a, b) == WeightBetween(t.0, a, b) + (if hit then 1 else 0) by {
      AddOrIncrementWeightBetween(t.0, t.1, t.2, a, b);
    }
    assert t.1 != t.2 <==> x != y;
    assert hit <==> Counts(e, key, a, b);
  }

  /** The graph stays valid and free of loops. */
  lemma {:induction false} AddPairsValid(g: Graph, es: seq<TokenPair>, key: TokenAttr, how: IdRecording)
    requires Valid(g)
    ensures Valid(AddPairs(g, es, key, how))
    ensures NoLoops(g.edges) ==> NoLoops(AddPairs(g, es, key, how).edges)
    decreases |es|
  {
    if es != [] {
      AddPairsValid(g, es[..|es| - 1], key, how);
      AddPairValid(AddPairs(g, es[..|es| - 1], key, how), es[|es| - 1], key, how);
    }
  }

  /**
   * The weight between two labels grows by the number of pairs joining them;
   * between a label and itself it does not grow at all.
   */
  lemma {:induction false} AddPairsWeights(g: Graph, es: seq<TokenPair>, key: TokenAttr, how: IdRecording, a: string, b: string)
    requires Valid(g)
    ensures WeightBetween(AddPairs(g, es, key, how), a, b) == WeightBetween(g, a, b) + PairCount(es, key, a, b)
    ensures WeightBetween(AddPairs(g, es, key, how), a, a) == WeightBetween(g, a, a)
    decreases |es|
  {
    if es != [] {
      var init := es[..|es| - 1];
      AddPairsWeights(g, init, key, how, a, b);
      AddPairsValid(g, init, key, how);
      AddPairWeight(AddPairs(g, init, key, how), es[|es| - 1], key, how, a, b);
      AddPairWeight(AddPairs(g, init, key, how), es[|es| - 1], key, how, a, a);
    }
  }

  lemma PairLabelsSnoc(es: seq<TokenPair>, key: TokenAttr)
    requires es != []
    ensures PairLabels(es, key) == PairLabels(es[..|es| - 1], key) + {Attribute(es[|es| - 1].0, key), Attribute(es[|es| - 1].1, key)}
  {
    var init := es[..|es| - 1];
    forall k | 0 <= k < |init| ensures init[k] == es[k] { }
  }

  lemma PairIdsSnoc(es: seq<TokenPair>, key: TokenAttr, a: string)
    requires es != []
    ensures PairIds(es, key, a) == PairIds(es[..|es| - 1], key, a) + PairStepIds(es[|es| - 1], key, a)
  {
    PairIdsSnocWithin(es, key, a);
    PairIdsSnocCovers(es, key, a);
  }

  lemma PairIdsSnocWithin(es: seq<TokenPair>, key: TokenAttr, a: string)
    requires es != []
    ensures PairIds(es, key, a) <= PairIds(es[..|es| - 1], key, a) + PairStepIds(es[|es| - 1], key, a)
  {
    var init, last := es[..|es| - 1], es[|es| - 1];
    forall x | x in PairIds(es, key, a) ensures x in PairIds(init, key, a) + PairStepIds(last, key, a) {
      var k :| 0 <= k < |es| && ((Attribute(es[k].0, key) == a && es[k].0.id == x) || (Attribute(es[k].1, key) == a && es[k].1.id == x));
      if k < |init| {
        assert es[k] == init[k];
      }
    }
  }

  lemma PairIdsSnocCovers(es: seq<TokenPair>, key: TokenAttr, a: string)
    requires es != []
    ensures PairIds(es[..|es| - 1], key, a) + PairStepIds(es[|es| - 1], key, a) <= PairIds(es, key, a)
  {
    var init, last := es[..|es| - 1], es[|es| - 1];
    forall x | x in PairIds(init, key, a) ensures x in PairIds(es, key, a) {
      var k :| 0 <= k < |init| && ((Attribute(init[k].0, key) == a && init[k].0.id == x) || (Attribute(init[k].1, key) == a && init[k].1.id == x));
      assert es[k] == init[k];
    }
    assert es[|es| - 1] == last;
  }

  /** The node labels grow by exactly the labels of the pairs' tokens. */
  lemma {:induction false} AddPairsNames(g: Graph, es: seq<TokenPair>, key: TokenAttr, how: IdRecording)
    requires Valid(g)
    ensures Names(AddPairs(g, es, key, how)) == Names(g) + PairLabels(es, key)
    decreases |es|
  {
    if es != [] {
      var init := es[..|es| - 1];
      AddPairsNames(g, init, key, how);
      AddPairsValid(g, init, key, how);
      TouchPairShape(AddPairs(g, init, key, how), es[|es| - 1], key, how);
      PairLabelsSnoc(es, key);
    }
  }

  /** Recording stays exact: with list recording, every `tokenIDs` stays a list. */
  lemma {:induction false} AddPairsExactIds(g: Graph, es: seq<TokenPair>, key: TokenAttr, how: IdRecording)
    requires Valid(g) && ExactIds(g, how)
    ensures ExactIds(AddPairs(g, es, key, how), how)
    decreases |es|
  {
    if es != [] {
      var init := es[..|es| - 1];
      AddPairsExactIds(g, init, key, how);
      AddPairsValid(g, init, key, how);
      TouchPairExact(AddPairs(g, init, key, how), es[|es| - 1], key, how);
    }
  }

  /** The token IDs on a node grow by exactly the IDs of the pairs' tokens carrying its label. */
  lemma {:induction false} AddPairsIds(g: Graph, es: seq<TokenPair>, key: TokenAttr, how: IdRecording, a: string)
    requires Valid(g) && ExactIds(g, how)
    ensures IdsAt(AddPairs(g, es, key, how), a) == IdsAt(g, a) + PairIds(es, key, a)
    decreases |es|
  {
    if es != [] {
      var init := es[..|es| - 1];
      var h := AddPairs(g, init, key, how);
      var last := es[|es| - 1];
      AddPairsIds(g, init, key, how, a);
      assert IdsAt(AddPair(h, last, key, how), a) == IdsAt(h, a) + PairStepIds(last, key, a) by {
        AddPairsValid(g, init, key, how);
        AddPairsExactIds(g, init, key, how);
        AddPairIds(h, last, key, how, a);
      }
      PairIdsSnoc(es, key, a);
      UnionRegroup(IdsAt(g, a), PairIds(init, key, a), PairStepIds(last, key, a));
    }
  }

  /** One pair adds its tokens' IDs to the nodes they label; the edge step leaves the nodes alone. */
  lemma AddPairIds(g: Graph, e: TokenPair, key: TokenAttr, how: IdRecording, a: string)
    requires DistinctNames(g.vertices) && ExactIds(g, how)
    ensures IdsAt(AddPair(g, e, key, how), a) == IdsAt(g, a) + PairStepIds(e, key, a)
  {
    var t := TouchPair(g, e, key, how);
    assert AddPair(g, e, key, how).vertices == t.0.vertices;
    TouchPairIds(g, e, key, how, a);
  }

  /**
   * Every node the worker adds is labelled by a token that passes the
   * selected test: with `full`, no punctuation token becomes a node; with
   * `nonclosed`, no closed-class token does.
   */
  lemma NodesPassTest(g: Graph, p: DepFilters.DepPolicy, parse: Parse, key: TokenAttr, how: IdRecording)
    requires Valid(g)
    ensures forall a | a in Names(AddPairs(g, FindEdges(Keep(p), parse), key, how)) - Names(g) ::
      exists t :: DepFilters.Accepts(p, t) && Attribute(t, key) == a
  {
    var es := FindEdges(Keep(p), parse);
    AddPairsNames(g, es, key, how);
    forall a | a in Names(AddPairs(g, es, key, how)) - Names(g)
      ensures exists t :: DepFilters.Accepts(p, t) && Attribute(t, key) == a
    {
      var k :| 0 <= k < |es| && (Attribute(es[k].0, key) == a || Attribute(es[k].1, key) == a);
      assert es[k] in es;
      if Attribute(es[k].0, key) == a {
        assert Keep(p)(es[k].0);
      } else {
        assert Keep(p)(es[k].1);
      }
    }
  }
}

=== FILE: extended.dfy ===
/**
 * The igraph dependency-network builder of
 * tcfnetworks/annotators/extended_dependency.py. Each parse gets a graph of
 * its own: the walker pairs become vertices found or added by label, whose
 * `tokenIDs` list gains each token ID once, and edges whose weight counts
 * the pairs, loops skipped. With a `distance` above 1, every vertex pair at
 * most `distance` steps apart in that graph then gets one more
 * add-or-increment. The parse graph is returned as it is for the first
 * parse and otherwise merged into a copy of the graph built so far.
 *
 * The walker (`find_edges`, `find_dependents`) is the one of
 * dependency.py, modelled once in ParseTree; the token tests are in
 * DepFilters.
 */
module Extended {
  import opened Wrappers
  import opened Tokens
  import opened Graphs
  import opened ParseTree
  import DepFilters
  import Filters
  import Pairs
  import Dependency
  import Utils

  /** The worker's default options. */
  const DefaultMethod: string := "semantic"
  const DefaultLabel: TokenAttr := SemanticUnitAttr
  const DefaultDistance: int := 1

  /** Why the worker fails: an unknown test, a merge the attribute rules refuse, or a document without parses. */
  datatype BuildError =
    | Config(e: Filters.ConfigError)
    | Merge(m: Utils.MergeError)
    | NoParses

  // ------------------------------------------------------------ distances

  /** Whether some edge joins vertices i and j. */
  ghost predicate Adjacent(g: Graph, i: nat, j: nat)
  {
    exists k | 0 <= k < |g.edges| :: Joins(g.edges[k], i, j)
  }

  /** Whether the k-th and the next vertex of `p` are adjacent. */
  ghost predicate Step(g: Graph, p: seq<nat>, k: nat)
    requires k + 1 < |p|
  {
    Adjacent(g, p[k], p[k + 1])
  }

  /** Whether consecutive vertices of `p` are adjacent. */
  ghost predicate IsWalk(g: Graph, p: seq<nat>)
  {
    |p| > 0 && forall k | 0 <= k < |p| - 1 :: Step(g, p, k)
  }

  /** A walk extended by an adjacent vertex is a walk. */
  lemma WalkSnoc(g: Graph, p: seq<nat>, j: nat)
    requires IsWalk(g, p) && Adjacent(g, p[|p| - 1], j)
    ensures IsWalk(g, p + [j])
  {
    var p' := p + [j];
    forall k | 0 <= k < |p'| - 1 ensures Step(g, p', k) {
      assert p'[k] == p[k];
      if k + 1 < |p| {
        assert Step(g, p, k) && p'[k + 1] == p[k + 1];
      }
    }
  }

  /** A walk without its last vertex is a walk. */
  lemma WalkInit(g: Graph, p: seq<nat>)
    requires IsWalk(g, p) && |p| > 1
    ensures IsWalk(g, p[..|p| - 1])
  {
    var init := p[..|p| - 1];
    forall k | 0 <= k < |init| - 1 ensures Step(g, init, k) {
      assert Step(g, p, k);
    }
  }

  /**
   * Whether a walk of at most `d` edges leads from i to j: the reference for
   * an unweighted shortest-path length of at most `d`. A pair with no walk
   * at all is igraph's `inf`.
   */
  ghost predicate Within(g: Graph, i: nat, j: nat, d: nat)
  {
    exists p | IsWalk(g, p) :: p[0] == i && p[|p| - 1] == j && |p| <= d + 1
  }

  /** The vertices one edge away from a vertex of `b`. */
  function Neighbours(g: Graph, b: set<nat>): set<nat>
  {
    (set k | 0 <= k < |g.edges| && g.edges[k].source in b :: g.edges[k].target) +
    (set k | 0 <= k < |g.edges| && g.edges[k].target in b :: g.edges[k].source)
  }

  /** The vertices at most `d` steps from i, step by step outward. */
  function Ball(g: Graph, i: nat, d: nat): (r: set<nat>)
    ensures i in r
    decreases d
  {
    if d == 0 then {i} else Ball(g, i, d - 1) + Neighbours(g, Ball(g, i, d - 1))
  }

  // ---------------------------------------------------------- the expansion

  /** The vertex indices 0, ..., n - 1 (the order of `parse_graph.vs`). */
  function Indices(n: nat): (r: seq<nat>)
    ensures |r| == n && forall k | 0 <= k < n :: r[k] == k
  {
    seq(n, k => k)
  }

  /** The pairs of `cs` whose second vertex is at most `d` steps from the first, in order. */
  function Close(g: Graph, d: nat, cs: seq<(nat, nat)>): seq<(nat, nat)>
    decreases |cs|
  {
    if cs == [] then []
    else
      var q := cs[|cs| - 1];
      Close(g, d, cs[..|cs| - 1]) + (if q.1 in Ball(g, q.0, d) then [q] else [])
  }

  /** The vertex pairs of `combinations(parse_graph.vs, 2)` at most `d` steps apart: the `additional_edges`. */
  function Expansion(g: Graph, d: nat): seq<(nat, nat)>
  {
    Close(g, d, Pairs.Combinations(Indices(|g.vertices|)))
  }

  /** `add_or_increment_edge` for each pair of `cs`, in order. */
  function ApplyEdges(g: Graph, cs: seq<(nat, nat)>): (r: Graph)
    ensures r.vertices == g.vertices
    decreases |cs|
  {
    if cs == [] then g
    else
      var q := cs[|cs| - 1];
      AddOrIncrement(ApplyEdges(g, cs[..|cs| - 1]), q.0, q.1)
  }

  /** The graph of one parse: the walker pairs under `policy`, then the expansion when `distance` is above 1. */
  function ParseGraph(parse: Parse, policy: DepFilters.DepPolicy, key: TokenAttr, distance: int): (r: Graph)
    ensures Valid(r) && NoLoops(r.edges)
  {
    var es := FindEdges(Dependency.Keep(policy), parse);
    var g := Dependency.AddPairs(Graph([], []), es, key, AppendIfAbsent);
    assert Valid(g) && NoLoops(g.edges) by {
      Dependency.AddPairsValid(Graph([], []), es, key, AppendIfAbsent);
    }
    if distance > 1 then
      assert Valid(ApplyEdges(g, Expansion(g, distance))) && NoLoops(ApplyEdges(g, Expansion(g, distance)).edges) by {
        ExpansionPairs(g, distance);
        ApplyEdgesValid(g, Expansion(g, distance));
      }
      ApplyEdges(g, Expansion(g, distance))
    else g
  }

  // ------------------------------------------------------------- the worker

  /** The loop of `parse_to_graph` that collects `additional_edges`, on the graph as it is before any is added. */
  method AdditionalEdges(g: Graph, distance: nat) returns (cs: seq<(nat, nat)>)
    ensures cs == Expansion(g, distance)
  {
    var all := Pairs.Combinations(Indices(|g.vertices|));
    cs := [];
    for k := 0 to |all|
      invariant cs == Close(g, distance, all[..k])
    {
      assert all[..k + 1][..k] == all[..k];
      if all[k].1 in Ball(g, all[k].0, distance) {
        cs := cs + [all[k]];
      }
    }
    assert all[..|all|] == all;
  }

  /** The loop of `parse_to_graph` that adds the `additional_edges`, on the graph in place. */
  method ApplyEdgesTo(graph: GraphStore, cs: seq<(nat, nat)>)
    modifies graph
    ensures graph.Value() == ApplyEdges(old(graph.Value()), cs)
  {
    for k := 0 to |cs|
      invariant graph.Value() == ApplyEdges(old(graph.Value()), cs[..k])
    {
      assert cs[..k + 1][..k] == cs[..k];
      graph.AddOrIncrementEdge(cs[k].0, cs[k].1);
    }
    assert cs[..|cs|] == cs;
  }

  /**
   * `parse_to_graph`: the graph of `parse` under the test `methodName`
   * names; returned itself when there is no graph yet, otherwise merged
   * into a copy of `graph`, which is left as it was. An unknown test name
   * ends the run in the source and is an error here; so is a merge the
   * attribute rules refuse, which a graph this worker built never causes.
   */
  method ParseToGraph(parse: Parse, graph: GraphStore?, methodName: string, key: TokenAttr, distance: int)
    returns (r: Result<GraphStore, BuildError>)
    ensures DepFilters.ExtendedPolicyNamed(methodName).None? ==> r == Failure(Config(Filters.UnsupportedMethod(methodName)))
    ensures r.Success? ==> fresh(r.value) && DepFilters.ExtendedPolicyNamed(methodName).Some?
    ensures DepFilters.ExtendedPolicyNamed(methodName).Some? ==>
      var pg := ParseGraph(parse, DepFilters.ExtendedPolicyNamed(methodName).value, key, distance);
      if graph == null then r.Success? && r.value.Value() == pg
      else
        (r.Success? <==> Utils.MergeInto(graph.Value(), pg).Success?) &&
        (r.Success? ==> r.value.Value() == Utils.MergeInto(graph.Value(), pg).value)
  {
    var policy := DepFilters.ExtendedPolicyNamed(methodName);
    if policy.None? {
      return Failure(Config(Filters.UnsupportedMethod(methodName)));
    }
    var pg := new GraphStore.Empty();
    Dependency.AddPairsTo(pg, FindEdges(Dependency.Keep(policy.value), parse), key, AppendIfAbsent);
    if distance > 1 {
      var cs := AdditionalEdges(pg.Value(), distance);
      ApplyEdgesTo(pg, cs);
    }
    ParseGraphValid(parse, policy.value, key, distance);
    if graph == null {
      return Success(pg);
    }
    var merged := Utils.MergeGraphs(graph.Value(), [pg.Value()]);
    assert Utils.MergeAllFrom(graph.Value(), [pg.Value()], 0) == Utils.MergeInto(graph.Value(), pg.Value()) by {
      var m := Utils.MergeInto(graph.Value(), pg.Value());
      if m.Success? {
        assert Utils.MergeAllFrom(m.value, [pg.Value()], 1) == Success(m.value);
      }
    }
    if merged.Failure? {
      return Failure(Merge(merged.error));
    }
    return Success(merged.value);
  }

  /** Whether `g` is valid, free of loops, in the schema, and labelled by exactly `labels`. */
  ghost predicate Built(g: Graph, labels: set<string>)
  {
    Valid(g) && NoLoops(g.edges) && Utils.GraphConforms(g, VertexSchema, EdgeSchema) && Names(g) == labels
  }

  /**
   * The network `add_annotations` has built after the first `n` parses of a
   * document: the graph of the first parse, with the graph of each later one
   * merged into it in document order. No merge fails (`MergeBuilt`), so this
   * is a graph.
   */
  function Network(parses: seq<Parse>, n: nat, policy: DepFilters.DepPolicy, key: TokenAttr, distance: int): (r: Graph)
    requires 0 < n <= |parses|
    ensures Valid(r) && NoLoops(r.edges) && Utils.GraphConforms(r, VertexSchema, EdgeSchema)
    decreases n
  {
    var pg := ParseGraph(parses[n - 1], policy, key, distance);
    ParseGraphValid(parses[n - 1], policy, key, distance);
    if n == 1 then
      pg
    else
      var prev := Network(parses, n - 1, policy, key, distance);
      MergeBuilt(prev, pg);
      Utils.MergeInto(prev, pg).value
  }

  /** One step of the network: the graph of the n-th parse merges into the network of the earlier ones without failure. */
  lemma NetworkStep(parses: seq<Parse>, n: nat, policy: DepFilters.DepPolicy, key: TokenAttr, distance: int)
    requires 1 < n <= |parses|
    ensures Utils.MergeInto(Network(parses, n - 1, policy, key, distance), ParseGraph(parses[n - 1], policy, key, distance)).Success?
    ensures Network(parses, n, policy, key, distance) == Utils.MergeInto(Network(parses, n - 1, policy, key, distance), ParseGraph(parses[n - 1], policy, key, distance)).value
  {
    ParseGraphValid(parses[n - 1], policy, key, distance);
    MergeBuilt(Network(parses, n - 1, policy, key, distance), ParseGraph(parses[n - 1], policy, key, distance));
  }

  /** The nodes of the network are the labels of every walker pair of the parses read so far. */
  lemma {:induction false} NetworkNames(parses: seq<Parse>, n: nat, policy: DepFilters.DepPolicy, key: TokenAttr, distance: int)
    requires 0 < n <= |parses|
    ensures Names(Network(parses, n, policy, key, distance)) == Dependency.PairLabels(Dependency.DocumentPairs(Dependency.Keep(policy), parses[..n]), key)
    decreases n
  {
    PairLabelsStep(parses, n, policy, key, distance);
    if n > 1 {
      NetworkNamesStep(parses, n, policy, key, distance);
      NetworkNames(parses, n - 1, policy, key, distance);
    } else {
      assert parses[..0] == [];
    }
  }

  /** The labels of the first n parses' walker pairs are those of the first n - 1 parses' pairs and the n-th parse graph's nodes. */
  lemma PairLabelsStep(parses: seq<Parse>, n: nat, policy: DepFilters.DepPolicy, key: TokenAttr, distance: int)
    requires 0 < n <= |parses|
    ensures var keep := Dependency.Keep(policy);
      Dependency.PairLabels(Dependency.DocumentPairs(keep, parses[..n]), key) ==
      Dependency.PairLabels(Dependency.DocumentPairs(keep, parses[..n - 1]), key) + Names(ParseGraph(parses[n - 1], policy, key, distance))
  {
    DocumentLabelsStep(Dependency.Keep(policy), parses, n - 1, key);
    ParseGraphNames(parses[n - 1], policy, key, distance);
  }

  /** Merging the n-th parse graph into the network adds its nodes' names. */
  lemma NetworkNamesStep(parses: seq<Parse>, n: nat, policy: DepFilters.DepPolicy, key: TokenAttr, distance: int)
    requires 1 < n <= |parses|
    ensures Names(Network(parses, n, policy, key, distance)) ==
      Names(Network(parses, n - 1, policy, key, distance)) + Names(ParseGraph(parses[n - 1], policy, key, distance))
  {
    NetworkStep(parses, n, policy, key, distance);
    Utils.MergeIntoNames(Network(parses, n - 1, policy, key, distance), ParseGraph(parses[n - 1], policy, key, distance));
  }

  /** One `parse_to_graph` call of `add_annotations` with a known test: it never fails, and the labels grow by the parse's. */
  method AddParse(parse: Parse, graph: GraphStore?, methodName: string, key: TokenAttr, distance: int) returns (g: GraphStore)
    requires DepFilters.ExtendedPolicyNamed(methodName).Some?
    requires graph != null ==> Built(graph.Value(), Names(graph.Value()))
    ensures fresh(g)
    ensures Built(g.Value(), (if graph == null then {} else Names(graph.Value())) +
      Dependency.PairLabels(FindEdges(Dependency.Keep(DepFilters.ExtendedPolicyNamed(methodName).value), parse), key))
    ensures var pg := ParseGraph(parse, DepFilters.ExtendedPolicyNamed(methodName).value, key, distance);
      if graph == null then g.Value() == pg
      else Utils.MergeInto(graph.Value(), pg).Success? && g.Value() == Utils.MergeInto(graph.Value(), pg).value
  {
    var policy := DepFilters.ExtendedPolicyNamed(methodName).value;
    ghost var pg := ParseGraph(parse, policy, key, distance);
    ParseGraphValid(parse, policy, key, distance);
    ParseGraphNames(parse, policy, key, distance);
    if graph != null {
      MergeBuilt(graph.Value(), pg);
    }
    var res := ParseToGraph(parse, graph, methodName, key, distance);
    g := res.value;
  }

  /** One round of the parse loop of `add_annotations`: the network of the first i parses becomes that of the first i + 1. */
  method AddNextParse(parses: seq<Parse>, i: nat, graph: GraphStore?, methodName: string, policy: DepFilters.DepPolicy, key: TokenAttr, distance: int) returns (g: GraphStore)
    requires i < |parses| && DepFilters.ExtendedPolicyNamed(methodName) == Some(policy)
    requires i == 0 ==> graph == null
    requires 0 < i ==> graph != null && graph.Value() == Network(parses, i, policy, key, distance)
    ensures g.Value() == Network(parses, i + 1, policy, key, distance)
  {
    g := AddParse(parses[i], graph, methodName, key, distance);
    if i > 0 {
      NetworkStep(parses, i + 1, policy, key, distance);
    }
  }

  /** The parse loop of `add_annotations` for a known test: one graph through all parses, the network of the whole document. */
  method BuildDocument(parses: seq<Parse>, methodName: string, policy: DepFilters.DepPolicy, key: TokenAttr, distance: int) returns (graph: GraphStore)
    requires parses != [] && DepFilters.ExtendedPolicyNamed(methodName) == Some(policy)
    ensures graph.Value() == Network(parses, |parses|, policy, key, distance)
  {
    var g: GraphStore? := null;
    for i := 0 to |parses|
      invariant i == 0 ==> g == null
      invariant 0 < i ==> g != null && g.Value() == Network(parses, i, policy, key, distance)
    {
      g := AddNextParse(parses, i, g, methodName, policy, key, distance);
    }
    graph := g;
  }

  /**
   * `add_annotations`: one graph through all parses of the document,
   * exported by `graph_to_tcf`. A document without parses leaves no graph,
   * which the source then fails to convert; the test is looked up only once
   * there is a parse. Otherwise the export is that of the document's `Network`.
   */
  method AddAnnotations(parses: seq<Parse>, methodName: string, key: TokenAttr, distance: int)
    returns (r: Result<Utils.TcfGraph, BuildError>)
    ensures parses == [] ==> r == Failure(NoParses)
    ensures parses != [] && DepFilters.ExtendedPolicyNamed(methodName).None? ==> r == Failure(Config(Filters.UnsupportedMethod(methodName)))
    ensures parses != [] && DepFilters.ExtendedPolicyNamed(methodName).Some? ==>
      r.Success? && Utils.Exports(Network(parses, |parses|, DepFilters.ExtendedPolicyNamed(methodName).value, key, distance), r.value)
  {
    if parses == [] {
      return Failure(NoParses);
    }
    var policy := DepFilters.ExtendedPolicyNamed(methodName);
    if policy.None? {
      return Failure(Config(Filters.UnsupportedMethod(methodName)));
    }
    var graph := BuildDocument(parses, methodName, policy.value, key, distance);
    var t := Utils.GraphToTcf(graph.Value());
    return Success(t);
  }

  // -------------------------------------------------------- lemmas: distances

  /** Every vertex of the ball is reached by a walk of at most `d` edges. */
  lemma {:induction false} BallSound(g: Graph, i: nat, d: nat, j: nat)
    requires j in Ball(g, i, d)
    ensures Within(g, i, j, d)
    decreases d
  {
    if d == 0 {
      assert IsWalk(g, [i]);
    } else if j in Ball(g, i, d - 1) {
      BallSound(g, i, d - 1, j);
      var p :| IsWalk(g, p) && p[0] == i && p[|p| - 1] == j && |p| <= d;
      assert IsWalk(g, p);
    } else {
      var m := NeighbourOf(g, Ball(g, i, d - 1), j);
      BallSound(g, i, d - 1, m);
      var p :| IsWalk(g, p) && p[0] == i && p[|p| - 1] == m && |p| <= d;
      WalkSnoc(g, p, j);
      assert (p + [j])[0] == i;
    }
  }

  /** A vertex of `b` that a neighbour of `b` is adjacent to. */
  lemma NeighbourOf(g: Graph, b: set<nat>, j: nat) returns (m: nat)
    requires j in Neighbours(g, b)
    ensures m in b && Adjacent(g, m, j)
  {
    var k :| 0 <= k < |g.edges| && ((g.edges[k].source in b && g.edges[k].target == j) ||
                                    (g.edges[k].target in b && g.edges[k].source == j));
    m := if g.edges[k].source in b && g.edges[k].target == j then g.edges[k].source else g.edges[k].target;
    assert Joins(g.edges[k], m, j);
  }

  /** A vertex adjacent to one of `b` is a neighbour of `b`. */
  lemma AdjacentIsNeighbour(g: Graph, b: set<nat>, m: nat, j: nat)
    requires m in b && Adjacent(g, m, j)
    ensures j in Neighbours(g, b)
  {
    var k :| 0 <= k < |g.edges| && Joins(g.edges[k], m, j);
  }

  /** The end of every walk of at most `d` edges from i is in the ball. */
  lemma {:induction false} BallComplete(g: Graph, p: seq<nat>, d: nat)
    requires IsWalk(g, p) && |p| <= d + 1
    ensures p[|p| - 1] in Ball(g, p[0], d)
    decreases d
  {
    if |p| > 1 {
      var init := p[..|p| - 1];
      WalkInit(g, p);
      BallComplete(g, init, d - 1);
      assert Step(g, p, |p| - 2);
      AdjacentIsNeighbour(g, Ball(g, p[0], d - 1), p[|p| - 2], p[|p| - 1]);
    }
  }

  /** The ball is exactly what igraph's shortest paths of length at most `d` reach. */
  lemma BallIsWithin(g: Graph, i: nat, j: nat, d: nat)
    ensures j in Ball(g, i, d) <==> Within(g, i, j, d)
  {
    if j in Ball(g, i, d) {
      BallSound(g, i, d, j);
    }
    if Within(g, i, j, d) {
      var p :| IsWalk(g, p) && p[0] == i && p[|p| - 1] == j && |p| <= d + 1;
      BallComplete(g, p, d);
    }
  }

  // ------------------------------------------------------ lemmas: expansion

  /** Whether every pair of `cs` is ordered and within the vertices of `g`. */
  ghost predicate OrderedIn(g: Graph, cs: seq<(nat, nat)>)
  {
    forall k | 0 <= k < |cs| :: cs[k].0 < cs[k].1 < |g.vertices|
  }

  /** Filtering keeps the pairs within reach, in order and without repeats. */
  lemma {:induction false} CloseMembers(g: Graph, d: nat, cs: seq<(nat, nat)>)
    ensures forall q | q in Close(g, d, cs) :: q in cs && q.1 in Ball(g, q.0, d)
    ensures forall q | q in cs && q.1 in Ball(g, q.0, d) :: q in Close(g, d, cs)
    ensures Pairs.Distinct(cs) ==> Pairs.Distinct(Close(g, d, cs))
    decreases |cs|
  {
    if cs != [] {
      var init, q := cs[..|cs| - 1], cs[|cs| - 1];
      CloseMembers(g, d, init);
      assert cs == init + [q];
      if Pairs.Distinct(cs) {
        assert Pairs.Distinct(init);
        assert q !in init;
      }
    }
  }

  /**
   * The `additional_edges` are the ordered vertex pairs at most `d` steps
   * apart, each once: exactly the pairs i < j with a walk of at most `d`
   * edges between them.
   */
  lemma ExpansionPairs(g: Graph, d: nat)
    ensures OrderedIn(g, Expansion(g, d)) && Pairs.Distinct(Expansion(g, d))
    ensures forall i, j | 0 <= i < j < |g.vertices| :: (i, j) in Expansion(g, d) <==> Within(g, i, j, d)
  {
    var ix := Indices(|g.vertices|);
    var all := Pairs.Combinations(ix);
    Pairs.CombinationsComplete(ix);
    Pairs.CombinationsSound(ix);
    Pairs.CombinationsDistinct(ix);
    CloseMembers(g, d, all);
    forall k | 0 <= k < |Expansion(g, d)| ensures Expansion(g, d)[k].0 < Expansion(g, d)[k].1 < |g.vertices| {
      assert Expansion(g, d)[k] in all;
    }
    forall i, j | 0 <= i < j < |g.vertices| ensures (i, j) in Expansion(g, d) <==> Within(g, i, j, d) {
      assert (ix[i], ix[j]) in all;
      BallIsWithin(g, i, j, d);
    }
  }

  /** Two different ordered index pairs name different pairs of texts when the texts are distinct. */
  lemma OtherPairApart(vs: seq<Vertex>, i: nat, j: nat, a: nat, b: nat)
    requires DistinctNames(vs)
    requires i < j < |vs| && a < b < |vs| && (a, b) != (i, j)
    ensures !SamePair(vs[i].name, vs[j].name, vs[a].name, vs[b].name)
  {
  }

  lemma {:induction false} ApplyEdgesWeight(g: Graph, cs: seq<(nat, nat)>, i: nat, j: nat)
    requires DistinctNames(g.vertices)
    requires OrderedIn(g, cs) && Pairs.Distinct(cs)
    requires i < j < |g.vertices|
    ensures WeightBetween(ApplyEdges(g, cs), g.vertices[i].name, g.vertices[j].name) ==
      WeightBetween(g, g.vertices[i].name, g.vertices[j].name) + (if (i, j) in cs then 1 else 0)
    decreases |cs|
  {
    if cs != [] {
      var x, y := g.vertices[i].name, g.vertices[j].name;
      var init, q := cs[..|cs| - 1], cs[|cs| - 1];
      assert cs == init + [q];
      assert Pairs.Distinct(init) && OrderedIn(g, init);
      ApplyEdgesWeight(g, init, i, j);
      var h := ApplyEdges(g, init);
      var hit := q.0 != q.1 && SamePair(x, y, g.vertices[q.0].name, g.vertices[q.1].name);
      assert WeightBetween(ApplyEdges(g, cs), x, y) == WeightBetween(h, x, y) + (if hit then 1 else 0) by {
        AddOrIncrementWeightBetween(h, q.0, q.1, x, y);
      }
      if q == (i, j) {
        assert (i, j) !in init;
      } else {
        assert (i, j) in cs <==> (i, j) in init;
        assert !hit by { OtherPairApart(g.vertices, i, j, q.0, q.1); }
      }
    }
  }

  /** Adding pairs of existing vertices keeps the graph valid and free of loops. */
  lemma {:induction false} ApplyEdgesValid(g: Graph, cs: seq<(nat, nat)>)
    requires Valid(g) && OrderedIn(g, cs)
    ensures Valid(ApplyEdges(g, cs))
    ensures NoLoops(g.edges) ==> NoLoops(ApplyEdges(g, cs).edges)
    decreases |cs|
  {
    if cs != [] {
      var init, q := cs[..|cs| - 1], cs[|cs| - 1];
      assert OrderedIn(g, init);
      ApplyEdgesValid(g, init);
      AddOrIncrementValid(ApplyEdges(g, init), q.0, q.1);
    }
  }

  /**
   * The expansion adds 1 to the weight between two vertices exactly when a
   * walk of at most `d` edges joins them, adjacent pairs included, and
   * leaves the weight of every other pair, unreachable ones included, as it
   * was.
   */
  lemma ExpansionWeight(g: Graph, d: nat, i: nat, j: nat)
    requires Valid(g)
    requires i < j < |g.vertices|
    ensures WeightBetween(ApplyEdges(g, Expansion(g, d)), g.vertices[i].name, g.vertices[j].name) ==
      WeightBetween(g, g.vertices[i].name, g.vertices[j].name) + (if Within(g, i, j, d) then 1 else 0)
  {
    ExpansionPairs(g, d);
    ApplyEdgesWeight(g, Expansion(g, d), i, j);
  }

  /** Already adjacent vertices are within every distance of at least 1, so the expansion adds 1 to their weight. */
  lemma AdjacentGrows(g: Graph, d: nat, i: nat, j: nat)
    requires Valid(g) && d >= 1
    requires i < j < |g.vertices| && Adjacent(g, i, j)
    ensures WeightBetween(ApplyEdges(g, Expansion(g, d)), g.vertices[i].name, g.vertices[j].name) ==
      WeightBetween(g, g.vertices[i].name, g.vertices[j].name) + 1
  {
    assert IsWalk(g, [i, j]);
    ExpansionWeight(g, d, i, j);
  }

  /**
   * On the path a - b - c - d (vertices 0 to 3, one edge each), distance 2
   * adds 1 between a and c but nothing between a and d, which are three
   * steps apart.
   */
  lemma PathExample()
    ensures var e := map[WeightKey := Num(1)];
      var g := Graph([Vertex("a", map[]), Vertex("b", map[]), Vertex("c", map[]), Vertex("d", map[])],
                     [Edge(0, 1, e), Edge(1, 2, e), Edge(2, 3, e)]);
      2 in Ball(g, 0, 2) && 3 !in Ball(g, 0, 2)
  {
    var e := map[WeightKey := Num(1)];
    var g := Graph([Vertex("a", map[]), Vertex("b", map[]), Vertex("c", map[]), Vertex("d", map[])],
                   [Edge(0, 1, e), Edge(1, 2, e), Edge(2, 3, e)]);
    assert Neighbours(g, {0}) == {1} by {
      assert g.edges[0].source in {0};
    }
    assert Ball(g, 0, 1) == {0, 1};
    assert Neighbours(g, {0, 1}) == {0, 1, 2} by {
      assert g.edges[0].source in {0, 1} && g.edges[0].target in {0, 1} && g.edges[1].source in {0, 1};
    }
    assert Ball(g, 0, 2) == {0, 1, 2};
  }

  // ------------------------------------------------ lemmas: the parse graph

  /** The attribute schema of this worker's graphs: vertices carry a `tokenIDs` list, edges a numeric `weight`. */
  const VertexSchema: map<string, Utils.Kind> := map[TokenIdsKey := Utils.ListKind]
  const EdgeSchema: map<string, Utils.Kind> := map[WeightKey := Utils.NumKind]

  /** `add_or_increment_edge` keeps the schema. */
  lemma AddOrIncrementConforms(g: Graph, s: nat, t: nat)
    requires Utils.GraphConforms(g, VertexSchema, EdgeSchema)
    ensures Utils.GraphConforms(AddOrIncrement(g, s, t), VertexSchema, EdgeSchema)
  {
    if s != t {
      var a := EdgeAttrs(g, s, t)[WeightKey := Num(WeightOf(g, s, t) + 1)];
      assert Utils.Conforms(a, EdgeSchema);
    }
  }

  /** Touching a vertex with list recording keeps the schema. */
  lemma TouchConforms(g: Graph, name: string, id: string)
    requires Utils.GraphConforms(g, VertexSchema, EdgeSchema)
    ensures Utils.GraphConforms(TouchVertex(g, name, map[], id, AppendIfAbsent).0, VertexSchema, EdgeSchema)
  {
    var (g1, i) := FindOrAdd(g, name, map[]);
    assert Utils.GraphConforms(g1, VertexSchema, EdgeSchema);
  }

  /** Walker pairs added the way this worker adds them keep the schema, and every `tokenIDs` list without repeats. */
  lemma {:induction false} AddPairsConforms(g: Graph, es: seq<TokenPair>, key: TokenAttr)
    requires Utils.GraphConforms(g, VertexSchema, EdgeSchema) && UniqueIds(g.vertices)
    ensures Utils.GraphConforms(Dependency.AddPairs(g, es, key, AppendIfAbsent), VertexSchema, EdgeSchema)
    ensures UniqueIds(Dependency.AddPairs(g, es, key, AppendIfAbsent).vertices)
    decreases |es|
  {
    if es != [] {
      var e := es[|es| - 1];
      AddPairsConforms(g, es[..|es| - 1], key);
      var h := Dependency.AddPairs(g, es[..|es| - 1], key, AppendIfAbsent);
      var h1 := TouchVertex(h, Attribute(e.0, key), map[], e.0.id, AppendIfAbsent).0;
      TouchConforms(h, Attribute(e.0, key), e.0.id);
      TouchKeepsUniqueIds(h, Attribute(e.0, key), map[], e.0.id);
      TouchConforms(h1, Attribute(e.1, key), e.1.id);
      TouchKeepsUniqueIds(h1, Attribute(e.1, key), map[], e.1.id);
      var t := Dependency.TouchPair(h, e, key, AppendIfAbsent);
      AddOrIncrementConforms(t.0, t.1, t.2);
    }
  }

  /** Extra edges keep the schema. */
  lemma {:induction false} ApplyEdgesConforms(g: Graph, cs: seq<(nat, nat)>)
    requires Utils.GraphConforms(g, VertexSchema, EdgeSchema)
    ensures Utils.GraphConforms(ApplyEdges(g, cs), VertexSchema, EdgeSchema)
    decreases |cs|
  {
    if cs != [] {
      ApplyEdgesConforms(g, cs[..|cs| - 1]);
      AddOrIncrementConforms(ApplyEdges(g, cs[..|cs| - 1]), cs[|cs| - 1].0, cs[|cs| - 1].1);
    }
  }

  /**
   * A parse graph's `tokenIDs` lists hold no ID twice and it follows the schema; with
   * the default distance of 1 it is the walker pairs' graph as it is.
   */
  lemma ParseGraphValid(parse: Parse, policy: DepFilters.DepPolicy, key: TokenAttr, distance: int)
    ensures var g := ParseGraph(parse, policy, key, distance);
      UniqueIds(g.vertices) && Utils.GraphConforms(g, VertexSchema, EdgeSchema)
    ensures distance <= DefaultDistance ==>
      ParseGraph(parse, policy, key, distance) == Dependency.AddPairs(Graph([], []), FindEdges(Dependency.Keep(policy), parse), key, AppendIfAbsent)
  {
    var g := Dependency.AddPairs(Graph([], []), FindEdges(Dependency.Keep(policy), parse), key, AppendIfAbsent);
    AddPairsConforms(Graph([], []), FindEdges(Dependency.Keep(policy), parse), key);
    if distance > 1 {
      ApplyEdgesConforms(g, Expansion(g, distance));
    }
  }

  /** The names of a parse graph are the labels of its walker pairs. */
  lemma ParseGraphNames(parse: Parse, policy: DepFilters.DepPolicy, key: TokenAttr, distance: int)
    ensures Names(ParseGraph(parse, policy, key, distance)) == Dependency.PairLabels(FindEdges(Dependency.Keep(policy), parse), key)
  {
    var es := FindEdges(Dependency.Keep(policy), parse);
    Dependency.AddPairsNames(Graph([], []), es, key, AppendIfAbsent);
    assert Names(Graph([], [])) == {};
  }

  /** One more parse adds the labels of its walker pairs to those of the parses before it. */
  lemma DocumentLabelsStep(keep: Token -> bool, parses: seq<Parse>, i: nat, key: TokenAttr)
    requires i < |parses|
    ensures Dependency.PairLabels(Dependency.DocumentPairs(keep, parses[..i + 1]), key) ==
      Dependency.PairLabels(Dependency.DocumentPairs(keep, parses[..i]), key) + Dependency.PairLabels(FindEdges(keep, parses[i]), key)
  {
    assert parses[..i + 1][..i] == parses[..i];
    var xs, ys := Dependency.DocumentPairs(keep, parses[..i]), FindEdges(keep, parses[i]);
    assert Dependency.DocumentPairs(keep, parses[..i + 1]) == xs + ys;
    PairLabelsConcat(xs, ys, key);
  }

  lemma PairLabelsConcat(xs: seq<TokenPair>, ys: seq<TokenPair>, key: TokenAttr)
    ensures Dependency.PairLabels(xs + ys, key) == Dependency.PairLabels(xs, key) + Dependency.PairLabels(ys, key)
  {
    var zs := xs + ys;
    forall a | a in Dependency.PairLabels(zs, key) ensures a in Dependency.PairLabels(xs, key) + Dependency.PairLabels(ys, key) {
      var k :| 0 <= k < |zs| && (Attribute(zs[k].0, key) == a || Attribute(zs[k].1, key) == a);
      if k < |xs| { assert zs[k] == xs[k]; } else { assert zs[k] == ys[k - |xs|]; }
    }
    forall a | a in Dependency.PairLabels(xs, key) + Dependency.PairLabels(ys, key) ensures a in Dependency.PairLabels(zs, key) {
      if a in Dependency.PairLabels(xs, key) {
        var k :| 0 <= k < |xs| && (Attribute(xs[k].0, key) == a || Attribute(xs[k].1, key) == a);
        assert zs[k] == xs[k];
      } else {
        var k :| 0 <= k < |ys| && (Attribute(ys[k].0, key) == a || Attribute(ys[k].1, key) == a);
        assert zs[|xs| + k] == ys[k];
      }
    }
  }

  /** Merging a parse graph into the graph built so far always succeeds, keeps it valid, loop-free and in the schema, and unites the names. */
  lemma MergeBuilt(g: Graph, h: Graph)
    requires Valid(g) && NoLoops(g.edges) && Utils.GraphConforms(g, VertexSchema, EdgeSchema)
    requires Valid(h) && NoLoops(h.edges) && Utils.GraphConforms(h, VertexSchema, EdgeSchema)
    ensures Utils.MergeInto(g, h).Success?
    ensures var m := Utils.MergeInto(g, h).value;
      Valid(m) && NoLoops(m.edges) && Utils.GraphConforms(m, VertexSchema, EdgeSchema) && Names(m) == Names(g) + Names(h)
  {
    Utils.MergeIntoConforms(g, h, VertexSchema, EdgeSchema);
    Utils.MergeIntoValid(g, h);
    Utils.MergeIntoNames(g, h);
  }

  // -------------------------------------------------- lemmas: the document

  /** The total weight the graphs of the first `n` parses carry between the names x and y. */
  function ParseWeights(parses: seq<Parse>, n: nat, policy: DepFilters.DepPolicy, key: TokenAttr, distance: int, x: string, y: string): int
    requires n <= |parses|
    decreases n
  {
    if n == 0 then 0
    else ParseWeights(parses, n - 1, policy, key, distance, x, y) + WeightBetween(ParseGraph(parses[n - 1], policy, key, distance), x, y)
  }

  /** The network's weight between two names is the sum of the weights the parse graphs give them. */
  lemma {:induction false} NetworkWeights(parses: seq<Parse>, n: nat, policy: DepFilters.DepPolicy, key: TokenAttr, distance: int, x: string, y: string)
    requires 0 < n <= |parses|
    ensures WeightBetween(Network(parses, n, policy, key, distance), x, y) == ParseWeights(parses, n, policy, key, distance, x, y)
    decreases n
  {
    if n > 1 {
      var prev := Network(parses, n - 1, policy, key, distance);
      var pg := ParseGraph(parses[n - 1], policy, key, distance);
      NetworkStep(parses, n, policy, key, distance);
      NetworkWeights(parses, n - 1, policy, key, distance, x, y);
      Utils.MergeIntoWeights(prev, pg, x, y);
    }
  }

  /** The `tokenIDs` of a parse graph's node are the IDs of the walker pairs' tokens carrying its label. */
  lemma ParseGraphIds(parse: Parse, policy: DepFilters.DepPolicy, key: TokenAttr, distance: int, a: string)
    ensures IdsAt(ParseGraph(parse, policy, key, distance), a) == Dependency.PairIds(FindEdges(Dependency.Keep(policy), parse), key, a)
  {
    var es := FindEdges(Dependency.Keep(policy), parse);
    Dependency.AddPairsIds(Graph([], []), es, key, AppendIfAbsent, a);
  }

  /** The IDs of the tokens of two pair sequences carrying a label are those of each. */
  lemma PairIdsConcat(xs: seq<TokenPair>, ys: seq<TokenPair>, key: TokenAttr, a: string)
    ensures Dependency.PairIds(xs + ys, key, a) == Dependency.PairIds(xs, key, a) + Dependency.PairIds(ys, key, a)
  {
    PairIdsConcatSound(xs, ys, key, a);
    PairIdsConcatComplete(xs, ys, key, a);
  }

  lemma PairIdsConcatSound(xs: seq<TokenPair>, ys: seq<TokenPair>, key: TokenAttr, a: string)
    ensures Dependency.PairIds(xs + ys, key, a) <= Dependency.PairIds(xs, key, a) + Dependency.PairIds(ys, key, a)
  {
    var zs := xs + ys;
    forall t | t in Dependency.PairIds(zs, key, a) ensures t in Dependency.PairIds(xs, key, a) + Dependency.PairIds(ys, key, a) {
      var k :| 0 <= k < |zs| && ((Attribute(zs[k].0, key) == a && zs[k].0.id == t) || (Attribute(zs[k].1, key) == a && zs[k].1.id == t));
      if k < |xs| { assert zs[k] == xs[k]; } else { assert zs[k] == ys[k - |xs|]; }
    }
  }

  lemma PairIdsConcatComplete(xs: seq<TokenPair>, ys: seq<TokenPair>, key: TokenAttr, a: string)
    ensures Dependency.PairIds(xs, key, a) + Dependency.PairIds(ys, key, a) <= Dependency.PairIds(xs + ys, key, a)
  {
    var zs := xs + ys;
    forall t | t in Dependency.PairIds(xs, key, a) + Dependency.PairIds(ys, key, a) ensures t in Dependency.PairIds(zs, key, a) {
      if t in Dependency.PairIds(xs, key, a) {
        var k :| 0 <= k < |xs| && ((Attribute(xs[k].0, key) == a && xs[k].0.id == t) || (Attribute(xs[k].1, key) == a && xs[k].1.id == t));
        assert zs[k] == xs[k];
      } else {
        var k :| 0 <= k < |ys| && ((Attribute(ys[k].0, key) == a && ys[k].0.id == t) || (Attribute(ys[k].1, key) == a && ys[k].1.id == t));
        assert zs[|xs| + k] == ys[k];
      }
    }
  }

  /** Every graph in the worker's schema records `tokenIDs` as lists. */
  lemma ConformsListIds(g: Graph)
    requires Utils.GraphConforms(g, VertexSchema, EdgeSchema)
    ensures ListIds(g.vertices)
  {
    forall k | 0 <= k < |g.vertices| && TokenIdsKey in g.vertices[k].attrs ensures g.vertices[k].attrs[TokenIdsKey].List? {
      assert Utils.Conforms(g.vertices[k].attrs, VertexSchema);
      assert Utils.KindOf(g.vertices[k].attrs[TokenIdsKey]) == Utils.ListKind;
    }
  }

  /** The IDs the first n parses' walker pairs give a label are those of the first n - 1 parses' pairs and the n-th parse graph's. */
  lemma PairIdsStep(parses: seq<Parse>, n: nat, policy: DepFilters.DepPolicy, key: TokenAttr, distance: int, a: string)
    requires 0 < n <= |parses|
    ensures var keep := Dependency.Keep(policy);
      Dependency.PairIds(Dependency.DocumentPairs(keep, parses[..n]), key, a) ==
      Dependency.PairIds(Dependency.DocumentPairs(keep, parses[..n - 1]), key, a) + IdsAt(ParseGraph(parses[n - 1], policy, key, distance), a)
  {
    var keep := Dependency.Keep(policy);
    var before := Dependency.DocumentPairs(keep, parses[..n - 1]);
    ParseGraphIds(parses[n - 1], policy, key, distance, a);
    assert parses[..n][..n - 1] == parses[..n - 1];
    assert Dependency.DocumentPairs(keep, parses[..n]) == before + FindEdges(keep, parses[n - 1]);
    PairIdsConcat(before, FindEdges(keep, parses[n - 1]), key, a);
  }

  /** A node of the network carries exactly the IDs of the walker-pair tokens read so far that carry its label. */
  lemma {:induction false} NetworkIds(parses: seq<Parse>, n: nat, policy: DepFilters.DepPolicy, key: TokenAttr, distance: int, a: string)
    requires 0 < n <= |parses|
    ensures IdsAt(Network(parses, n, policy, key, distance), a) == Dependency.PairIds(Dependency.DocumentPairs(Dependency.Keep(policy), parses[..n]), key, a)
    decreases n
  {
    PairIdsStep(parses, n, policy, key, distance, a);
    if n > 1 {
      NetworkIdsStep(parses, n, policy, key, distance, a);
      NetworkIds(parses, n - 1, policy, key, distance, a);
    } else {
      assert parses[..0] == [];
    }
  }

  /** Merging the n-th parse graph into the network adds its IDs to the node with the same name. */
  lemma NetworkIdsStep(parses: seq<Parse>, n: nat, policy: DepFilters.DepPolicy, key: TokenAttr, distance: int, a: string)
    requires 1 < n <= |parses|
    ensures IdsAt(Network(parses, n, policy, key, distance), a) ==
      IdsAt(Network(parses, n - 1, policy, key, distance), a) + IdsAt(ParseGraph(parses[n - 1], policy, key, distance), a)
  {
    var prev := Network(parses, n - 1, policy, key, distance);
    var pg := ParseGraph(parses[n - 1], policy, key, distance);
    NetworkStep(parses, n, policy, key, distance);
    ParseGraphValid(parses[n - 1], policy, key, distance);
    ConformsListIds(prev);
    ConformsListIds(pg);
    Utils.MergeIntoIds(prev, pg, a);
  }
}

=== FILE: filters.dfy ===
/**
 * Token filters of the token-testing worker base class
 * (tcfnetworks/annotators/base.py): the stop-word list and filter selection
 * made at construction, and the `test_token_*` predicates.
 */
module Filters {
  import opened Wrappers
  import opened Tokens

  /** The selectable node filters: the `test_token_<name>` methods and the inline `postag` test. */
  datatype Policy =
    | StopwordsOnly
    | Full
    | Nonclosed
    | Lexical
    | Semantic
    | Concept
    | EntityPolicy
    | Actor
    | Postag(tags: seq<string>)

  /** The worker state after construction: its stop-word list, the stop-word feature and the selected test. */
  datatype Filter = Filter(stopwords: seq<string>, feature: TokenAttr, policy: Policy)

  /** The `stopwords_preset` option: none configured, the lines of the preset file, or a preset file that does not exist. */
  datatype Preset = NoPreset | Loaded(words: seq<string>) | MissingPreset(name: string)

  /** The options the constructor reads. The preset file is read outside the model. */
  datatype Options = Options(
    nodes: string,
    stopwords: seq<string>,
    preset: Preset,
    feature: TokenAttr,
    postag: seq<string>)

  /** Fatal configuration errors (each ends the run in the source). */
  datatype ConfigError =
    | NoStopwordList(preset: string)
    | PostagWithoutTags
    | UnknownPostag(tags: seq<string>)
    | UnsupportedMethod(name: string)

  // ---------------------------------------------------------------- predicates

  /** `test_token_stopwords`: the token's configured feature is not a stop word. */
  predicate PassesStopwords(f: Filter, t: Token)
  {
    Attribute(t, f.feature) !in f.stopwords
  }

  /** `test_token_full`. */
  predicate FullTest(f: Filter, t: Token)
  {
    if IsPunctuation(t) then false else PassesStopwords(f, t)
  }

  /** `test_token_nonclosed`. */
  predicate NonclosedTest(f: Filter, t: Token)
  {
    if t.pos.closed then false else PassesStopwords(f, t)
  }

  /** `test_token_lexical`. */
  predicate LexicalTest(f: Filter, t: Token)
  {
    if !t.pos.closed && !IsAdverb(t) then PassesStopwords(f, t)
    else if t.entity.Some? then true
    else if t.reference.Some? then true
    else false
  }

  /** `test_token_semantic`. */
  predicate SemanticTest(f: Filter, t: Token)
  {
    if IsVerb(t) then true
    else if !t.pos.closed && !IsAdverb(t) then PassesStopwords(f, t)
    else if t.entity.Some? then true
    else if t.reference.Some? then true
    else false
  }

  /** `test_token_concept`. */
  predicate ConceptTest(f: Filter, t: Token)
  {
    if !SemanticTest(f, t) then false
    else if IsVerb(t) then false
    else true
  }

  /** `test_token_entity`; each reference token is checked with `resolve` false. */
  predicate EntityTest(t: Token, resolve: bool)
    decreases resolve
  {
    if t.entity.Some? then true
    else resolve && t.reference.Some?
         && exists r | r in t.reference.value :: EntityTest(r, false)
  }

  /** The entity classes `test_token_actor` accepts. */
  predicate IsActorClass(cls: string)
  {
    cls == "PER" || cls == "ORG"
  }

  /** `test_token_actor`; each reference token is checked with `resolve` false. */
  predicate ActorTest(t: Token, resolve: bool)
    decreases resolve
  {
    if t.entity.Some? && IsActorClass(t.entity.value.cls) then true
    else resolve && t.reference.Some?
         && exists r | r in t.reference.value :: ActorTest(r, false)
  }

  /** Whether the token's tag is one of the listed categories. */
  predicate HasPos(tags: seq<string>, t: Token)
  {
    exists k | 0 <= k < |tags| :: tags[k] in t.pos.isA
  }

  /**
   * The inline `test_token_postag`: a tagged token is decided by its own
   * stop-word test; an untagged one, when `resolve` is set, by a reference
   * token that is accepted with `resolve` false.
   */
  predicate PostagTest(f: Filter, tags: seq<string>, t: Token, resolve: bool)
    decreases resolve
  {
    if HasPos(tags, t) then PassesStopwords(f, t)
    else resolve && t.reference.Some?
         && exists r | r in t.reference.value :: PostagTest(f, tags, r, false)
  }

  /** `self.test_token(token)` for the selected filter (`resolve` takes its default, true). */
  predicate Accepts(f: Filter, t: Token)
  {
    match f.policy
    case StopwordsOnly => PassesStopwords(f, t)
    case Full => FullTest(f, t)
    case Nonclosed => NonclosedTest(f, t)
    case Lexical => LexicalTest(f, t)
    case Semantic => SemanticTest(f, t)
    case Concept => ConceptTest(f, t)
    case EntityPolicy => EntityTest(t, true)
    case Actor => ActorTest(t, true)
    case Postag(tags) => PostagTest(f, tags, t, true)
  }

  // ------------------------------------------------------------- construction

  /** The `test_token_<name>` methods the worker has, looked up by name. */
  function PolicyNamed(name: string): Option<Policy>
  {
    if name == "stopwords" then Some(StopwordsOnly)
    else if name == "full" then Some(Full)
    else if name == "nonclosed" then Some(Nonclosed)
    else if name == "lexical" then Some(Lexical)
    else if name == "semantic" then Some(Semantic)
    else if name == "concept" then Some(Concept)
    else if name == "entity" then Some(EntityPolicy)
    else if name == "actor" then Some(Actor)
    else None
  }

  /** Whether the inline stop-word option contributes: it does only when its first entry is non-empty. */
  predicate InlineStopwordsUsed(opts: Options)
  {
    |opts.stopwords| > 0 && opts.stopwords[0] != ""
  }

  /**
   * `TokenTestingWorker.__init__`: builds the stop-word list from the inline
   * option and the preset, then selects the token test. `tagset` is the set
   * of category names the tag taxonomy knows.
   */
  method Configure(opts: Options, tagset: set<string>) returns (r: Result<Filter, ConfigError>)
    ensures opts.preset.MissingPreset? ==> r == Failure(NoStopwordList(opts.preset.name))
    ensures !opts.preset.MissingPreset? && opts.nodes == "postag" ==>
      if |opts.postag| == 0 || opts.postag[0] == "" then r == Failure(PostagWithoutTags)
      else if exists k | 0 <= k < |opts.postag| :: opts.postag[k] !in tagset then r == Failure(UnknownPostag(opts.postag))
      else r.Success? && r.value.policy == Postag(opts.postag)
    ensures !opts.preset.MissingPreset? && opts.nodes != "postag" ==>
      if PolicyNamed(opts.nodes).None? then r == Failure(UnsupportedMethod(opts.nodes))
      else r.Success? && r.value.policy == PolicyNamed(opts.nodes).value
    ensures r.Success? ==> r.value.feature == opts.feature
    ensures r.Success? ==> forall w ::
      w in r.value.stopwords <==>
        (InlineStopwordsUsed(opts) && w in opts.stopwords) || (opts.preset.Loaded? && w in opts.preset.words)
  {
    var stopwords: seq<string> := [];
    if |opts.stopwords| > 0 && opts.stopwords[0] != "" {
      stopwords := stopwords + opts.stopwords;
    }
    match opts.preset {
      case NoPreset =>
      case Loaded(words) =>
        stopwords := stopwords + words;
      case MissingPreset(name) =>
        return Failure(NoStopwordList(name));
    }
    if opts.nodes == "postag" {
      if |opts.postag| == 0 || opts.postag[0] == "" {
        return Failure(PostagWithoutTags);
      }
      var k := 0;
      while k < |opts.postag|
        invariant 0 <= k <= |opts.postag|
        invariant forall j | 0 <= j < k :: opts.postag[j] in tagset
      {
        if opts.postag[k] !in tagset {
          return Failure(UnknownPostag(opts.postag));
        }
        k := k + 1;
      }
      return Success(Filter(stopwords, opts.feature, Postag(opts.postag)));
    }
    var named := PolicyNamed(opts.nodes);
    if named.None? {
      return Failure(UnsupportedMethod(opts.nodes));
    }
    return Success(Filter(stopwords, opts.feature, named.value));
  }

  /**
   * The inline `test_token_postag` as written: a flag loop with `break` over
   * the tags, then a loop over the reference tokens that calls itself with
   * `resolve` false and returns the stop-word test of the first reference
   * token it accepts.
   */
  method TestTokenPostag(f: Filter, tags: seq<string>, t: Token, resolve: bool) returns (b: bool)
    ensures b == PostagTest(f, tags, t, resolve)
    decreases resolve
  {
    var hasPos := false;
    var k := 0;
    while k < |tags|
      invariant 0 <= k <= |tags|
      invariant hasPos ==> HasPos(tags, t)
      invariant !hasPos ==> forall j | 0 <= j < k :: tags[j] !in t.pos.isA
    {
      if tags[k] in t.pos.isA {
        hasPos := true;
        break;
      }
      k := k + 1;
    }
    if hasPos {
      return PassesStopwords(f, t);
    }
    if resolve && t.reference.Some? {
      var refs := t.reference.value;
      var i := 0;
      while i < |refs|
        invariant 0 <= i <= |refs|
        invariant forall j | 0 <= j < i :: !PostagTest(f, tags, refs[j], false)
      {
        var ok := TestTokenPostag(f, tags, refs[i], false);
        if ok {
          return PassesStopwords(f, refs[i]);
        }
        i := i + 1;
      }
    }
    return false;
  }

  // ------------------------------------------------------------------ lemmas

  /** `full` rejects punctuation and otherwise is the stop-word test. */
  lemma FullIsStopwordsWithoutPunctuation(f: Filter, t: Token)
    ensures FullTest(f, t) <==> !IsPunctuation(t) && PassesStopwords(f, t)
  {
  }

  /**
   * `semantic` is `lexical` with every verb accepted: it accepts exactly the
   * verbs and the tokens `lexical` accepts, and on non-verbs it agrees with `lexical`.
   */
  lemma SemanticExtendsLexical(f: Filter, t: Token)
    ensures SemanticTest(f, t) <==> IsVerb(t) || LexicalTest(f, t)
    ensures !IsVerb(t) ==> (SemanticTest(f, t) <==> LexicalTest(f, t))
  {
  }

  /** `lexical` in full: open non-adverbs by the stop-word test, else entity or reference tokens. */
  lemma LexicalCases(f: Filter, t: Token)
    ensures LexicalTest(f, t) <==>
      if !t.pos.closed && !IsAdverb(t) then PassesStopwords(f, t)
      else t.entity.Some? || t.reference.Some?
  {
  }

  /** `concept` is `semantic` restricted to non-verbs. */
  lemma ConceptIsSemanticNonVerb(f: Filter, t: Token)
    ensures ConceptTest(f, t) <==> SemanticTest(f, t) && !IsVerb(t)
  {
  }

  /** A verb passes `semantic` whatever the stop-word list says. */
  lemma VerbsIgnoreStopwords(f: Filter, t: Token, words: seq<string>)
    requires IsVerb(t)
    ensures SemanticTest(f, t) && SemanticTest(f.(stopwords := words), t)
  {
  }

  /** The stop-word test fails exactly when the feature value is listed. */
  lemma StopwordMembership(f: Filter, t: Token)
    ensures !PassesStopwords(f, t) <==> exists k | 0 <= k < |f.stopwords| :: f.stopwords[k] == Attribute(t, f.feature)
  {
    if !PassesStopwords(f, t) {
      var k :| 0 <= k < |f.stopwords| && f.stopwords[k] == Attribute(t, f.feature);
    }
  }

  /** `actor` only accepts what `entity` accepts. */
  lemma {:induction false} ActorImpliesEntity(t: Token, resolve: bool)
    ensures ActorTest(t, resolve) ==> EntityTest(t, resolve)
    decreases resolve
  {
    if ActorTest(t, resolve) && !(t.entity.Some? && IsActorClass(t.entity.value.cls)) {
      var r :| r in t.reference.value && ActorTest(r, false);
      ActorImpliesEntity(r, false);
    }
  }

  /** The same token with the references of its reference tokens removed: what one level of resolution can see. */
  function OneLevel(t: Token): (s: Token)
    ensures s.id == t.id && s.pos == t.pos && s.entity == t.entity
    ensures t.reference.None? <==> s.reference.None?
  {
    match t.reference
    case None => t
    case Some(refs) => t.(reference := Some(seq(|refs|, i requires 0 <= i < |refs| => refs[i].(reference := None))))
  }

  /** Cutting a token's own reference does not change how it tests with `resolve` false. */
  lemma CutReferenceUnseen(f: Filter, tags: seq<string>, r: Token)
    ensures EntityTest(r, false) == EntityTest(r.(reference := None), false)
    ensures ActorTest(r, false) == ActorTest(r.(reference := None), false)
    ensures PostagTest(f, tags, r, false) == PostagTest(f, tags, r.(reference := None), false)
  {
    assert HasPos(tags, r) == HasPos(tags, r.(reference := None));
  }

  /**
   * References are resolved one level deep: `entity` gives the same answer
   * when the reference tokens' own references are cut.
   */
  lemma EntityResolvesOneLevel(t: Token)
    ensures EntityTest(t, true) == EntityTest(OneLevel(t), true)
  {
    if t.reference.Some? && t.entity.None? {
      var refs, cut := t.reference.value, OneLevel(t).reference.value;
      if EntityTest(t, true) {
        var i :| 0 <= i < |refs| && EntityTest(refs[i], false);
        CutReferenceUnseen(Filter([], Text, Full), [], refs[i]);
        assert cut[i] in cut;
      }
      if EntityTest(OneLevel(t), true) {
        var i :| 0 <= i < |cut| && EntityTest(cut[i], false);
        CutReferenceUnseen(Filter([], Text, Full), [], refs[i]);
        assert refs[i] in refs;
      }
    }
  }

  /** As for `entity`: `actor` resolves references one level deep. */
  lemma ActorResolvesOneLevel(t: Token)
    ensures ActorTest(t, true) == ActorTest(OneLevel(t), true)
  {
    if t.reference.Some? && !(t.entity.Some? && IsActorClass(t.entity.value.cls)) {
      var refs, cut := t.reference.value, OneLevel(t).reference.value;
      if ActorTest(t, true) {
        var i :| 0 <= i < |refs| && ActorTest(refs[i], false);
        CutReferenceUnseen(Filter([], Text, Full), [], refs[i]);
        assert cut[i] in cut;
      }
      if ActorTest(OneLevel(t), true) {
        var i :| 0 <= i < |cut| && ActorTest(cut[i], false);
        CutReferenceUnseen(Filter([], Text, Full), [], refs[i]);
        assert refs[i] in refs;
      }
    }
  }

  /** As for `entity`: `postag` resolves references one level deep. */
  lemma PostagResolvesOneLevel(f: Filter, tags: seq<string>, t: Token)
    ensures PostagTest(f, tags, t, true) == PostagTest(f, tags, OneLevel(t), true)
  {
    assert HasPos(tags, t) == HasPos(tags, OneLevel(t));
    if t.reference.Some? && !HasPos(tags, t) {
      var refs, cut := t.reference.value, OneLevel(t).reference.value;
      if PostagTest(f, tags, t, true) {
        var i :| 0 <= i < |refs| && PostagTest(f, tags, refs[i], false);
        CutReferenceUnseen(f, tags, refs[i]);
        assert cut[i] in cut;
      }
      if PostagTest(f, tags, OneLevel(t), true) {
        var i :| 0 <= i < |cut| && PostagTest(f, tags, cut[i], false);
        CutReferenceUnseen(f, tags, refs[i]);
        assert refs[i] in refs;
      }
    }
  }

  /**
   * `postag` accepts a tagged token by its stop-word test and an untagged one
   * exactly when some reference token is tagged and passes its own stop-word
   * test; a tagged reference token that is a stop word does not decide.
   */
  lemma PostagByTaggedReference(f: Filter, tags: seq<string>, t: Token)
    ensures PostagTest(f, tags, t, true) <==>
      if HasPos(tags, t) then PassesStopwords(f, t)
      else t.reference.Some? &&
           exists r | r in t.reference.value :: HasPos(tags, r) && PassesStopwords(f, r)
  {
  }
}

=== FILE: graphs.dfy ===
/**
 * The graph store the builders write into: an igraph `Graph` or a TCF
 * `graph` element. Vertices are identified by their position (igraph's
 * vertex index, the order of the TCF `node` elements, whose IDs `n_<i>`
 * name that position) and carry a name (the node label) and attributes;
 * edges join two vertex positions and carry attributes. Edges are
 * undirected: an edge joins its two endpoints in either order, which is how
 * `get_eid` on an undirected igraph graph and `find_edge` are read here.
 */
module Graphs {
  import opened Wrappers

  /** An attribute value, by its Python type. */
  datatype Attr =
    | Str(s: string)
    | Num(n: int)
    | List(items: seq<string>)
    | Set(members: set<string>)
    | Dict(entries: map<string, string>)

  type Attrs = map<string, Attr>

  datatype Vertex = Vertex(name: string, attrs: Attrs)
  datatype Edge = Edge(source: nat, target: nat, attrs: Attrs)
  datatype Graph = Graph(vertices: seq<Vertex>, edges: seq<Edge>)

  const TokenIdsKey: string := "tokenIDs"
  const WeightKey: string := "weight"

  /** How a builder records a token ID on its node. */
  datatype IdRecording =
    | AddToSet        // `get_value_set('tokenIDs').add(id)`
    | AppendIfAbsent  // `if id not in tokenIDs: tokenIDs.append(id)`
    | Append          // `get_value_list('tokenIDs').append(id)`

  // ---------------------------------------------------------------- lookups

  /** The first vertex named `name` (`vs.find(name)`, `find_node(name)`). */
  function FindVertex(vs: seq<Vertex>, name: string): (r: Option<nat>)
    ensures r.Some? ==> r.value < |vs| && vs[r.value].name == name &&
                        forall k | 0 <= k < r.value :: vs[k].name != name
    ensures r.None? ==> forall k | 0 <= k < |vs| :: vs[k].name != name
  {
    FindVertexFrom(vs, name, 0)
  }

  function FindVertexFrom(vs: seq<Vertex>, name: string, i: nat): (r: Option<nat>)
    ensures r.Some? ==> i <= r.value < |vs| && vs[r.value].name == name &&
                        forall k | i <= k < r.value :: vs[k].name != name
    ensures r.None? ==> forall k | i <= k < |vs| :: vs[k].name != name
    decreases |vs| - i
  {
    if i >= |vs| then None
    else if vs[i].name == name then Some(i)
    else FindVertexFrom(vs, name, i + 1)
  }

  /** Whether the unordered pairs {x, y} and {i, j} are the same. */
  predicate SamePair<T(==)>(x: T, y: T, i: T, j: T)
  {
    (x == i && y == j) || (x == j && y == i)
  }

  /** Whether edge `e` joins vertices `i` and `j` (in either direction). */
  predicate Joins(e: Edge, i: nat, j: nat)
  {
    SamePair(e.source, e.target, i, j)
  }

  /** The first edge joining `i` and `j` (`get_eid(i, j)`, `find_edge`). */
  function FindEdge(es: seq<Edge>, i: nat, j: nat): (r: Option<nat>)
    ensures r.Some? ==> r.value < |es| && Joins(es[r.value], i, j) &&
                        forall k | 0 <= k < r.value :: !Joins(es[k], i, j)
    ensures r.None? ==> forall k | 0 <= k < |es| :: !Joins(es[k], i, j)
  {
    FindEdgeFrom(es, i, j, 0)
  }

  function FindEdgeFrom(es: seq<Edge>, i: nat, j: nat, from: nat): (r: Option<nat>)
    ensures r.Some? ==> from <= r.value < |es| && Joins(es[r.value], i, j) &&
                        forall k | from <= k < r.value :: !Joins(es[k], i, j)
    ensures r.None? ==> forall k | from <= k < |es| :: !Joins(es[k], i, j)
    decreases |es| - from
  {
    if from >= |es| then None
    else if Joins(es[from], i, j) then Some(from)
    else FindEdgeFrom(es, i, j, from + 1)
  }

  /** The attributes of the edge joining vertices `i` and `j`; none when there is no edge. */
  function EdgeAttrs(g: Graph, i: nat, j: nat): Attrs
  {
    match FindEdge(g.edges, i, j)
    case None => map[]
    case Some(k) => g.edges[k].attrs
  }

  /** The attributes of the edge joining the vertices named `a` and `b`; none when either or the edge is missing. */
  function AttrsBetween(g: Graph, a: string, b: string): Attrs
  {
    match (FindVertex(g.vertices, a), FindVertex(g.vertices, b))
    case (Some(i), Some(j)) => EdgeAttrs(g, i, j)
    case _ => map[]
  }

  /** The `weight` attribute read as a number; 0 when there is none. */
  function WeightAttr(a: Attrs): int
  {
    if WeightKey in a && a[WeightKey].Num? then a[WeightKey].n else 0
  }

  /** The weight of the edge joining vertices `i` and `j`; 0 when there is none. */
  function WeightOf(g: Graph, i: nat, j: nat): int
  {
    WeightAttr(EdgeAttrs(g, i, j))
  }

  /** The weight of the edge joining the vertices named `a` and `b`; 0 when either or the edge is missing. */
  function WeightBetween(g: Graph, a: string, b: string): int
  {
    WeightAttr(AttrsBetween(g, a, b))
  }

  /** The vertex names of a graph. */
  function Names(g: Graph): (r: set<string>)
    ensures forall k | 0 <= k < |g.vertices| :: g.vertices[k].name in r
    ensures forall a | a in r :: FindVertex(g.vertices, a).Some?
  {
    set k | 0 <= k < |g.vertices| :: g.vertices[k].name
  }

  /** The token IDs recorded in a `tokenIDs` attribute, list or set. */
  function IdsOf(a: Attrs): set<string>
  {
    if TokenIdsKey !in a then {}
    else match a[TokenIdsKey]
      case List(xs) => Elements(xs)
      case Set(m) => m
      case _ => {}
  }

  /** The token IDs recorded on the vertex named `a`. */
  function IdsAt(g: Graph, a: string): set<string>
  {
    match FindVertex(g.vertices, a)
    case None => {}
    case Some(i) => IdsOf(g.vertices[i].attrs)
  }

  // ------------------------------------------------------------- invariants

  ghost predicate DistinctNames(vs: seq<Vertex>)
  {
    forall i, j | 0 <= i < j < |vs| :: vs[i].name != vs[j].name
  }

  ghost predicate EdgesInRange(g: Graph)
  {
    forall k | 0 <= k < |g.edges| :: g.edges[k].source < |g.vertices| && g.edges[k].target < |g.vertices|
  }

  /** At most one edge per unordered vertex pair. */
  ghost predicate SingleEdges(es: seq<Edge>)
  {
    forall k, l | 0 <= k < l < |es| :: !Joins(es[l], es[k].source, es[k].target)
  }

  /** An attribute map with a positive numeric weight. */
  predicate PositiveWeight(a: Attrs)
  {
    WeightKey in a && a[WeightKey].Num? && a[WeightKey].n >= 1
  }

  /** Every edge carries a positive numeric weight. */
  ghost predicate Weighted(es: seq<Edge>)
  {
    forall k | 0 <= k < |es| :: PositiveWeight(es[k].attrs)
  }

  /** The shape every graph keeps: distinct names, edges between existing vertices, at most one edge per pair. */
  ghost predicate Simple(g: Graph)
  {
    DistinctNames(g.vertices) && EdgesInRange(g) && SingleEdges(g.edges)
  }

  /** The invariant of every weighted graph the builders produce. */
  ghost predicate Valid(g: Graph)
  {
    Simple(g) && Weighted(g.edges)
  }

  /** No edge joins a vertex to itself. */
  ghost predicate NoLoops(es: seq<Edge>)
  {
    forall k | 0 <= k < |es| :: es[k].source != es[k].target
  }

  /** Every `tokenIDs` attribute is a list. */
  ghost predicate ListIds(vs: seq<Vertex>)
  {
    forall k | 0 <= k < |vs| :: TokenIdsKey in vs[k].attrs ==> vs[k].attrs[TokenIdsKey].List?
  }

  /** No `tokenIDs` list holds an ID twice. */
  ghost predicate UniqueIds(vs: seq<Vertex>)
  {
    forall k | 0 <= k < |vs| :: TokenIdsKey in vs[k].attrs && vs[k].attrs[TokenIdsKey].List? ==>
      NoDuplicates(vs[k].attrs[TokenIdsKey].items)
  }

  predicate NoDuplicates(xs: seq<string>)
  {
    forall i, j | 0 <= i < j < |xs| :: xs[i] != xs[j]
  }

  // ------------------------------------------------------------- operations

  /** A vertex with `id` recorded in its `tokenIDs` the way `how` says. */
  function RecordId(v: Vertex, id: string, how: IdRecording): (w: Vertex)
    ensures w.name == v.name
  {
    match how
    case AddToSet =>
      v.(attrs := v.attrs[TokenIdsKey := Set(IdsOf(v.attrs) + {id})])
    case AppendIfAbsent =>
      var old_ := if TokenIdsKey in v.attrs && v.attrs[TokenIdsKey].List? then v.attrs[TokenIdsKey].items else [];
      if id in old_ then v.(attrs := v.attrs[TokenIdsKey := List(old_)])
      else v.(attrs := v.attrs[TokenIdsKey := List(old_ + [id])])
    case Append =>
      var old_ := if TokenIdsKey in v.attrs && v.attrs[TokenIdsKey].List? then v.attrs[TokenIdsKey].items else [];
      v.(attrs := v.attrs[TokenIdsKey := List(old_ + [id])])
  }

  /** The vertex named `name`, created with attributes `initial` if there is none (find-or-create). */
  function FindOrAdd(g: Graph, name: string, initial: Attrs): (r: (Graph, nat))
    ensures r.1 < |r.0.vertices| && r.0.vertices[r.1].name == name
    ensures r.0.edges == g.edges
    ensures FindVertex(g.vertices, name).Some? ==> r.0 == g && r.1 == FindVertex(g.vertices, name).value
    ensures FindVertex(g.vertices, name).None? ==>
      r.0.vertices == g.vertices + [Vertex(name, initial)] && r.1 == |g.vertices|
  {
    match FindVertex(g.vertices, name)
    case Some(i) => (g, i)
    case None => (g.(vertices := g.vertices + [Vertex(name, initial)]), |g.vertices|)
  }

  /** Find or create the vertex named `name` and record the token ID on it. */
  function TouchVertex(g: Graph, name: string, initial: Attrs, id: string, how: IdRecording): (r: (Graph, nat))
    ensures r.1 < |r.0.vertices| && r.0.vertices[r.1].name == name
    ensures r.0.edges == g.edges
    ensures |g.vertices| <= |r.0.vertices| && forall k | 0 <= k < |g.vertices| :: r.0.vertices[k].name == g.vertices[k].name
  {
    var (g1, i) := FindOrAdd(g, name, initial);
    (g1.(vertices := g1.vertices[i := RecordId(g1.vertices[i], id, how)]), i)
  }

  /** Give the edge joining `i` and `j` the attributes `a`, adding the edge when there is none. */
  function SetEdge(g: Graph, i: nat, j: nat, a: Attrs): (r: Graph)
    ensures r.vertices == g.vertices
  {
    match FindEdge(g.edges, i, j)
    case None => g.(edges := g.edges + [Edge(i, j, a)])
    case Some(k) => g.(edges := g.edges[k := g.edges[k].(attrs := a)])
  }

  /** Add an edge of weight 1 joining `i` and `j`, or add 1 to the weight of the one there is. */
  function Increment(g: Graph, i: nat, j: nat): (r: Graph)
    ensures r.vertices == g.vertices
  {
    SetEdge(g, i, j, EdgeAttrs(g, i, j)[WeightKey := Num(WeightOf(g, i, j) + 1)])
  }

  /** `add_or_increment_edge`: nothing for a loop, otherwise `Increment`. */
  function AddOrIncrement(g: Graph, s: nat, t: nat): (r: Graph)
    ensures r.vertices == g.vertices
  {
    if s == t then g else Increment(g, s, t)
  }

  // ------------------------------------------------------------ mutable store

  /** A graph updated in place. */
  class GraphStore {
    var vertices: seq<Vertex>
    var edges: seq<Edge>

    function Value(): Graph
      reads this
    {
      Graph(vertices, edges)
    }

    /** A new, empty graph. */
    constructor Empty()
      ensures Value() == Graph([], [])
    {
      vertices, edges := [], [];
    }

    /** A copy of a graph (`graph.copy()`). */
    constructor Copy(g: Graph)
      ensures Value() == g
    {
      vertices, edges := g.vertices, g.edges;
    }

    /** Find or create the vertex named `name` and record `id` on it; `i` is its index. */
    method Touch(name: string, initial: Attrs, id: string, how: IdRecording) returns (i: nat)
      modifies this
      ensures (Value(), i) == TouchVertex(old(Value()), name, initial, id, how)
    {
      var found := FindVertex(vertices, name);
      if found.None? {
        vertices := vertices + [Vertex(name, initial)];
        i := |vertices| - 1;
      } else {
        i := found.value;
      }
      vertices := vertices[i := RecordId(vertices[i], id, how)];
    }

    /** Find or create the vertex named `name`; `i` is its index. */
    method FindOrAddVertex(name: string, initial: Attrs) returns (i: nat)
      modifies this
      ensures (Value(), i) == FindOrAdd(old(Value()), name, initial)
    {
      var found := FindVertex(vertices, name);
      if found.None? {
        vertices := vertices + [Vertex(name, initial)];
        i := |vertices| - 1;
      } else {
        i := found.value;
      }
    }

    /** Give the edge joining `i` and `j` the attributes `a`, adding it when there is none. */
    method PutEdge(i: nat, j: nat, a: Attrs)
      modifies this
      ensures Value() == SetEdge(old(Value()), i, j, a)
    {
      var found := FindEdge(edges, i, j);
      if found.None? {
        edges := edges + [Edge(i, j, a)];
      } else {
        edges := edges[found.value := edges[found.value].(attrs := a)];
      }
    }

    /** `add_or_increment_edge`: skip a loop, else add an edge of weight 1 or increment the existing edge's weight. */
    method AddOrIncrementEdge(s: nat, t: nat)
      modifies this
      ensures Value() == AddOrIncrement(old(Value()), s, t)
    {
      if s == t {
        return;
      }
      var found := FindEdge(edges, s, t);
      if found.None? {
        edges := edges + [Edge(s, t, map[WeightKey := Num(1)])];
      } else {
        var e := edges[found.value];
        edges := edges[found.value := e.(attrs := e.attrs[WeightKey := Num(WeightAttr(e.attrs) + 1)])];
      }
    }

    /** Add an edge of weight 1 joining `i` and `j`, or increment the existing edge's weight; loops included. */
    method IncrementEdge(i: nat, j: nat)
      modifies this
      ensures Value() == Increment(old(Value()), i, j)
    {
      var found := FindEdge(edges, i, j);
      if found.None? {
        edges := edges + [Edge(i, j, map[WeightKey := Num(1)])];
      } else {
        var e := edges[found.value];
        edges := edges[found.value := e.(attrs := e.attrs[WeightKey := Num(WeightAttr(e.attrs) + 1)])];
      }
    }

    /** Replace the attributes of vertex `i`. */
    method SetVertexAttrs(i: nat, a: Attrs)
      requires i < |vertices|
      modifies this
      ensures vertices == old(vertices)[i := old(vertices)[i].(attrs := a)] && edges == old(edges)
    {
      vertices := vertices[i := vertices[i].(attrs := a)];
    }

    /** Replace the name of vertex `i` (a TCF node's text). */
    method SetVertexName(i: nat, name: string)
      requires i < |vertices|
      modifies this
      ensures vertices == old(vertices)[i := old(vertices)[i].(name := name)] && edges == old(edges)
    {
      vertices := vertices[i := vertices[i].(name := name)];
    }
  }

  // ------------------------------------------------------- lemmas: lookups

  /** The first edge joining a pair does not depend on the order the pair is given in. */
  lemma FindEdgeSymmetric(es: seq<Edge>, i: nat, j: nat)
    ensures FindEdge(es, i, j) == FindEdge(es, j, i)
  {
    FindEdgeFromSymmetric(es, i, j, 0);
  }

  lemma {:induction false} FindEdgeFromSymmetric(es: seq<Edge>, i: nat, j: nat, from: nat)
    ensures FindEdgeFrom(es, i, j, from) == FindEdgeFrom(es, j, i, from)
    decreases |es| - from
  {
    if from < |es| {
      FindEdgeFromSymmetric(es, i, j, from + 1);
    }
  }

  /** Two edge lists with the same endpoints, position by position, have the same first edge for every pair. */
  lemma FindEdgeByEndpoints(es: seq<Edge>, fs: seq<Edge>, i: nat, j: nat)
    requires |es| == |fs|
    requires forall k | 0 <= k < |es| :: es[k].source == fs[k].source && es[k].target == fs[k].target
    ensures FindEdge(es, i, j) == FindEdge(fs, i, j)
  {
    FindEdgeFromByEndpoints(es, fs, i, j, 0);
  }

  lemma {:induction false} FindEdgeFromByEndpoints(es: seq<Edge>, fs: seq<Edge>, i: nat, j: nat, from: nat)
    requires |es| == |fs|
    requires forall k | 0 <= k < |es| :: es[k].source == fs[k].source && es[k].target == fs[k].target
    ensures FindEdgeFrom(es, i, j, from) == FindEdgeFrom(fs, i, j, from)
    decreases |es| - from
  {
    if from < |es| {
      FindEdgeFromByEndpoints(es, fs, i, j, from + 1);
    }
  }

  /** Appending an edge leaves every pair's first edge where it was, and is the first edge of its own pair when there was none. */
  lemma FindEdgeAppend(es: seq<Edge>, e: Edge, i: nat, j: nat)
    ensures FindEdge(es + [e], i, j) ==
      if FindEdge(es, i, j).Some? then FindEdge(es, i, j)
      else if Joins(e, i, j) then Some(|es|) else None
  {
    FindEdgeFromAppend(es, e, i, j, 0);
  }

  lemma {:induction false} FindEdgeFromAppend(es: seq<Edge>, e: Edge, i: nat, j: nat, from: nat)
    requires from <= |es|
    ensures FindEdgeFrom(es + [e], i, j, from) ==
      if FindEdgeFrom(es, i, j, from).Some? then FindEdgeFrom(es, i, j, from)
      else if Joins(e, i, j) then Some(|es|) else None
    decreases |es| - from
  {
    if from < |es| {
      assert (es + [e])[from] == es[from];
      FindEdgeFromAppend(es, e, i, j, from + 1);
    } else {
      assert (es + [e])[from] == e;
    }
  }

  lemma {:induction false} FindVertexFromSameNames(vs: seq<Vertex>, ws: seq<Vertex>, a: string, i: nat)
    requires |vs| == |ws|
    requires forall k | 0 <= k < |vs| :: ws[k].name == vs[k].name
    ensures FindVertexFrom(ws, a, i) == FindVertexFrom(vs, a, i)
    decreases |vs| - i
  {
    if i < |vs| {
      FindVertexFromSameNames(vs, ws, a, i + 1);
    }
  }

  /** Appending a vertex does not move the first vertex of any other name. */
  lemma FindVertexAppendOther(vs: seq<Vertex>, v: Vertex, a: string)
    requires a != v.name
    ensures FindVertex(vs + [v], a) == FindVertex(vs, a)
  {
    var r := FindVertex(vs, a);
    if r.Some? {
      assert (vs + [v])[r.value] == vs[r.value];
    }
  }

  /** With distinct names, the vertex at position `i` is the one its name finds. */
  lemma FindOwnName(vs: seq<Vertex>, i: nat)
    requires DistinctNames(vs) && i < |vs|
    ensures FindVertex(vs, vs[i].name) == Some(i)
  {
  }

  // ------------------------------------------------------- lemmas: edges

  /** Setting the attributes of the edge {i, j} changes the attributes seen for that pair and for no other. */
  lemma SetEdgeAttrs(g: Graph, i: nat, j: nat, a: Attrs, x: nat, y: nat)
    ensures EdgeAttrs(SetEdge(g, i, j, a), x, y) == if SamePair(x, y, i, j) then a else EdgeAttrs(g, x, y)
  {
    var g' := SetEdge(g, i, j, a);
    FindEdgeSymmetric(g.edges, i, j);
    if SamePair(x, y, i, j) {
      FindEdgeSymmetric(g.edges, x, y);
    }
    match FindEdge(g.edges, i, j)
    case None =>
      FindEdgeAppend(g.edges, Edge(i, j, a), x, y);
      if FindEdge(g.edges, x, y).Some? {
        assert !SamePair(x, y, i, j);
      }
    case Some(k) =>
      FindEdgeByEndpoints(g.edges, g'.edges, x, y);
      if FindEdge(g.edges, x, y) == Some(k) {
        assert SamePair(x, y, i, j);
      }
  }

  /** The names of vertices i and j form {a, b} exactly when the vertices their names find are i and j. */
  lemma SamePairByName(vs: seq<Vertex>, i: nat, j: nat, a: string, b: string)
    requires DistinctNames(vs)
    requires i < |vs| && j < |vs|
    requires FindVertex(vs, a).Some? && FindVertex(vs, b).Some?
    ensures SamePair(FindVertex(vs, a).value, FindVertex(vs, b).value, i, j) <==> SamePair(a, b, vs[i].name, vs[j].name)
  {
  }

  /**
   * In a graph with distinct names, setting the attributes of the edge
   * between vertices i and j changes what is seen between their two names
   * and between no other pair of names.
   */
  lemma SetEdgeBetween(g: Graph, i: nat, j: nat, a: Attrs, x: string, y: string)
    requires DistinctNames(g.vertices)
    requires i < |g.vertices| && j < |g.vertices|
    ensures AttrsBetween(SetEdge(g, i, j, a), x, y) ==
      if SamePair(x, y, g.vertices[i].name, g.vertices[j].name) then a else AttrsBetween(g, x, y)
  {
    var vs := g.vertices;
    match (FindVertex(vs, x), FindVertex(vs, y))
    case (Some(p), Some(q)) =>
      SetEdgeAttrs(g, i, j, a, p, q);
      SamePairByName(vs, i, j, x, y);
    case _ =>
  }

  /** The edge attributes between two vertices are those between their names. */
  lemma EdgeAttrsByName(g: Graph, i: nat, j: nat)
    requires DistinctNames(g.vertices)
    requires i < |g.vertices| && j < |g.vertices|
    ensures EdgeAttrs(g, i, j) == AttrsBetween(g, g.vertices[i].name, g.vertices[j].name)
  {
    FindOwnName(g.vertices, i);
    FindOwnName(g.vertices, j);
  }

  /** Setting an edge's attributes keeps the graph simple, weighted when the new attributes carry a positive weight, and loop-free when i != j. */
  lemma SetEdgeValid(g: Graph, i: nat, j: nat, a: Attrs)
    requires Simple(g)
    requires i < |g.vertices| && j < |g.vertices|
    ensures Simple(SetEdge(g, i, j, a))
    ensures Weighted(g.edges) && PositiveWeight(a) ==> Weighted(SetEdge(g, i, j, a).edges)
    ensures NoLoops(g.edges) && i != j ==> NoLoops(SetEdge(g, i, j, a).edges)
  {
    var g' := SetEdge(g, i, j, a);
    match FindEdge(g.edges, i, j)
    case None =>
      assert g'.edges == g.edges + [Edge(i, j, a)];
      forall k, l | 0 <= k < l < |g'.edges|
        ensures !Joins(g'.edges[l], g'.edges[k].source, g'.edges[k].target)
      {
        if l == |g.edges| {
          assert !Joins(g.edges[k], i, j);
        }
      }
    case Some(k) =>
      assert forall l | 0 <= l < |g.edges| :: g'.edges[l].source == g.edges[l].source && g'.edges[l].target == g.edges[l].target;
  }

  /** In a graph with distinct names, adding 1 between vertices i and j adds 1 to the weight between their names and nothing else. */
  lemma IncrementWeightBetween(g: Graph, i: nat, j: nat, x: string, y: string)
    requires DistinctNames(g.vertices)
    requires i < |g.vertices| && j < |g.vertices|
    ensures WeightBetween(Increment(g, i, j), x, y) ==
      WeightBetween(g, x, y) + (if SamePair(x, y, g.vertices[i].name, g.vertices[j].name) then 1 else 0)
  {
    var a := EdgeAttrs(g, i, j)[WeightKey := Num(WeightOf(g, i, j) + 1)];
    SetEdgeBetween(g, i, j, a, x, y);
    if SamePair(x, y, g.vertices[i].name, g.vertices[j].name) {
      EdgeAttrsByName(g, i, j);
      assert AttrsBetween(g, x, y) == AttrsBetween(g, g.vertices[i].name, g.vertices[j].name);
    }
  }

  /** Incrementing keeps a graph valid, and free of loops when the pair is not a loop. */
  lemma IncrementValid(g: Graph, i: nat, j: nat)
    requires Valid(g)
    requires i < |g.vertices| && j < |g.vertices|
    ensures Valid(Increment(g, i, j))
    ensures NoLoops(g.edges) && i != j ==> NoLoops(Increment(g, i, j).edges)
  {
    var a := EdgeAttrs(g, i, j)[WeightKey := Num(WeightOf(g, i, j) + 1)];
    assert PositiveWeight(a) by {
      match FindEdge(g.edges, i, j)
      case None =>
      case Some(k) =>
    }
    SetEdgeValid(g, i, j, a);
  }

  /**
   * `add_or_increment_edge` between two distinct vertices adds 1 to the
   * weight between their names and nothing else; on a loop it changes nothing.
   */
  lemma AddOrIncrementWeightBetween(g: Graph, s: nat, t: nat, x: string, y: string)
    requires DistinctNames(g.vertices)
    requires s < |g.vertices| && t < |g.vertices|
    ensures WeightBetween(AddOrIncrement(g, s, t), x, y) ==
      WeightBetween(g, x, y) + (if s != t && SamePair(x, y, g.vertices[s].name, g.vertices[t].name) then 1 else 0)
  {
    if s != t {
      IncrementWeightBetween(g, s, t, x, y);
    }
  }

  /** `add_or_increment_edge` keeps a graph valid and never adds a loop. */
  lemma AddOrIncrementValid(g: Graph, s: nat, t: nat)
    requires Valid(g)
    requires s < |g.vertices| && t < |g.vertices|
    ensures Valid(AddOrIncrement(g, s, t))
    ensures NoLoops(g.edges) ==> NoLoops(AddOrIncrement(g, s, t).edges)
  {
    if s != t {
      IncrementValid(g, s, t);
    }
  }

  // ----------------------------------------------------- lemmas: vertices

  /** Changing the attributes of existing vertices keeps names and every edge between names. */
  lemma VertexAttrsKeepEdges(g: Graph, g': Graph)
    requires g'.edges == g.edges && |g'.vertices| == |g.vertices|
    requires forall k | 0 <= k < |g.vertices| :: g'.vertices[k].name == g.vertices[k].name
    ensures forall a | true :: FindVertex(g'.vertices, a) == FindVertex(g.vertices, a)
    ensures Names(g') == Names(g)
    ensures forall a, b | true :: AttrsBetween(g', a, b) == AttrsBetween(g, a, b)
    ensures Simple(g) ==> Simple(g')
    ensures Valid(g) ==> Valid(g')
  {
    forall a | true ensures FindVertex(g'.vertices, a) == FindVertex(g.vertices, a) {
      FindVertexFromSameNames(g.vertices, g'.vertices, a, 0);
    }
  }

  /** A vertex that no edge touches has no edge towards any vertex. */
  lemma UntouchedVertexEdges(g: Graph, i: nat, j: nat)
    requires forall k | 0 <= k < |g.edges| :: g.edges[k].source != i && g.edges[k].target != i
    ensures EdgeAttrs(g, i, j) == map[] && EdgeAttrs(g, j, i) == map[]
  {
  }

  /** Appending a vertex adds its name to the names. */
  lemma NamesAppend(g: Graph, v: Vertex)
    ensures Names(g.(vertices := g.vertices + [v])) == Names(g) + {v.name}
  {
    var g' := g.(vertices := g.vertices + [v]);
    forall a | a in Names(g') ensures a in Names(g) + {v.name} {
      var k :| 0 <= k < |g'.vertices| && g'.vertices[k].name == a;
      if k < |g.vertices| { assert g.vertices[k].name == a; }
    }
    forall a | a in Names(g) ensures a in Names(g') {
      var k :| 0 <= k < |g.vertices| && g.vertices[k].name == a;
      assert g'.vertices[k].name == a;
    }
    assert g'.vertices[|g.vertices|] == v;
  }

  /**
   * Creating a vertex for a new name keeps every edge between names and the
   * graph's shape; the names grow by that one name.
   */
  lemma FindOrAddKeepsEdges(g: Graph, name: string, initial: Attrs)
    requires Simple(g)
    ensures var g' := FindOrAdd(g, name, initial).0;
      Simple(g') && (Valid(g) ==> Valid(g')) && Names(g') == Names(g) + {name} &&
      forall a, b | true :: AttrsBetween(g', a, b) == AttrsBetween(g, a, b)
  {
    FindOrAddSimple(g, name, initial);
    var (g', n) := FindOrAdd(g, name, initial);
    if FindVertex(g.vertices, name).None? {
      FindOrAddBetween(g, name, initial);
    }
  }

  /** A vertex created for a new name has no edge, so every edge between names stays as it was. */
  lemma FindOrAddBetween(g: Graph, name: string, initial: Attrs)
    requires EdgesInRange(g) && FindVertex(g.vertices, name).None?
    ensures forall a, b | true :: AttrsBetween(FindOrAdd(g, name, initial).0, a, b) == AttrsBetween(g, a, b)
  {
    var (g', n) := FindOrAdd(g, name, initial);
    assert g'.vertices == g.vertices + [Vertex(name, initial)];
    forall a | a != name ensures FindVertex(g'.vertices, a) == FindVertex(g.vertices, a) {
      FindVertexAppendOther(g.vertices, Vertex(name, initial), a);
    }
    assert FindVertex(g'.vertices, name) == Some(n);
    assert forall k | 0 <= k < |g'.edges| :: g'.edges[k].source != n && g'.edges[k].target != n;
    forall a, b | true ensures AttrsBetween(g', a, b) == AttrsBetween(g, a, b) {
      if a == name && FindVertex(g'.vertices, b).Some? {
        UntouchedVertexEdges(g', n, FindVertex(g'.vertices, b).value);
      } else if b == name && FindVertex(g'.vertices, a).Some? {
        UntouchedVertexEdges(g', n, FindVertex(g'.vertices, a).value);
      }
    }
  }

  /** Finding or creating a vertex keeps the graph simple and adds the name. */
  lemma FindOrAddSimple(g: Graph, name: string, initial: Attrs)
    requires Simple(g)
    ensures Simple(FindOrAdd(g, name, initial).0) && Names(FindOrAdd(g, name, initial).0) == Names(g) + {name}
  {
    if FindVertex(g.vertices, name).None? {
      NamesAppend(g, Vertex(name, initial));
    }
  }

  /** Touching a vertex keeps the names distinct. */
  lemma TouchDistinct(g: Graph, name: string, initial: Attrs, id: string, how: IdRecording)
    requires DistinctNames(g.vertices)
    ensures DistinctNames(TouchVertex(g, name, initial, id, how).0.vertices)
  {
    var (g1, i) := FindOrAdd(g, name, initial);
    var vs := TouchVertex(g, name, initial, id, how).0.vertices;
    assert |vs| == |g1.vertices| && forall k | 0 <= k < |vs| :: vs[k].name == g1.vertices[k].name;
    if FindVertex(g.vertices, name).None? {
      assert DistinctNames(g1.vertices);
    }
  }

  /**
   * Touching a vertex (find-or-create, then record the token ID) keeps every
   * edge between names and the graph's shape, and adds the name.
   */
  lemma TouchKeepsEdges(g: Graph, name: string, initial: Attrs, id: string, how: IdRecording)
    requires Simple(g)
    ensures var g' := TouchVertex(g, name, initial, id, how).0;
      Simple(g') && (Valid(g) ==> Valid(g')) && Names(g') == Names(g) + {name} &&
      forall a, b | true :: AttrsBetween(g', a, b) == AttrsBetween(g, a, b)
  {
    var (g1, i) := FindOrAdd(g, name, initial);
    FindOrAddKeepsEdges(g, name, initial);
    VertexAttrsKeepEdges(g1, TouchVertex(g, name, initial, id, how).0);
  }

  // -------------------------------------------------------- lemmas: token IDs

  /** Whether recording with `how` on these attributes adds exactly the ID: always for a set, for a list when the IDs are a list or absent. */
  predicate ExactRecording(a: Attrs, how: IdRecording)
  {
    how == AddToSet || TokenIdsKey !in a || a[TokenIdsKey].List?
  }

  /** The elements of a list, as a set. */
  function Elements(xs: seq<string>): set<string>
  {
    set k | 0 <= k < |xs| :: xs[k]
  }

  lemma ElementsAppend(xs: seq<string>, x: string)
    ensures Elements(xs + [x]) == Elements(xs) + {x}
  {
    var ys := xs + [x];
    forall y | y in Elements(ys) ensures y in Elements(xs) + {x} {
      var k :| 0 <= k < |ys| && ys[k] == y;
      if k < |xs| { assert ys[k] == xs[k]; }
    }
    forall y | y in Elements(xs) ensures y in Elements(ys) {
      var k :| 0 <= k < |xs| && xs[k] == y;
      assert ys[k] == xs[k];
    }
    assert ys[|xs|] == x;
  }

  lemma ElementsConcat(xs: seq<string>, ys: seq<string>)
    ensures Elements(xs + ys) == Elements(xs) + Elements(ys)
  {
    var zs := xs + ys;
    forall y | y in Elements(zs) ensures y in Elements(xs) + Elements(ys) {
      var k :| 0 <= k < |zs| && zs[k] == y;
      if k < |xs| { assert zs[k] == xs[k]; } else { assert zs[k] == ys[k - |xs|]; }
    }
    forall y | y in Elements(xs) + Elements(ys) ensures y in Elements(zs) {
      if y in Elements(xs) {
        var k :| 0 <= k < |xs| && xs[k] == y;
        assert zs[k] == y;
      } else {
        var k :| 0 <= k < |ys| && ys[k] == y;
        assert zs[|xs| + k] == y;
      }
    }
  }

  /** Recording an ID on a vertex: the ID is there afterwards, and in the exact case nothing else is gained or lost. */
  lemma RecordIdAdds(v: Vertex, id: string, how: IdRecording)
    ensures id in IdsOf(RecordId(v, id, how).attrs)
    ensures ExactRecording(v.attrs, how) ==> IdsOf(RecordId(v, id, how).attrs) == IdsOf(v.attrs) + {id}
  {
    var ys := if TokenIdsKey in v.attrs && v.attrs[TokenIdsKey].List? then v.attrs[TokenIdsKey].items else [];
    assert ExactRecording(v.attrs, how) && how != AddToSet ==> IdsOf(v.attrs) == Elements(ys);
    match how
    case AddToSet =>
    case AppendIfAbsent =>
      if id in ys {
        var k :| 0 <= k < |ys| && ys[k] == id;
      } else {
        ElementsAppend(ys, id);
      }
    case Append =>
      ElementsAppend(ys, id);
  }

  /** Every vertex of the graph records IDs exactly. */
  ghost predicate ExactIds(g: Graph, how: IdRecording)
  {
    how == AddToSet || ListIds(g.vertices)
  }

  /** Touching a vertex adds the ID to that name's IDs, when recording is exact. */
  lemma TouchIdsSame(g: Graph, name: string, initial: Attrs, id: string, how: IdRecording)
    requires DistinctNames(g.vertices)
    requires ExactIds(g, how) && TokenIdsKey !in initial
    ensures IdsAt(TouchVertex(g, name, initial, id, how).0, name) == IdsAt(g, name) + {id}
  {
    var (g1, i) := FindOrAdd(g, name, initial);
    var g' := TouchVertex(g, name, initial, id, how).0;
    VertexAttrsKeepEdges(g1, g');
    assert ExactRecording(g1.vertices[i].attrs, how);
    RecordIdAdds(g1.vertices[i], id, how);
    assert FindVertex(g1.vertices, name) == Some(i);
  }

  /** Touching a vertex leaves the IDs of every other name as they were. */
  lemma TouchIdsOther(g: Graph, name: string, initial: Attrs, id: string, how: IdRecording, a: string)
    requires a != name
    ensures IdsAt(TouchVertex(g, name, initial, id, how).0, a) == IdsAt(g, a)
  {
    var (g1, i) := FindOrAdd(g, name, initial);
    VertexAttrsKeepEdges(g1, TouchVertex(g, name, initial, id, how).0);
    if FindVertex(g.vertices, name).None? {
      FindVertexAppendOther(g.vertices, Vertex(name, initial), a);
    }
  }

  /** Touching a vertex with list recording keeps every `tokenIDs` a list. */
  lemma TouchKeepsExactIds(g: Graph, name: string, initial: Attrs, id: string, how: IdRecording)
    requires ExactIds(g, how) && TokenIdsKey !in initial
    ensures ExactIds(TouchVertex(g, name, initial, id, how).0, how)
  {
  }

  /** Touching a vertex adds the ID to that name's IDs and to no other name's, when recording is exact. */
  lemma TouchIds(g: Graph, name: string, initial: Attrs, id: string, how: IdRecording, a: string)
    requires DistinctNames(g.vertices)
    requires ExactIds(g, how) && TokenIdsKey !in initial
    ensures IdsAt(TouchVertex(g, name, initial, id, how).0, a) == IdsAt(g, a) + (if a == name then {id} else {})
  {
    if a == name {
      TouchIdsSame(g, name, initial, id, how);
    } else {
      TouchIdsOther(g, name, initial, id, how, a);
    }
  }

  /** Recording with `AppendIfAbsent` never puts an ID into a list twice. */
  lemma TouchKeepsUniqueIds(g: Graph, name: string, initial: Attrs, id: string)
    requires UniqueIds(g.vertices) && TokenIdsKey !in initial
    ensures UniqueIds(TouchVertex(g, name, initial, id, AppendIfAbsent).0.vertices)
  {
    var (g1, i) := FindOrAdd(g, name, initial);
    var v := g1.vertices[i];
    var xs := if TokenIdsKey in v.attrs && v.attrs[TokenIdsKey].List? then v.attrs[TokenIdsKey].items else [];
    assert NoDuplicates(xs);
  }
}

=== FILE: pairs.dfy ===
/** `itertools.combinations(s, 2)`, which the builders use to pair tokens. */
module Pairs {

  /** The pairs `(s[0], s[j])` for `0 < j`, in order of `j`. */
  function PairsWithFirst<T>(s: seq<T>): (r: seq<(T, T)>)
    requires |s| > 0
    ensures |r| == |s| - 1
    ensures forall j | 0 <= j < |r| :: r[j] == (s[0], s[j + 1])
  {
    seq(|s| - 1, j requires 0 <= j < |s| - 1 => (s[0], s[j + 1]))
  }

  /** The pairs `(s[i], s[j])` with `i < j`, ordered by `i` and then by `j`. */
  function Combinations<T>(s: seq<T>): (r: seq<(T, T)>)
    ensures |r| == |s| * (|s| - 1) / 2
    ensures forall q | q in r :: q.0 in s && q.1 in s
  {
    if |s| == 0 then []
    else
      var rest := Combinations(s[1..]);
      assert forall q | q in rest :: q.0 in s && q.1 in s;
      Triangle(|s| - 1);
      PairsWithFirst(s) + rest
  }

  /** The step of the pair count: `m + 1` items make `m` pairs more than `m` items do. */
  lemma Triangle(m: nat)
    ensures (m + 1) * m / 2 == m + m * (m - 1) / 2
  {
    var k := m * (m - 1);
    assert (m + 1) * m == k + 2 * m;
  }

  /** Every pair of positions `i < j` of `s` is produced. */
  lemma {:induction false} CombinationsComplete<T>(s: seq<T>)
    ensures forall i, j | 0 <= i < j < |s| :: (s[i], s[j]) in Combinations(s)
  {
    if |s| > 0 {
      CombinationsComplete(s[1..]);
      assert Combinations(s) == PairsWithFirst(s) + Combinations(s[1..]);
      forall i, j | 0 <= i < j < |s|
        ensures (s[i], s[j]) in Combinations(s)
      {
        if i == 0 {
          assert PairsWithFirst(s)[j - 1] == (s[i], s[j]);
        } else {
          assert (s[1..][i - 1], s[1..][j - 1]) in Combinations(s[1..]);
        }
      }
    }
  }

  /** Nothing but pairs of positions `i < j` of `s` is produced. */
  lemma {:induction false} CombinationsSound<T>(s: seq<T>)
    ensures forall q | q in Combinations(s) :: exists i, j | 0 <= i < j < |s| :: q == (s[i], s[j])
  {
    if |s| > 0 {
      CombinationsSound(s[1..]);
      assert Combinations(s) == PairsWithFirst(s) + Combinations(s[1..]);
      forall q | q in Combinations(s)
        ensures exists i, j | 0 <= i < j < |s| :: q == (s[i], s[j])
      {
        if q in PairsWithFirst(s) {
          var j :| 0 <= j < |s| - 1 && PairsWithFirst(s)[j] == q;
          assert q == (s[0], s[j + 1]);
        } else {
          assert q in Combinations(s[1..]);
          var i, j :| 0 <= i < j < |s[1..]| && q == (s[1..][i], s[1..][j]);
          assert q == (s[i + 1], s[j + 1]);
        }
      }
    }
  }

  /** Whether no element occurs twice. */
  predicate Distinct<T(==)>(s: seq<T>)
  {
    forall a, b | 0 <= a < b < |s| :: s[a] != s[b]
  }

  /** Pairing distinct elements never produces the same pair twice. */
  lemma {:induction false} CombinationsDistinct<T>(s: seq<T>)
    requires Distinct(s)
    ensures Distinct(Combinations(s))
  {
    if |s| > 0 {
      var first, rest := PairsWithFirst(s), Combinations(s[1..]);
      CombinationsDistinct(s[1..]);
      assert Combinations(s) == first + rest;
      assert s[0] !in s[1..] by {
        forall k | 0 <= k < |s[1..]| ensures s[1..][k] != s[0] {
          assert s[1..][k] == s[k + 1];
        }
      }
      forall a, b | 0 <= a < b < |first + rest| ensures (first + rest)[a] != (first + rest)[b] {
        if b < |first| {
          assert first[a].1 == s[a + 1] && first[b].1 == s[b + 1];
        } else if a < |first| {
          assert (first + rest)[b] in rest;
        } else {
          assert (first + rest)[a] == rest[a - |first|] && (first + rest)[b] == rest[b - |first|];
        }
      }
    }
  }
}

=== FILE: parse_tree.dfy ===
/**
 * The dependency-tree walker shared by the two dependency workers
 * (`find_dependents` and `find_edges` in
 * tcfnetworks/annotators/dependency.py and, identically,
 * tcfnetworks/annotators/extended_dependency.py) and the unfiltered
 * tree-edge enumerator of tcfnetworks/scripts/test_dependency.py.
 *
 * A parse is an inductive tree whose nodes already carry the token their ID
 * names, so the recursion terminates; the token test is a parameter `keep`.
 */
module ParseTree {
  import opened Tokens
  import Pairs

  /** The parse below one token: that token and the parses of its direct dependents, in order. */
  datatype Parse = Parse(token: Token, dependents: seq<Parse>)

  type TokenPair = (Token, Token)

  // ------------------------------------------------------------ definitions

  /**
   * `find_dependents`: each direct dependent that passes `keep`, or, in its
   * place, the filtered dependents of a dependent that fails it.
   */
  function FindDependents(keep: Token -> bool, p: Parse): (r: seq<Parse>)
    ensures forall d | d in r :: keep(d.token) && d < p
    decreases p
  {
    DependentsFrom(keep, p, 0)
  }

  /** `find_dependents` over the direct dependents from position `i` on. */
  function DependentsFrom(keep: Token -> bool, p: Parse, i: nat): (r: seq<Parse>)
    ensures forall d | d in r :: keep(d.token) && d < p
    decreases p, |p.dependents| - i
  {
    if i >= |p.dependents| then []
    else
      var d := p.dependents[i];
      (if keep(d.token) then [d] else FindDependents(keep, d)) + DependentsFrom(keep, p, i + 1)
  }

  function TokensOf(ps: seq<Parse>): (r: seq<Token>)
    ensures |r| == |ps| && forall k | 0 <= k < |ps| :: r[k] == ps[k].token
  {
    seq(|ps|, k requires 0 <= k < |ps| => ps[k].token)
  }

  /**
   * `find_edges`: when the head passes, (head, d) for each filtered dependent
   * d followed by the edges below d; when it fails, every pair of its
   * filtered dependents, then the edges below each of them.
   */
  function FindEdges(keep: Token -> bool, p: Parse): (r: seq<TokenPair>)
    ensures forall e | e in r :: keep(e.0) && keep(e.1)
    decreases p, 1
  {
    var ds := FindDependents(keep, p);
    if keep(p.token) then HeadEdges(keep, p, ds, 0)
    else Pairs.Combinations(TokensOf(ds)) + SubtreeEdges(keep, p, ds, 0)
  }

  /** The head-passes branch of `find_edges` from the `i`-th filtered dependent on. */
  function HeadEdges(keep: Token -> bool, p: Parse, ds: seq<Parse>, i: nat): (r: seq<TokenPair>)
    requires keep(p.token)
    requires forall d | d in ds :: keep(d.token) && d < p
    ensures forall e | e in r :: keep(e.0) && keep(e.1)
    decreases p, 0, |ds| - i
  {
    if i >= |ds| then []
    else [(p.token, ds[i].token)] + FindEdges(keep, ds[i]) + HeadEdges(keep, p, ds, i + 1)
  }

  /** The edges below each of the filtered dependents from the `i`-th on. */
  function SubtreeEdges(keep: Token -> bool, p: Parse, ds: seq<Parse>, i: nat): (r: seq<TokenPair>)
    requires forall d | d in ds :: keep(d.token) && d < p
    ensures forall e | e in r :: keep(e.0) && keep(e.1)
    decreases p, 0, |ds| - i
  {
    if i >= |ds| then []
    else
      assert ds[i] in ds;
      FindEdges(keep, ds[i]) + SubtreeEdges(keep, p, ds, i + 1)
  }

  /** `find_dependency_edges`: (head, dependent) for every edge of the tree, in pre-order, unfiltered. */
  function TreeEdges(p: Parse): seq<TokenPair>
    decreases p, 1
  {
    TreeEdgesFrom(p, 0)
  }

  function TreeEdgesFrom(p: Parse, i: nat): seq<TokenPair>
    decreases p, 0, |p.dependents| - i
  {
    if i >= |p.dependents| then []
    else [(p.token, p.dependents[i].token)] + TreeEdges(p.dependents[i]) + TreeEdgesFrom(p, i + 1)
  }

  /** The number of tokens of a parse. */
  function Size(p: Parse): nat
    decreases p, 1
  {
    1 + SizeFrom(p, 0)
  }

  function SizeFrom(p: Parse, i: nat): nat
    decreases p, 0, |p.dependents| - i
  {
    if i >= |p.dependents| then 0 else Size(p.dependents[i]) + SizeFrom(p, i + 1)
  }

  /** All tokens of a parse, in pre-order. */
  function AllTokens(p: Parse): seq<Token>
    decreases p, 1
  {
    [p.token] + AllTokensFrom(p, 0)
  }

  function AllTokensFrom(p: Parse, i: nat): seq<Token>
    decreases p, 0, |p.dependents| - i
  {
    if i >= |p.dependents| then [] else AllTokens(p.dependents[i]) + AllTokensFrom(p, i + 1)
  }

  // --------------------------------------------- a reference definition of descent

  /** `path` runs downwards through the tree: each step goes to a direct dependent. */
  ghost predicate IsDownPath(path: seq<Parse>)
  {
    forall k | 0 <= k < |path| - 1 :: path[k + 1] in path[k].dependents
  }

  /**
   * `d` is reached from `p` through excluded tokens only: some downward path
   * leads from `p` to `d`, every token strictly between them fails `keep`,
   * and `d` passes it.
   */
  ghost predicate ReachedThroughExcluded(keep: Token -> bool, p: Parse, d: Parse)
  {
    keep(d.token) && exists path: seq<Parse> :: ExcludedPath(keep, p, d, path)
  }

  /** `path` leads downwards from `p` to `d` and every token strictly between them fails `keep`. */
  ghost predicate ExcludedPath(keep: Token -> bool, p: Parse, d: Parse, path: seq<Parse>)
  {
    |path| >= 2 && path[0] == p && path[|path| - 1] == d && IsDownPath(path) &&
    forall k | 0 < k < |path| - 1 :: !keep(path[k].token)
  }

  // ------------------------------------------------------------------ lemmas

  /** What the direct dependent `c` contributes to `find_dependents`: itself if it passes, else its own filtered dependents. */
  ghost predicate Contributes(keep: Token -> bool, c: Parse, d: Parse)
  {
    if keep(c.token) then d == c else d in FindDependents(keep, c)
  }

  /** A filtered dependent found from position `i` on is contributed by one direct dependent there. */
  lemma {:induction false} DependentsFromMembers(keep: Token -> bool, p: Parse, i: nat, d: Parse)
    ensures d in DependentsFrom(keep, p, i) <==>
      exists j | i <= j < |p.dependents| :: Contributes(keep, p.dependents[j], d)
    decreases |p.dependents| - i
  {
    if i < |p.dependents| {
      DependentsFromMembers(keep, p, i + 1, d);
      var c := p.dependents[i];
      assert DependentsFrom(keep, p, i) ==
        (if keep(c.token) then [c] else FindDependents(keep, c)) + DependentsFrom(keep, p, i + 1);
    }
  }

  /**
   * `find_dependents` yields exactly the tokens reached from the head through
   * excluded tokens only: each passes the test, and an excluded dependent is
   * replaced by what is reached through it.
   */
  lemma FindDependentsReached(keep: Token -> bool, p: Parse, d: Parse)
    ensures d in FindDependents(keep, p) <==> ReachedThroughExcluded(keep, p, d)
  {
    if d in FindDependents(keep, p) {
      FoundIsReached(keep, p, d);
    }
    if ReachedThroughExcluded(keep, p, d) {
      ReachedIsFound(keep, p, d);
    }
  }

  lemma {:induction false} FoundIsReached(keep: Token -> bool, p: Parse, d: Parse)
    requires d in FindDependents(keep, p)
    ensures ReachedThroughExcluded(keep, p, d)
    decreases p
  {
    DependentsFromMembers(keep, p, 0, d);
    var j :| 0 <= j < |p.dependents| && Contributes(keep, p.dependents[j], d);
    var c := p.dependents[j];
    if keep(c.token) {
      var path := [p, d];
      assert path[1] in path[0].dependents;
      assert IsDownPath(path);
      assert ExcludedPath(keep, p, d, path);
    } else {
      FoundIsReached(keep, c, d);
      var tail: seq<Parse> :| ExcludedPath(keep, c, d, tail);
      var path := [p] + tail;
      assert path[1] == c && c in p.dependents;
      assert IsDownPath(path) by {
        forall k | 0 <= k < |path| - 1 ensures path[k + 1] in path[k].dependents {
          if k > 0 { assert path[k] == tail[k - 1] && path[k + 1] == tail[k]; }
        }
      }
      assert forall k | 0 < k < |path| - 1 :: !keep(path[k].token) by {
        forall k | 0 < k < |path| - 1 ensures !keep(path[k].token) {
          assert path[k] == tail[k - 1];
        }
      }
      assert ExcludedPath(keep, p, d, path);
    }
  }

  lemma {:induction false} ReachedIsFound(keep: Token -> bool, p: Parse, d: Parse)
    requires ReachedThroughExcluded(keep, p, d)
    ensures d in FindDependents(keep, p)
    decreases p
  {
    var path: seq<Parse> :| ExcludedPath(keep, p, d, path);
    var c := path[1];
    assert c in p.dependents;
    var j :| 0 <= j < |p.dependents| && p.dependents[j] == c;
    if |path| == 2 {
      assert keep(c.token) && d == c;
      assert Contributes(keep, p.dependents[j], d);
    } else {
      var tail := path[1..];
      assert !keep(c.token);
      assert IsDownPath(tail) by {
        forall k | 0 <= k < |tail| - 1 ensures tail[k + 1] in tail[k].dependents {
          assert tail[k] == path[k + 1] && tail[k + 1] == path[k + 2];
        }
      }
      assert forall k | 0 < k < |tail| - 1 :: !keep(tail[k].token) by {
        forall k | 0 < k < |tail| - 1 ensures !keep(tail[k].token) {
          assert tail[k] == path[k + 1];
        }
      }
      assert ExcludedPath(keep, c, d, tail);
      ReachedIsFound(keep, c, d);
      assert Contributes(keep, p.dependents[j], d);
    }
    DependentsFromMembers(keep, p, 0, d);
  }

  /** With nothing excluded, the filtered dependents are the direct dependents. */
  lemma {:induction false} KeepAllDependents(keep: Token -> bool, p: Parse, i: nat)
    requires forall t :: keep(t)
    requires i <= |p.dependents|
    ensures DependentsFrom(keep, p, i) == p.dependents[i..]
    decreases |p.dependents| - i
  {
    if i < |p.dependents| {
      KeepAllDependents(keep, p, i + 1);
      assert p.dependents[i..] == [p.dependents[i]] + p.dependents[i + 1..];
    }
  }

  /**
   * With nothing excluded, `find_edges` yields exactly the tree edges that
   * `find_dependency_edges` yields, in the same order.
   */
  lemma {:induction false} KeepAllEdgesAreTreeEdges(keep: Token -> bool, p: Parse)
    requires forall t :: keep(t)
    ensures FindEdges(keep, p) == TreeEdges(p)
    decreases p, 1
  {
    KeepAllDependents(keep, p, 0);
    assert FindDependents(keep, p) == p.dependents;
    KeepAllHeadEdges(keep, p, 0);
  }

  lemma {:induction false} KeepAllHeadEdges(keep: Token -> bool, p: Parse, i: nat)
    requires forall t :: keep(t)
    requires i <= |p.dependents|
    ensures HeadEdges(keep, p, p.dependents, i) == TreeEdgesFrom(p, i)
    decreases p, 0, |p.dependents| - i
  {
    if i < |p.dependents| {
      KeepAllEdgesAreTreeEdges(keep, p.dependents[i]);
      KeepAllHeadEdges(keep, p, i + 1);
    }
  }

  /** `find_dependency_edges` yields one pair per tree edge: one per token other than the root. */
  lemma {:induction false} TreeEdgesCount(p: Parse)
    ensures |TreeEdges(p)| == Size(p) - 1
    decreases p, 1
  {
    TreeEdgesFromCount(p, 0);
  }

  lemma {:induction false} TreeEdgesFromCount(p: Parse, i: nat)
    ensures |TreeEdgesFrom(p, i)| == SizeFrom(p, i)
    decreases p, 0, |p.dependents| - i
  {
    if i < |p.dependents| {
      TreeEdgesCount(p.dependents[i]);
      TreeEdgesFromCount(p, i + 1);
    }
  }

  /** Every pair `find_dependency_edges` yields is a head and one of its direct dependents, both tokens of the parse. */
  lemma {:induction false} TreeEdgesAreParentChild(p: Parse)
    ensures forall e | e in TreeEdges(p) :: e.0 in AllTokens(p) && e.1 in AllTokens(p)
    ensures forall e | e in TreeEdges(p) :: exists q | q in Subtrees(p) :: exists c | c in q.dependents :: e == (q.token, c.token)
    decreases p, 1
  {
    TreeEdgesFromParentChild(p, 0);
  }

  lemma {:induction false} TreeEdgesFromParentChild(p: Parse, i: nat)
    ensures forall e | e in TreeEdgesFrom(p, i) :: e.0 in AllTokens(p) && e.1 in AllTokens(p)
    ensures forall e | e in TreeEdgesFrom(p, i) :: exists q | q in Subtrees(p) :: exists c | c in q.dependents :: e == (q.token, c.token)
    decreases p, 0, |p.dependents| - i
  {
    if i < |p.dependents| {
      var c := p.dependents[i];
      TreeEdgesAreParentChild(c);
      TreeEdgesFromParentChild(p, i + 1);
      AllTokensContains(p, i);
      SubtreesContains(p, i);
      assert c in p.dependents;
    }
  }

  /** All subtrees of a parse (the parse itself included), in pre-order. */
  function Subtrees(p: Parse): (r: seq<Parse>)
    ensures |r| > 0 && r[0] == p
    decreases p, 1
  {
    [p] + SubtreesFrom(p, 0)
  }

  function SubtreesFrom(p: Parse, i: nat): seq<Parse>
    decreases p, 0, |p.dependents| - i
  {
    if i >= |p.dependents| then [] else Subtrees(p.dependents[i]) + SubtreesFrom(p, i + 1)
  }

  lemma {:induction false} AllTokensContains(p: Parse, i: nat)
    requires i < |p.dependents|
    ensures forall t | t in AllTokens(p.dependents[i]) :: t in AllTokens(p)
    ensures forall t | t in AllTokensFrom(p, i + 1) :: t in AllTokens(p)
  {
    AllTokensFromSuffix(p, i);
    AllTokensFromSuffix(p, i + 1);
  }

  lemma {:induction false} AllTokensFromSuffix(p: Parse, i: nat)
    requires i <= |p.dependents|
    ensures forall t | t in AllTokensFrom(p, i) :: t in AllTokens(p)
    decreases i
  {
    if i > 0 {
      AllTokensFromSuffix(p, i - 1);
    }
  }

  lemma {:induction false} SubtreesContains(p: Parse, i: nat)
    requires i < |p.dependents|
    ensures forall q | q in Subtrees(p.dependents[i]) :: q in Subtrees(p)
    ensures forall q | q in SubtreesFrom(p, i + 1) :: q in Subtrees(p)
  {
    SubtreesFromSuffix(p, i);
    SubtreesFromSuffix(p, i + 1);
  }

  lemma {:induction false} SubtreesFromSuffix(p: Parse, i: nat)
    requires i <= |p.dependents|
    ensures forall q | q in SubtreesFrom(p, i) :: q in Subtrees(p)
    decreases i
  {
    if i > 0 {
      SubtreesFromSuffix(p, i - 1);
    }
  }

  /**
   * Descent through an excluded token: for a passing head A whose only
   * dependent B fails the test and has the passing leaf C as its only
   * dependent, `find_dependents` gives [C] and `find_edges` gives exactly (A, C).
   */
  lemma DescentSkipsExcluded(keep: Token -> bool, a: Token, b: Token, c: Token)
    requires keep(a) && !keep(b) && keep(c)
    ensures FindDependents(keep, Parse(a, [Parse(b, [Parse(c, [])])])) == [Parse(c, [])]
    ensures FindEdges(keep, Parse(a, [Parse(b, [Parse(c, [])])])) == [(a, c)]
  {
    var leaf := Parse(c, []);
    var mid := Parse(b, [leaf]);
    var top := Parse(a, [mid]);
    assert DependentsFrom(keep, leaf, 0) == [];
    assert DependentsFrom(keep, mid, 0) == [leaf] + DependentsFrom(keep, mid, 1);
    assert FindDependents(keep, mid) == [leaf];
    assert DependentsFrom(keep, top, 0) == FindDependents(keep, mid) + DependentsFrom(keep, top, 1);
    assert FindDependents(keep, top) == [leaf];
    assert FindEdges(keep, leaf) == HeadEdges(keep, leaf, [], 0) == [];
    assert HeadEdges(keep, top, [leaf], 0) == [(a, c)] + FindEdges(keep, leaf) + HeadEdges(keep, top, [leaf], 1);
  }

  /**
   * When the head fails the test, `find_edges` begins with every pair of its
   * filtered dependents (earlier one first) and nothing else pairs the head.
   */
  lemma ExcludedHeadPairsDependents(keep: Token -> bool, p: Parse)
    requires !keep(p.token)
    ensures var ds := TokensOf(FindDependents(keep, p));
      FindEdges(keep, p)[..|ds| * (|ds| - 1) / 2] == Pairs.Combinations(ds) &&
      forall i, j | 0 <= i < j < |ds| :: (ds[i], ds[j]) in FindEdges(keep, p)
    ensures forall e | e in FindEdges(keep, p) :: e.0 != p.token && e.1 != p.token
  {
    var ds := TokensOf(FindDependents(keep, p));
    Pairs.CombinationsComplete(ds);
  }
}

=== FILE: tokens.dfy ===
/**
 * The annotated-document token as the annotators see it. The document object,
 * its XML and the ISOcat tag taxonomy are external; a token is reduced to the
 * fields the graph builders read.
 */
module Tokens {
  import opened Wrappers

  /** Names of the ISOcat categories the filters test with `is_a`. */
  const Punctuation: string := "punctuation"
  const Verb: string := "verb"
  const Adverb: string := "adverb"

  /**
   * A part-of-speech tag: `isA` holds every category of the taxonomy the tag
   * `is_a` (its own and all its ancestors), `closed` is the tag's closed-class flag.
   */
  datatype PosTag = PosTag(isA: set<string>, closed: bool)

  /** A named entity: its class (CoNLL tags such as PER, ORG) and the IDs of its tokens. */
  datatype Entity = Entity(cls: string, tokenIds: seq<string>)

  /**
   * The semantic unit of a token: the entity it belongs to, else its lemma,
   * else its surface text. `text` is what `str()` of the unit gives.
   */
  datatype SemanticUnit =
    | EntityUnit(text: string, cls: string)
    | LemmaUnit(text: string)
    | TextUnit(text: string)

  /**
   * A token. `reference` is the coreference the token takes part in, given by
   * the tokens of that reference; `None` when the token has none.
   */
  datatype Token = Token(
    id: string,
    text: string,
    lemmaText: string,
    unit: SemanticUnit,
    pos: PosTag,
    entity: Option<Entity>,
    reference: Option<seq<Token>>)

  predicate IsPunctuation(t: Token) { Punctuation in t.pos.isA }
  predicate IsVerb(t: Token) { Verb in t.pos.isA }
  predicate IsAdverb(t: Token) { Adverb in t.pos.isA }

  /** The token attributes the options can name (`label`, `stopwords_feature`). */
  datatype TokenAttr = Text | Lemma | SemanticUnitAttr

  /**
   * `getattr(token, attr)`, with the semantic unit taken as its text: the
   * unit element is assumed to compare equal to `str()` of itself.
   */
  function Attribute(t: Token, a: TokenAttr): string
  {
    match a
    case Text => t.text
    case Lemma => t.lemmaText
    case SemanticUnitAttr => t.unit.text
  }

  /** The option value that names each token attribute. */
  function AttrName(a: TokenAttr): string
  {
    match a
    case Text => "text"
    case Lemma => "lemma"
    case SemanticUnitAttr => "semantic_unit"
  }

  /** The option value naming a token attribute; any other name has no such attribute. */
  function AttrNamed(name: string): (r: Option<TokenAttr>)
    ensures r.Some? ==> AttrName(r.value) == name
  {
    if name == "text" then Some(Text)
    else if name == "lemma" then Some(Lemma)
    else if name == "semantic_unit" then Some(SemanticUnitAttr)
    else None
  }

  /** Exactly the three attribute names are known, each naming its own attribute. */
  lemma AttrNamedInverse(a: TokenAttr, name: string)
    ensures AttrNamed(name) == Some(a) <==> AttrName(a) == name
  {
  }
}

=== FILE: tree_script.dfy ===
/**
 * The dependency-network test script (tcfnetworks/scripts/test_dependency.py):
 * its plain tree graph of a parse (`parse_to_tree`, built from the unfiltered
 * `find_dependency_edges`) and the loop over the configured methods
 * (`iter_graphs`), which builds either that tree or a dependency network.
 *
 * The tree is a TCF `graph` element read as a graph value; `find_token` is a
 * map from token IDs to token texts.
 */
module TreeScript {
  import opened Wrappers
  import opened Tokens
  import opened Graphs
  import opened ParseTree
  import DepFilters
  import Filters
  import Dependency
  import Extended

  /** A (head, dependent) pair of token IDs. */
  type IdPair = (string, string)

  /** The token IDs of tree pairs: what `find_dependency_edges` yields. */
  function IdPairs(es: seq<TokenPair>): (r: seq<IdPair>)
    ensures |r| == |es| && forall k | 0 <= k < |es| :: r[k] == (es[k].0.id, es[k].1.id)
  {
    seq(|es|, k requires 0 <= k < |es| => (es[k].0.id, es[k].1.id))
  }

  /** Whether the nodes named `x` and `y` exist and an edge joins them. */
  predicate Linked(g: Graph, x: string, y: string)
  {
    match (FindVertex(g.vertices, x), FindVertex(g.vertices, y))
    case (Some(i), Some(j)) => FindEdge(g.edges, i, j).Some?
    case _ => false
  }

  /** No edge carries an attribute: the tree's edges have no weight. */
  ghost predicate Unweighted(es: seq<Edge>)
  {
    forall k | 0 <= k < |es| :: es[k].attrs == map[]
  }

  // ---------------------------------------------------------------- the tree

  /** Find or add the nodes of both IDs of a pair: the graph and the two nodes' indices. */
  function PairNodes(g: Graph, e: IdPair): (r: (Graph, nat, nat))
  {
    var (g1, a) := FindOrAdd(g, e.0, map[]);
    var (g2, b) := FindOrAdd(g1, e.1, map[]);
    (g2, a, b)
  }

  /** One pair: find or add both nodes, labelled by token ID, then add an edge without attributes unless there is one. */
  function AddTreeEdge(g: Graph, e: IdPair): (r: Graph)
  {
    var (g2, a, b) := PairNodes(g, e);
    if FindEdge(g2.edges, a, b).None? then SetEdge(g2, a, b, map[]) else g2
  }

  /** The pair loop of `parse_to_tree`. */
  function AddTreeEdges(g: Graph, es: seq<IdPair>): Graph
    decreases |es|
  {
    if es == [] then g else AddTreeEdge(AddTreeEdges(g, es[..|es| - 1]), es[|es| - 1])
  }

  /** The tree graph of a parse before its nodes are relabelled: nodes named by token ID. */
  function TreeGraph(p: Parse): Graph
  {
    AddTreeEdges(Graph([], []), IdPairs(TreeEdges(p)))
  }

  /** Creating a node for a name keeps every link between names. */
  lemma FindOrAddLinks(g: Graph, name: string, x: string, y: string)
    requires EdgesInRange(g)
    ensures Linked(FindOrAdd(g, name, map[]).0, x, y) == Linked(g, x, y)
  {
    var (g', n) := FindOrAdd(g, name, map[]);
    if FindVertex(g.vertices, name).None? {
      var v := Vertex(name, map[]);
      if x != name { FindVertexAppendOther(g.vertices, v, x); }
      if y != name { FindVertexAppendOther(g.vertices, v, y); }
      if x == name || y == name {
        assert FindVertex(g'.vertices, name) == Some(n);
        match (FindVertex(g'.vertices, x), FindVertex(g'.vertices, y))
        case (Some(i), Some(j)) =>
          assert i == n || j == n;
          assert FindEdge(g.edges, i, j).None? by {
            forall k | 0 <= k < |g.edges| ensures !Joins(g.edges[k], i, j) { }
          }
        case _ =>
      }
    }
  }

  /** Adding an edge between two vertices that had none links their names and nothing else. */
  lemma AppendEdgeLinks(g: Graph, a: nat, b: nat, x: string, y: string)
    requires DistinctNames(g.vertices) && a < |g.vertices| && b < |g.vertices|
    requires FindEdge(g.edges, a, b).None?
    ensures Linked(SetEdge(g, a, b, map[]), x, y) <==>
      Linked(g, x, y) || SamePair(x, y, g.vertices[a].name, g.vertices[b].name)
  {
    var e := Edge(a, b, map[]);
    match (FindVertex(g.vertices, x), FindVertex(g.vertices, y))
    case (Some(i), Some(j)) =>
      FindEdgeAppend(g.edges, e, i, j);
      SamePairByName(g.vertices, a, b, x, y);
    case _ =>
  }

  /** With distinct names, an edge between two vertices links their names. */
  lemma EdgeLinksNames(g: Graph, a: nat, b: nat)
    requires DistinctNames(g.vertices) && a < |g.vertices| && b < |g.vertices|
    requires FindEdge(g.edges, a, b).Some?
    ensures Linked(g, g.vertices[a].name, g.vertices[b].name)
    ensures Linked(g, g.vertices[b].name, g.vertices[a].name)
  {
    FindOwnName(g.vertices, a);
    FindOwnName(g.vertices, b);
    FindEdgeSymmetric(g.edges, a, b);
  }

  /** Finding or adding a pair's nodes keeps the edges and the shape, adds the two IDs, and gives their nodes. */
  lemma PairNodesKeep(g: Graph, e: IdPair)
    requires Simple(g)
    ensures var (g2, a, b) := PairNodes(g, e);
      g2.edges == g.edges && Simple(g2) && Names(g2) == Names(g) + {e.0, e.1} &&
      a < |g2.vertices| && b < |g2.vertices| && g2.vertices[a].name == e.0 && g2.vertices[b].name == e.1
  {
    var (g1, a) := FindOrAdd(g, e.0, map[]);
    FindOrAddSimple(g, e.0, map[]);
    FindOrAddSimple(g1, e.1, map[]);
  }

  /** Finding or adding a pair's nodes keeps every link. */
  lemma PairNodesLinks(g: Graph, e: IdPair, x: string, y: string)
    requires Simple(g)
    ensures Linked(PairNodes(g, e).0, x, y) == Linked(g, x, y)
  {
    var (g1, a) := FindOrAdd(g, e.0, map[]);
    FindOrAddSimple(g, e.0, map[]);
    FindOrAddLinks(g, e.0, x, y);
    FindOrAddLinks(g1, e.1, x, y);
  }

  /** One pair links its two IDs, and no other pair of names gains or loses a link. */
  lemma AddTreeEdgeLinks(g: Graph, e: IdPair, x: string, y: string)
    requires Simple(g)
    ensures Linked(AddTreeEdge(g, e), x, y) <==> Linked(g, x, y) || SamePair(e.0, e.1, x, y)
  {
    var (g2, a, b) := PairNodes(g, e);
    PairNodesKeep(g, e);
    PairNodesLinks(g, e, x, y);
    if FindEdge(g2.edges, a, b).None? {
      AppendEdgeLinks(g2, a, b, x, y);
    } else if SamePair(e.0, e.1, x, y) {
      EdgeLinksNames(g2, a, b);
    }
  }

  /** One pair keeps the graph's shape and adds its two IDs to the names. */
  lemma AddTreeEdgeShape(g: Graph, e: IdPair)
    requires Simple(g)
    ensures Simple(AddTreeEdge(g, e))
    ensures Names(AddTreeEdge(g, e)) == Names(g) + {e.0, e.1}
  {
    var (g2, a, b) := PairNodes(g, e);
    PairNodesKeep(g, e);
    if FindEdge(g2.edges, a, b).None? {
      SetEdgeValid(g2, a, b, map[]);
    }
  }

  /** One pair adds at most an edge without attributes. */
  lemma AddTreeEdgeUnweighted(g: Graph, e: IdPair)
    requires Unweighted(g.edges)
    ensures Unweighted(AddTreeEdge(g, e).edges)
  {
    var (g2, a, b) := PairNodes(g, e);
    if FindEdge(g2.edges, a, b).None? {
      assert SetEdge(g2, a, b, map[]).edges == g2.edges + [Edge(a, b, map[])];
    }
  }

  /** The IDs of a sequence of pairs. */
  function PairIdSet(es: seq<IdPair>): set<string>
  {
    (set k | 0 <= k < |es| :: es[k].0) + (set k | 0 <= k < |es| :: es[k].1)
  }

  lemma PairIdSetSnoc(es: seq<IdPair>)
    requires es != []
    ensures PairIdSet(es) == PairIdSet(es[..|es| - 1]) + {es[|es| - 1].0, es[|es| - 1].1}
  {
    var init := es[..|es| - 1];
    forall k | 0 <= k < |init| ensures init[k] == es[k] { }
  }

  /**
   * The pair loop keeps the graph simple (one node per ID, at most one edge
   * per pair) with edges that carry no attributes; the names gain every ID of
   * the pairs.
   */
  lemma {:induction false} AddTreeEdgesShape(g: Graph, es: seq<IdPair>)
    requires Simple(g)
    ensures Simple(AddTreeEdges(g, es))
    ensures Unweighted(g.edges) ==> Unweighted(AddTreeEdges(g, es).edges)
    ensures Names(AddTreeEdges(g, es)) == Names(g) + PairIdSet(es)
    decreases |es|
  {
    if es != [] {
      var init := es[..|es| - 1];
      AddTreeEdgesShape(g, init);
      AddTreeEdgeShape(AddTreeEdges(g, init), es[|es| - 1]);
      if Unweighted(g.edges) {
        AddTreeEdgeUnweighted(AddTreeEdges(g, init), es[|es| - 1]);
      }
      PairIdSetSnoc(es);
    }
  }

  /** Whether some pair of `es` joins `x` and `y`, in either order. */
  predicate AnyJoins(es: seq<IdPair>, x: string, y: string)
  {
    exists k | 0 <= k < |es| :: SamePair(es[k].0, es[k].1, x, y)
  }

  lemma AnyJoinsSnoc(es: seq<IdPair>, x: string, y: string)
    requires es != []
    ensures AnyJoins(es, x, y) <==>
      AnyJoins(es[..|es| - 1], x, y) || SamePair(es[|es| - 1].0, es[|es| - 1].1, x, y)
  {
    var init := es[..|es| - 1];
    if AnyJoins(es, x, y) {
      var k :| 0 <= k < |es| && SamePair(es[k].0, es[k].1, x, y);
      if k < |init| { assert init[k] == es[k]; }
    }
    if AnyJoins(init, x, y) {
      var k :| 0 <= k < |init| && SamePair(init[k].0, init[k].1, x, y);
      assert es[k] == init[k];
    }
  }

  /** After the pair loop two names are linked exactly when they were, or some pair joins them. */
  lemma {:induction false} AddTreeEdgesLinks(g: Graph, es: seq<IdPair>, x: string, y: string)
    requires Simple(g)
    ensures Linked(AddTreeEdges(g, es), x, y) <==> Linked(g, x, y) || AnyJoins(es, x, y)
    decreases |es|
  {
    if es != [] {
      var init := es[..|es| - 1];
      AddTreeEdgesLinks(g, init, x, y);
      AddTreeEdgesShape(g, init);
      AddTreeEdgeLinks(AddTreeEdges(g, init), es[|es| - 1], x, y);
      AnyJoinsSnoc(es, x, y);
    }
  }

  // ------------------------------------------------------- the tree of a parse

  /** The IDs of the tokens of a parse. */
  function TreeIds(p: Parse): set<string>
  {
    set t | t in AllTokens(p) :: t.id
  }

  /** `x` and `y` are the IDs of a head and one of its direct dependents, in either order. */
  ghost predicate ParentChild(p: Parse, x: string, y: string)
  {
    exists q | q in Subtrees(p) :: exists c | c in q.dependents :: SamePair(q.token.id, c.token.id, x, y)
  }

  /** Every token but the root is the dependent of some pair `find_dependency_edges` yields. */
  lemma {:induction false} TreeEdgesCover(p: Parse)
    ensures forall t | t in AllTokens(p) :: t == p.token || exists e | e in TreeEdges(p) :: e.1 == t
    decreases p, 1
  {
    TreeEdgesFromCover(p, 0);
  }

  lemma {:induction false} TreeEdgesFromCover(p: Parse, i: nat)
    ensures forall t | t in AllTokensFrom(p, i) :: exists e | e in TreeEdgesFrom(p, i) :: e.1 == t
    decreases p, 0, |p.dependents| - i
  {
    if i < |p.dependents| {
      var c := p.dependents[i];
      TreeEdgesCover(c);
      TreeEdgesFromCover(p, i + 1);
      var here := [(p.token, c.token)];
      var below := TreeEdges(c);
      var rest := TreeEdgesFrom(p, i + 1);
      assert TreeEdgesFrom(p, i) == here + below + rest;
      assert AllTokensFrom(p, i) == AllTokens(c) + AllTokensFrom(p, i + 1);
      forall t | t in AllTokensFrom(p, i) ensures exists e | e in TreeEdgesFrom(p, i) :: e.1 == t {
        if t in AllTokens(c) {
          if t == c.token {
            assert here[0] in TreeEdgesFrom(p, i);
          } else {
            var e :| e in below && e.1 == t;
            assert e in TreeEdgesFrom(p, i);
          }
        } else {
          var e :| e in rest && e.1 == t;
          assert e in TreeEdgesFrom(p, i);
        }
      }
    }
  }

  /** Every head and each of its direct dependents are a pair `find_dependency_edges` yields. */
  lemma {:induction false} TreeEdgesComplete(p: Parse)
    ensures forall q | q in Subtrees(p) :: forall c | c in q.dependents :: (q.token, c.token) in TreeEdges(p)
    decreases p, 1
  {
    TreeEdgesFromComplete(p, 0);
    assert Subtrees(p) == [p] + SubtreesFrom(p, 0);
    forall c | c in p.dependents ensures (p.token, c.token) in TreeEdges(p) {
      var j :| 0 <= j < |p.dependents| && p.dependents[j] == c;
    }
  }

  lemma {:induction false} TreeEdgesFromComplete(p: Parse, i: nat)
    ensures forall q | q in SubtreesFrom(p, i) :: forall c | c in q.dependents :: (q.token, c.token) in TreeEdgesFrom(p, i)
    ensures forall j | i <= j < |p.dependents| :: (p.token, p.dependents[j].token) in TreeEdgesFrom(p, i)
    decreases p, 0, |p.dependents| - i
  {
    if i < |p.dependents| {
      var c := p.dependents[i];
      TreeEdgesComplete(c);
      TreeEdgesFromComplete(p, i + 1);
      var here := [(p.token, c.token)];
      var rest := TreeEdgesFrom(p, i + 1);
      assert TreeEdgesFrom(p, i) == here + TreeEdges(c) + rest;
      assert SubtreesFrom(p, i) == Subtrees(c) + SubtreesFrom(p, i + 1);
    }
  }

  /** The ID pairs of the tree's pairs join `x` and `y` exactly when they are a head and one of its dependents. */
  lemma TreePairsJoin(p: Parse, x: string, y: string)
    ensures AnyJoins(IdPairs(TreeEdges(p)), x, y) <==> ParentChild(p, x, y)
  {
    var te := TreeEdges(p);
    var es := IdPairs(te);
    if AnyJoins(es, x, y) {
      var k :| 0 <= k < |es| && SamePair(es[k].0, es[k].1, x, y);
      TreeEdgesAreParentChild(p);
      assert te[k] in te;
      var q :| q in Subtrees(p) && exists c | c in q.dependents :: te[k] == (q.token, c.token);
      var c :| c in q.dependents && te[k] == (q.token, c.token);
      assert SamePair(q.token.id, c.token.id, x, y);
    }
    if ParentChild(p, x, y) {
      var q :| q in Subtrees(p) && exists c | c in q.dependents :: SamePair(q.token.id, c.token.id, x, y);
      var c :| c in q.dependents && SamePair(q.token.id, c.token.id, x, y);
      TreeEdgesComplete(p);
      var k :| 0 <= k < |te| && te[k] == (q.token, c.token);
      assert SamePair(es[k].0, es[k].1, x, y);
    }
  }

  /** The tree graph is simple and its edges carry no attributes. */
  lemma TreeShape(p: Parse)
    ensures Simple(TreeGraph(p)) && Unweighted(TreeGraph(p).edges)
  {
    AddTreeEdgesShape(Graph([], []), IdPairs(TreeEdges(p)));
  }

  /** Two token IDs are linked in the tree exactly when they are a head and one of its direct dependents. */
  lemma TreeLinks(p: Parse, x: string, y: string)
    ensures Linked(TreeGraph(p), x, y) <==> ParentChild(p, x, y)
  {
    AddTreeEdgesLinks(Graph([], []), IdPairs(TreeEdges(p)), x, y);
    TreePairsJoin(p, x, y);
  }

  /** Each ID of a tree pair is the ID of a token of the parse. */
  lemma TreePairIds(p: Parse)
    ensures PairIdSet(IdPairs(TreeEdges(p))) <= TreeIds(p)
  {
    var te := TreeEdges(p);
    var es := IdPairs(te);
    TreeEdgesAreParentChild(p);
    forall x | x in PairIdSet(es) ensures x in TreeIds(p) {
      var k :| 0 <= k < |es| && (x == es[k].0 || x == es[k].1);
      assert te[k] in te;
    }
  }

  /** When the root has a dependent, each token's ID is an ID of a tree pair. */
  lemma TreeIdsPaired(p: Parse)
    requires p.dependents != []
    ensures TreeIds(p) <= PairIdSet(IdPairs(TreeEdges(p)))
  {
    var te := TreeEdges(p);
    var es := IdPairs(te);
    TreeEdgesCover(p);
    var c := p.dependents[0];
    assert te == TreeEdgesFrom(p, 0) == [(p.token, c.token)] + TreeEdges(c) + TreeEdgesFrom(p, 1);
    forall t | t in AllTokens(p) ensures t.id in PairIdSet(es) {
      if t == p.token {
        assert es[0].0 == t.id;
      } else {
        var e :| e in te && e.1 == t;
        var k :| 0 <= k < |te| && te[k] == e;
        assert es[k].1 == t.id;
      }
    }
  }

  /** The tree has one node per token ID of the parse, none for a parse without dependents. */
  lemma TreeNames(p: Parse)
    ensures Names(TreeGraph(p)) == if p.dependents == [] then {} else TreeIds(p)
  {
    var es := IdPairs(TreeEdges(p));
    AddTreeEdgesShape(Graph([], []), es);
    if p.dependents == [] {
      assert TreeEdges(p) == [];
    } else {
      TreePairIds(p);
      TreeIdsPaired(p);
    }
  }

  /** Every edge of the tree joins the nodes of a head and one of its direct dependents. */
  lemma TreeEdgesJoinParentChild(p: Parse)
    ensures var g := TreeGraph(p);
      forall k | 0 <= k < |g.edges| ::
        g.edges[k].source < |g.vertices| && g.edges[k].target < |g.vertices| &&
        ParentChild(p, g.vertices[g.edges[k].source].name, g.vertices[g.edges[k].target].name)
  {
    var g := TreeGraph(p);
    TreeShape(p);
    forall k | 0 <= k < |g.edges|
      ensures g.edges[k].source < |g.vertices| && g.edges[k].target < |g.vertices| &&
        ParentChild(p, g.vertices[g.edges[k].source].name, g.vertices[g.edges[k].target].name)
    {
      var i, j := g.edges[k].source, g.edges[k].target;
      var x, y := g.vertices[i].name, g.vertices[j].name;
      TreeLinks(p, x, y);
      FindOwnName(g.vertices, i);
      FindOwnName(g.vertices, j);
      assert Joins(g.edges[k], i, j);
    }
  }

  // ------------------------------------------------------------ relabelling

  /** Every node name (a token ID) is a key of `corpus`. */
  ghost predicate Resolvable(g: Graph, corpus: map<string, string>)
  {
    forall k | 0 <= k < |g.vertices| :: g.vertices[k].name in corpus
  }

  /** The node loop at the end of `parse_to_tree`: each node's token ID replaced by that token's text. */
  function Relabel(g: Graph, corpus: map<string, string>): (r: Graph)
    requires Resolvable(g, corpus)
  {
    Graph(seq(|g.vertices|, k requires 0 <= k < |g.vertices| => g.vertices[k].(name := corpus[g.vertices[k].name])), g.edges)
  }

  /**
   * Relabelling keeps the nodes, their order and attributes and every edge,
   * and names each node by the text of the token whose ID it had.
   */
  lemma RelabelKeeps(g: Graph, corpus: map<string, string>)
    requires Resolvable(g, corpus)
    ensures var r := Relabel(g, corpus);
      r.edges == g.edges && |r.vertices| == |g.vertices| &&
      forall k | 0 <= k < |g.vertices| :: r.vertices[k].attrs == g.vertices[k].attrs && r.vertices[k].name == corpus[g.vertices[k].name]
    ensures Names(Relabel(g, corpus)) == set a | a in Names(g) :: corpus[a]
  {
    var r := Relabel(g, corpus);
    forall b | b in Names(r) ensures b in set a | a in Names(g) :: corpus[a] {
      var k :| 0 <= k < |r.vertices| && r.vertices[k].name == b;
      assert g.vertices[k].name in Names(g);
    }
    forall a | a in Names(g) ensures corpus[a] in Names(r) {
      var k :| 0 <= k < |g.vertices| && g.vertices[k].name == a;
      assert r.vertices[k].name == corpus[a];
    }
  }

  /** Every token ID of the parse has a token in `corpus`. */
  ghost predicate Covers(p: Parse, corpus: map<string, string>)
  {
    forall t | t in AllTokens(p) :: t.id in corpus
  }

  /** The nodes of the tree can be relabelled when the corpus knows every token of the parse. */
  lemma TreeResolvable(p: Parse, corpus: map<string, string>)
    requires Covers(p, corpus)
    ensures Resolvable(TreeGraph(p), corpus)
  {
    var g := TreeGraph(p);
    TreeNames(p);
    forall k | 0 <= k < |g.vertices| ensures g.vertices[k].name in corpus {
      assert g.vertices[k].name in Names(g);
    }
  }

  /** `parse_to_tree`: the tree graph of a parse, each node named by its token's text. */
  function TreeOf(p: Parse, corpus: map<string, string>): (r: Graph)
    requires Covers(p, corpus)
    ensures Names(r) == if p.dependents == [] then {} else set t | t in AllTokens(p) :: corpus[t.id]
  {
    TreeResolvable(p, corpus);
    TreeNames(p);
    RelabelKeeps(TreeGraph(p), corpus);
    var r := Relabel(TreeGraph(p), corpus);
    assert Names(r) == if p.dependents == [] then {} else set t | t in AllTokens(p) :: corpus[t.id];
    r
  }

  // ------------------------------------------------------------- the builder

  /** One pair of `parse_to_tree`'s loop, on a graph updated in place. */
  method AddTreeEdgeTo(g: GraphStore, e: IdPair)
    modifies g
    ensures g.Value() == AddTreeEdge(old(g.Value()), e)
  {
    var a := g.FindOrAddVertex(e.0, map[]);
    var b := g.FindOrAddVertex(e.1, map[]);
    if FindEdge(g.edges, a, b).None? {
      g.PutEdge(a, b, map[]);
    }
  }

  /** The node loop of `parse_to_tree`, renaming each node in place. */
  method RelabelNodes(g: GraphStore, corpus: map<string, string>)
    requires Resolvable(g.Value(), corpus)
    modifies g
    ensures g.Value() == Relabel(old(g.Value()), corpus)
  {
    ghost var g0 := g.Value();
    for k := 0 to |g.vertices|
      invariant |g.vertices| == |g0.vertices| && g.edges == g0.edges
      invariant forall m | 0 <= m < |g0.vertices| ::
        g.vertices[m] == if m < k then g0.vertices[m].(name := corpus[g0.vertices[m].name]) else g0.vertices[m]
    {
      g.SetVertexName(k, corpus[g.vertices[k].name]);
    }
  }

  /** The pair loop of `parse_to_tree`, on the graph in place. */
  method AddTreeEdgesTo(g: GraphStore, es: seq<IdPair>)
    modifies g
    ensures g.Value() == AddTreeEdges(old(g.Value()), es)
  {
    ghost var g0 := g.Value();
    for k := 0 to |es|
      invariant g.Value() == AddTreeEdges(g0, es[..k])
    {
      AddTreeEdgeTo(g, es[k]);
      assert AddTreeEdges(g0, es[..k + 1]) == AddTreeEdge(AddTreeEdges(g0, es[..k]), es[k]) by {
        assert es[..k + 1][..k] == es[..k];
      }
    }
    assert es[..|es|] == es;
  }

  /** `parse_to_tree`: a new graph holding the tree of `p`, its nodes named by token text. */
  method ParseToTree(p: Parse, corpus: map<string, string>) returns (g: GraphStore)
    requires Covers(p, corpus)
    ensures fresh(g) && g.Value() == TreeOf(p, corpus)
  {
    g := new GraphStore.Empty();
    AddTreeEdgesTo(g, IdPairs(TreeEdges(p)));
    TreeResolvable(p, corpus);
    RelabelNodes(g, corpus);
  }

  // ---------------------------------------------------- method names split on ':'

  /** Python's `str.split(':')`: the pieces between colons, an empty piece included. */
  function Split(s: string): (r: seq<string>)
    ensures |r| >= 1
    decreases |s|
  {
    if s == [] then [[]]
    else
      var rest := Split(s[1..]);
      if s[0] == ':' then [[]] + rest else [[s[0]] + rest[0]] + rest[1..]
  }

  /** `':'.join(parts)`. */
  function Join(parts: seq<string>): string
    requires |parts| >= 1
    decreases |parts|
  {
    if |parts| == 1 then parts[0] else parts[0] + [':'] + Join(parts[1..])
  }

  predicate NoColon(s: string)
  {
    ':' !in s
  }

  /** Joining the pieces gives back the string. */
  lemma {:induction false} SplitJoin(s: string)
    ensures Join(Split(s)) == s
    decreases |s|
  {
    if s != [] {
      var rest := Split(s[1..]);
      SplitJoin(s[1..]);
      if s[0] == ':' {
        assert Split(s) == [[]] + rest;
        JoinCons([], rest);
      } else {
        assert Split(s) == [[s[0]] + rest[0]] + rest[1..];
        JoinHead(s[0], rest);
      }
      assert s == [s[0]] + s[1..];
    }
  }

  lemma JoinCons(x: string, parts: seq<string>)
    requires |parts| >= 1
    ensures Join([x] + parts) == x + [':'] + Join(parts)
  {
    assert ([x] + parts)[1..] == parts;
  }

  /** A character put before the first piece comes first in the joined string. */
  lemma JoinHead(c: char, parts: seq<string>)
    requires |parts| >= 1
    ensures Join([[c] + parts[0]] + parts[1..]) == [c] + Join(parts)
  {
    var h, tail := [c] + parts[0], parts[1..];
    var q := [h] + tail;
    assert q[0] == h && q[1..] == tail && |q| == |parts|;
    if |parts| > 1 {
      var j := Join(tail);
      assert Join(q) == h + [':'] + j;
      assert Join(parts) == parts[0] + [':'] + j;
      Regroup([c], parts[0], [':'], j);
      assert Join(q) == [c] + Join(parts);
    } else {
      assert Join(q) == h;
      assert Join(parts) == parts[0];
      assert Join(q) == [c] + Join(parts);
    }
  }

  lemma Regroup(a: string, b: string, c: string, d: string)
    ensures a + b + c + d == a + (b + c + d)
  {
  }

  /** No piece holds a colon. */
  lemma {:induction false} SplitNoColon(s: string)
    ensures forall k | 0 <= k < |Split(s)| :: NoColon(Split(s)[k])
    decreases |s|
  {
    if s != [] {
      SplitNoColon(s[1..]);
      var rest := Split(s[1..]);
      if s[0] != ':' {
        assert NoColon([s[0]] + rest[0]);
      }
    }
  }

  /** A colon-free prefix joins the first piece of what follows it. */
  lemma {:induction false} SplitColonFree(x: string, t: string)
    requires NoColon(x)
    ensures Split(x + t) == [x + Split(t)[0]] + Split(t)[1..]
    decreases |x|
  {
    if x != [] {
      SplitColonFree(x[1..], t);
      var rest := Split(x[1..] + t);
      assert (x + t)[1..] == x[1..] + t;
      assert Split(x + t) == [[x[0]] + rest[0]] + rest[1..];
      assert [x[0]] + (x[1..] + Split(t)[0]) == x + Split(t)[0];
    } else {
      assert x + t == t && x + Split(t)[0] == Split(t)[0];
      assert Split(t) == [Split(t)[0]] + Split(t)[1..];
    }
  }

  /** Splitting colon-free pieces joined by colons gives back the pieces. */
  lemma {:induction false} JoinSplit(parts: seq<string>)
    requires |parts| >= 1 && forall k | 0 <= k < |parts| :: NoColon(parts[k])
    ensures Split(Join(parts)) == parts
    decreases |parts|
  {
    var x := parts[0];
    if |parts| == 1 {
      SplitColonFree(x, []);
      assert x + [] == x;
    } else {
      var j := Join(parts[1..]);
      JoinSplit(parts[1..]);
      SplitColonFree(x, [':'] + j);
      assert ([':'] + j)[1..] == j;
      assert Split([':'] + j) == [[]] + Split(j);
      assert x + [] == x;
      assert x + [':'] + j == x + ([':'] + j);
    }
  }

  /** There is one piece more than there are colons. */
  lemma {:induction false} SplitCount(s: string)
    ensures |Split(s)| == multiset(s)[':'] + 1
    decreases |s|
  {
    if s != [] {
      SplitCount(s[1..]);
      assert s == [s[0]] + s[1..];
      assert multiset(s) == multiset{s[0]} + multiset(s[1..]);
    }
  }

  // ------------------------------------------------------------ `iter_graphs`

  /** The method that yields the plain tree instead of a network. */
  const TreeMethod: string := "dependency_tree"

  /** The script's default `methods` option. */
  const DefaultMethods: seq<string> := ["dependency_tree", "lexical:dependency:lemma", "semantic:semantic:semantic_unit"]

  /** What one method yields: the tree (a TCF graph) or a dependency network. */
  datatype Output = Tree(tree: Graph) | Network(network: Graph)

  /** Why the method loop stops: a method name not of three pieces, an unknown token test, or an unknown token attribute as label. */
  datatype ScriptError =
    | Unpack(methodName: string)
    | Config(error: Filters.ConfigError)
    | NoAttribute(attribute: string)

  /** The settings a method name writes: the `nodes`, `edges` and `label` options. */
  datatype Settings = Settings(nodes: Option<string>, edges: Option<string>, labelName: string)

  /**
   * The network `parse_to_graph` builds (on no earlier graph) under the token
   * test `test` and the label `labelName`: an unknown test ends the run before
   * any edge, an unknown label only once an edge needs a node.
   */
  function NetworkFor(p: Parse, test: string, labelName: string, distance: int): (r: Result<Graph, ScriptError>)
    ensures DepFilters.ExtendedPolicyNamed(test).None? <==> r == Failure(Config(Filters.UnsupportedMethod(test)))
    ensures DepFilters.ExtendedPolicyNamed(test).Some? && AttrNamed(labelName).Some? ==>
      r == Success(Extended.ParseGraph(p, DepFilters.ExtendedPolicyNamed(test).value, AttrNamed(labelName).value, distance))
    ensures DepFilters.ExtendedPolicyNamed(test).Some? && AttrNamed(labelName).None? ==>
      (r == Failure(NoAttribute(labelName)) <==> FindEdges(Dependency.Keep(DepFilters.ExtendedPolicyNamed(test).value), p) != []) &&
      (r.Success? ==> r.value == Graph([], []))
  {
    match DepFilters.ExtendedPolicyNamed(test)
    case None => Failure(Config(Filters.UnsupportedMethod(test)))
    case Some(policy) =>
      match AttrNamed(labelName)
      case Some(key) => Success(Extended.ParseGraph(p, policy, key, distance))
      case None =>
        if FindEdges(Dependency.Keep(policy), p) == [] then Success(Graph([], [])) else Failure(NoAttribute(labelName))
  }

  /** What `iter_graphs` yields for one method name, under the worker's token test `test`. */
  function Step(p: Parse, corpus: map<string, string>, test: string, distance: int, m: string): Result<Output, ScriptError>
    requires Covers(p, corpus)
  {
    if m == TreeMethod then Success(Tree(TreeOf(p, corpus)))
    else
      var parts := Split(m);
      if |parts| != 3 then Failure(Unpack(m))
      else
        match NetworkFor(p, test, parts[2], distance)
        case Success(g) => Success(Network(g))
        case Failure(e) => Failure(e)
  }

  /** The settings after one method name: a name of three pieces overwrites all three; the tree and a failed unpacking leave them. */
  function SettingsAfter(s: Settings, m: string): Settings
  {
    if m == TreeMethod then s
    else
      var parts := Split(m);
      if |parts| != 3 then s else Settings(Some(parts[0]), Some(parts[1]), parts[2])
  }

  /** A method name of three colon-free pieces sets the nodes, edges and label options to them, in that order. */
  lemma SettingsAfterPieces(s: Settings, nodes: string, edges: string, labelName: string)
    requires NoColon(nodes) && NoColon(edges) && NoColon(labelName)
    ensures SettingsAfter(s, Join([nodes, edges, labelName])) == Settings(Some(nodes), Some(edges), labelName)
  {
    var m := Join([nodes, edges, labelName]);
    JoinSplit([nodes, edges, labelName]);
    assert m[|nodes|] == ':' by {
      assert [nodes, edges, labelName][1..] == [edges, labelName];
      assert m == nodes + [':'] + Join([edges, labelName]);
    }
    assert m != TreeMethod by {
      assert ':' in m;
      assert ':' !in TreeMethod;
    }
  }

  /** A method name without exactly two colons leaves the settings as they were. */
  lemma SettingsAfterKept(s: Settings, m: string)
    requires multiset(m)[':'] != 2
    ensures SettingsAfter(s, m) == s
  {
    SplitCount(m);
  }

  /**
   * The whole method loop: the (method, graph) pairs yielded, the error that
   * stops it if any, and the settings it leaves.
   */
  function Run(p: Parse, corpus: map<string, string>, test: string, distance: int, s: Settings, ms: seq<string>):
    (seq<(string, Output)>, Option<ScriptError>, Settings)
    requires Covers(p, corpus)
    decreases |ms|
  {
    if ms == [] then ([], None, s)
    else
      var s1 := SettingsAfter(s, ms[0]);
      match Step(p, corpus, test, distance, ms[0])
      case Failure(e) => ([], Some(e), s1)
      case Success(o) =>
        var r := Run(p, corpus, test, distance, s1, ms[1..]);
        ([(ms[0], o)] + r.0, r.1, r.2)
  }

  /**
   * The loop yields the methods' graphs in order, each paired with its name;
   * it stops at the first method that fails, with that method's error, and
   * runs to the end when none fails.
   */
  lemma {:induction false} RunYields(p: Parse, corpus: map<string, string>, test: string, distance: int, s: Settings, ms: seq<string>)
    requires Covers(p, corpus)
    ensures var r := Run(p, corpus, test, distance, s, ms);
      |r.0| <= |ms| &&
      (forall k | 0 <= k < |r.0| :: Step(p, corpus, test, distance, ms[k]).Success? &&
        r.0[k] == (ms[k], Step(p, corpus, test, distance, ms[k]).value)) &&
      (r.1.None? <==> |r.0| == |ms|) &&
      (r.1.Some? ==> Step(p, corpus, test, distance, ms[|r.0|]) == Failure(r.1.value))
    decreases |ms|
  {
    if ms != [] {
      var s1 := SettingsAfter(s, ms[0]);
      if Step(p, corpus, test, distance, ms[0]).Success? {
        RunYields(p, corpus, test, distance, s1, ms[1..]);
        var r := Run(p, corpus, test, distance, s, ms);
        var r1 := Run(p, corpus, test, distance, s1, ms[1..]);
        assert r.0 == [(ms[0], Step(p, corpus, test, distance, ms[0]).value)] + r1.0;
        forall k | 1 <= k < |r.0| ensures r.0[k] == r1.0[k - 1] && ms[k] == ms[1..][k - 1] { }
      }
    }
  }

  /**
   * The first two pieces of a method name do not matter: a name `a:b:l`
   * yields the network of the worker's own token test labelled by `l`,
   * whatever `a` and `b` say.
   */
  lemma NetworkIgnoresFilterFields(p: Parse, corpus: map<string, string>, test: string, distance: int, a: string, b: string, l: string)
    requires Covers(p, corpus)
    requires NoColon(a) && NoColon(b) && NoColon(l)
    ensures var n := NetworkFor(p, test, l, distance);
      Step(p, corpus, test, distance, Join([a, b, l])) == if n.Success? then Success(Network(n.value)) else Failure(n.error)
  {
    var parts := [a, b, l];
    JoinSplit(parts);
    var m := Join(parts);
    assert Join(parts[1..]) == b + [':'] + l;
    assert m[|a|] == ':';
    assert ':' !in TreeMethod;
  }

  /** The default `lexical:dependency:lemma` is the three pieces `lexical`, `dependency` and `lemma`. */
  lemma DefaultLexicalPieces()
    ensures DefaultMethods[1] == Join(["lexical", "dependency", "lemma"])
    ensures NoColon("lexical") && NoColon("dependency") && NoColon("lemma")
  {
    var a, b, l := "lexical", "dependency", "lemma";
    assert [a, b, l][1..] == [b, l];
    assert Join([b, l]) == b + [':'] + l;
  }

  /** Of the default methods, `lexical:dependency:lemma` builds the worker's own network labelled by lemma. */
  lemma DefaultLexicalNetwork(p: Parse, corpus: map<string, string>, test: string, distance: int)
    requires Covers(p, corpus)
    requires DepFilters.ExtendedPolicyNamed(test).Some?
    ensures Step(p, corpus, test, distance, DefaultMethods[1]) ==
      Success(Network(Extended.ParseGraph(p, DepFilters.ExtendedPolicyNamed(test).value, Lemma, distance)))
  {
    DefaultLexicalPieces();
    NetworkIgnoresFilterFields(p, corpus, test, distance, "lexical", "dependency", "lemma");
    assert AttrNamed("lemma") == Some(Lemma);
  }

  /** One step of the method loop that yields a graph, as the loop's invariant needs it. */
  lemma RunNext(p: Parse, corpus: map<string, string>, test: string, distance: int, s0: Settings,
                out: seq<(string, Output)>, s: Settings, ms: seq<string>, i: nat)
    requires Covers(p, corpus) && i < |ms| && Step(p, corpus, test, distance, ms[i]).Success?
    requires var r := Run(p, corpus, test, distance, s, ms[i..]); Run(p, corpus, test, distance, s0, ms) == (out + r.0, r.1, r.2)
    ensures var r := Run(p, corpus, test, distance, SettingsAfter(s, ms[i]), ms[i + 1..]);
      Run(p, corpus, test, distance, s0, ms) == (out + [(ms[i], Step(p, corpus, test, distance, ms[i]).value)] + r.0, r.1, r.2)
  {
    assert ms[i..][0] == ms[i] && ms[i..][1..] == ms[i + 1..];
    var r := Run(p, corpus, test, distance, SettingsAfter(s, ms[i]), ms[i + 1..]);
    var y := [(ms[i], Step(p, corpus, test, distance, ms[i]).value)];
    assert out + (y + r.0) == out + y + r.0;
  }

  /** A step of the method loop that fails ends the loop with that step's error. */
  lemma RunStop(p: Parse, corpus: map<string, string>, test: string, distance: int, s0: Settings,
                out: seq<(string, Output)>, s: Settings, ms: seq<string>, i: nat)
    requires Covers(p, corpus) && i < |ms| && Step(p, corpus, test, distance, ms[i]).Failure?
    requires var r := Run(p, corpus, test, distance, s, ms[i..]); Run(p, corpus, test, distance, s0, ms) == (out + r.0, r.1, r.2)
    ensures Run(p, corpus, test, distance, s0, ms) == (out, Some(Step(p, corpus, test, distance, ms[i]).error), SettingsAfter(s, ms[i]))
  {
    assert ms[i..][0] == ms[i];
    assert out + [] == out;
  }

  /** `parse_to_graph` with no earlier graph, under a label that names a token attribute or not. */
  method ParseToNetwork(p: Parse, test: string, labelName: string, distance: int) returns (r: Result<Graph, ScriptError>)
    ensures r == NetworkFor(p, test, labelName, distance)
  {
    var policy := DepFilters.ExtendedPolicyNamed(test);
    if policy.None? {
      return Failure(Config(Filters.UnsupportedMethod(test)));
    }
    var key := AttrNamed(labelName);
    if key.None? {
      if FindEdges(Dependency.Keep(policy.value), p) == [] {
        return Success(Graph([], []));
      }
      return Failure(NoAttribute(labelName));
    }
    var res := Extended.ParseToGraph(p, null, test, key.value, distance);
    return Success(res.value.Value());
  }

  /** The test script's worker: the extended dependency worker's options and the method list. */
  class ComparingWorker {
    /** The token test (`method` option), which the method loop never changes. */
    var test: string
    var distance: int
    var methods: seq<string>
    var nodes: Option<string>
    var edges: Option<string>
    var labelName: string

    /** The default options; `nodes` and `edges` are unset until a method name sets them. */
    constructor Default()
      ensures test == Extended.DefaultMethod && distance == Extended.DefaultDistance && labelName == "semantic_unit"
      ensures methods == DefaultMethods && nodes == None && edges == None
    {
      test := Extended.DefaultMethod;
      distance := Extended.DefaultDistance;
      methods := DefaultMethods;
      nodes, edges := None, None;
      labelName := "semantic_unit";
    }

    /** The body of `iter_graphs` for one method name: its graph or error, and the settings it writes. */
    method GraphOf(p: Parse, corpus: map<string, string>, m: string) returns (r: Result<Output, ScriptError>)
      requires Covers(p, corpus)
      modifies this
      ensures test == old(test) && distance == old(distance) && methods == old(methods)
      ensures r == Step(p, corpus, test, distance, m)
      ensures Settings(nodes, edges, labelName) == SettingsAfter(Settings(old(nodes), old(edges), old(labelName)), m)
    {
      if m == TreeMethod {
        var t := ParseToTree(p, corpus);
        return Success(Tree(t.Value()));
      }
      var parts := Split(m);
      if |parts| != 3 {
        return Failure(Unpack(m));
      }
      nodes, edges, labelName := Some(parts[0]), Some(parts[1]), parts[2];
      var g := ParseToNetwork(p, test, labelName, distance);
      if g.Failure? {
        return Failure(g.error);
      }
      return Success(Network(g.value));
    }

    /** `iter_graphs`: the graph of each method in turn, writing each network method's three pieces to the settings. */
    method IterGraphs(p: Parse, corpus: map<string, string>) returns (out: seq<(string, Output)>, err: Option<ScriptError>)
      requires Covers(p, corpus)
      modifies this
      ensures test == old(test) && distance == old(distance) && methods == old(methods)
      ensures (out, err, Settings(nodes, edges, labelName)) ==
        Run(p, corpus, test, distance, Settings(old(nodes), old(edges), old(labelName)), methods)
    {
      ghost var s0 := Settings(nodes, edges, labelName);
      out, err := [], None;
      assert methods[0..] == methods;
      assert [] + Run(p, corpus, test, distance, s0, methods).0 == Run(p, corpus, test, distance, s0, methods).0;
      for i := 0 to |methods|
        invariant test == old(test) && distance == old(distance) && methods == old(methods)
        invariant var r := Run(p, corpus, test, distance, Settings(nodes, edges, labelName), methods[i..]);
          Run(p, corpus, test, distance, s0, methods) == (out + r.0, r.1, r.2)
        invariant err == None
      {
        ghost var si := Settings(nodes, edges, labelName);
        var r := GraphOf(p, corpus, methods[i]);
        if r.Failure? {
          RunStop(p, corpus, test, distance, s0, out, si, methods, i);
          return out, Some(r.error);
        }
        RunNext(p, corpus, test, distance, s0, out, si, methods, i);
        out := out + [(methods[i], r.value)];
      }
      assert methods[|methods|..] == [];
      assert out + [] == out;
    }
  }
}

=== FILE: utils.dfy ===
/**
 * `merge_graphs` of tcfnetworks/utils.py: the first graph is copied and every
 * further graph is merged into the copy, vertices by name and edges by the
 * names of their endpoints. A missing vertex or edge is added with all its
 * attributes; a present one has each incoming attribute merged into its own
 * by the incoming value's Python type: strings are joined with a space when
 * they differ, numbers are added, lists are extended, sets and dicts are
 * updated. A combination Python cannot perform raises in the source and is an
 * error here; so is a non-empty set merged into a dict, which Python performs
 * only for sets of two-character strings, in the set's iteration order.
 */
module Utils {
  import opened Wrappers
  import opened Graphs

  /** An incoming attribute value Python cannot merge into the present one (a `TypeError` or `AttributeError` in the source), or a non-empty set merged into a dict. */
  datatype MergeError = KindMismatch

  /** The one-character strings of `s`: what `list += s` appends. */
  function Characters(s: string): seq<string>
  {
    seq(|s|, k requires 0 <= k < |s| => [s[k]])
  }

  /** The merged value of one attribute present on both sides, dispatched on the incoming value's type. */
  function MergeAttr(present: Attr, incoming: Attr): Result<Attr, MergeError>
  {
    match incoming
    case Str(t) =>
      (match present
       case Str(s) => Success(if s == t then present else Str(s + " " + t))
       case List(xs) => Success(List(xs + Characters(" " + t)))
       case _ => Failure(KindMismatch))
    case Num(n) =>
      if present.Num? then Success(Num(present.n + n)) else Failure(KindMismatch)
    case List(ys) =>
      if present.List? then Success(List(present.items + ys)) else Failure(KindMismatch)
    case Set(m) =>
      (match present
       case Set(p) => Success(Set(p + m))
       case Dict(_) => if m == {} then Success(present) else Failure(KindMismatch)  // `dict.update` of an empty set changes nothing
       case _ => Failure(KindMismatch))
    case Dict(d) =>
      (match present
       case Set(p) => Success(Set(p + d.Keys))
       case Dict(e) => Success(Dict(e + d))
       case _ => Failure(KindMismatch))
  }

  /** The Python type of an attribute value. */
  datatype Kind = StrKind | NumKind | ListKind | SetKind | DictKind

  function KindOf(x: Attr): Kind
  {
    match x
    case Str(_) => StrKind
    case Num(_) => NumKind
    case List(_) => ListKind
    case Set(_) => SetKind
    case Dict(_) => DictKind
  }

  /** Whether two values have the same Python type. */
  predicate SameKind(a: Attr, b: Attr)
  {
    KindOf(a) == KindOf(b)
  }

  /** Whether every attribute present on both sides can be merged. */
  predicate Compatible(present: Attrs, incoming: Attrs)
  {
    forall k | k in present && k in incoming :: MergeAttr(present[k], incoming[k]).Success?
  }

  /** The value of key `k` after merging `incoming` into `present`, for compatible maps. */
  function MergedValue(present: Attrs, incoming: Attrs, k: string): Attr
    requires Compatible(present, incoming)
    requires k in present || k in incoming
  {
    if k !in incoming then present[k]
    else if k !in present then incoming[k]
    else MergeAttr(present[k], incoming[k]).value
  }

  /** The attribute map after the merge loop of `merge_graphs`, or the error it raises. */
  function MergeAttrMaps(present: Attrs, incoming: Attrs): Result<Attrs, MergeError>
  {
    if Compatible(present, incoming) then
      Success(map k | k in present.Keys + incoming.Keys :: MergedValue(present, incoming, k))
    else Failure(KindMismatch)
  }

  /**
   * The loop of `merge_graphs` over the incoming attributes of one vertex or
   * edge, on a working copy of the present attributes. The dict's iteration
   * order is not modelled: each key is visited once, in any order.
   */
  method MergeAttributes(present: Attrs, incoming: Attrs) returns (r: Result<Attrs, MergeError>)
    ensures r == MergeAttrMaps(present, incoming)
  {
    var acc := present;
    var todo := incoming.Keys;
    while todo != {}
      invariant todo <= incoming.Keys
      invariant acc.Keys == present.Keys + (incoming.Keys - todo)
      invariant forall k | k in incoming.Keys - todo && k in present :: MergeAttr(present[k], incoming[k]).Success?
      invariant forall k | k in acc && (k in todo || k !in incoming) :: acc[k] == present[k]
      invariant forall k | k in incoming.Keys - todo :: acc[k] == (if k in present then MergeAttr(present[k], incoming[k]).value else incoming[k])
      decreases todo
    {
      var k :| k in todo;
      if k !in acc {
        acc := acc[k := incoming[k]];
      } else {
        var m := MergeAttr(acc[k], incoming[k]);
        if m.Failure? {
          return Failure(KindMismatch);
        }
        acc := acc[k := m.value];
      }
      todo := todo - {k};
    }
    MergeAttrMapsOf(present, incoming, acc);
    r := Success(acc);
  }

  /** A map holding, key by key, the merged value of every key of either side is the merge. */
  lemma MergeAttrMapsOf(present: Attrs, incoming: Attrs, acc: Attrs)
    requires forall k | k in incoming && k in present :: MergeAttr(present[k], incoming[k]).Success?
    requires acc.Keys == present.Keys + incoming.Keys
    requires forall k | k in acc && k !in incoming :: acc[k] == present[k]
    requires forall k | k in incoming :: acc[k] == (if k in present then MergeAttr(present[k], incoming[k]).value else incoming[k])
    ensures MergeAttrMaps(present, incoming) == Success(acc)
  {
    assert Compatible(present, incoming);
    assert acc == map k | k in present.Keys + incoming.Keys :: MergedValue(present, incoming, k);
  }

  // ------------------------------------------------- lemmas: attribute maps

  /** A merged value keeps the present value's type; values of one type always merge, a number merges only into a number, and a set into a dict only when it is empty. */
  lemma MergeAttrKeepsKind(present: Attr, incoming: Attr)
    ensures MergeAttr(present, incoming).Success? ==> SameKind(MergeAttr(present, incoming).value, present)
    ensures SameKind(present, incoming) ==> MergeAttr(present, incoming).Success?
    ensures incoming.Num? ==> (MergeAttr(present, incoming).Success? <==> present.Num?)
    ensures incoming.Set? && present.Dict? ==> (MergeAttr(present, incoming).Success? <==> incoming.members == {})
  {
  }

  /** A missing key is set, a key only present is kept, and the keys are the union. */
  lemma MergeAttrMapsKeys(present: Attrs, incoming: Attrs)
    requires MergeAttrMaps(present, incoming).Success?
    ensures MergeAttrMaps(present, incoming).value.Keys == present.Keys + incoming.Keys
    ensures forall k | k in incoming && k !in present :: MergeAttrMaps(present, incoming).value[k] == incoming[k]
    ensures forall k | k in present && k !in incoming :: MergeAttrMaps(present, incoming).value[k] == present[k]
  {
  }

  /** Merging adds the weights (0 standing for no numeric weight), and keeps a positive weight positive. */
  lemma MergeAttrMapsWeight(present: Attrs, incoming: Attrs)
    requires MergeAttrMaps(present, incoming).Success?
    ensures WeightAttr(MergeAttrMaps(present, incoming).value) == WeightAttr(present) + WeightAttr(incoming)
    ensures PositiveWeight(present) && PositiveWeight(incoming) ==> PositiveWeight(MergeAttrMaps(present, incoming).value)
  {
    var m := MergeAttrMaps(present, incoming).value;
    if WeightKey in present && WeightKey in incoming {
      MergeAttrKeepsKind(present[WeightKey], incoming[WeightKey]);
    }
  }

  /** Merging two list-valued `tokenIDs` records the union of their IDs, as a list. */
  lemma MergeAttrMapsIds(present: Attrs, incoming: Attrs)
    requires MergeAttrMaps(present, incoming).Success?
    requires TokenIdsKey in present ==> present[TokenIdsKey].List?
    requires TokenIdsKey in incoming ==> incoming[TokenIdsKey].List?
    ensures IdsOf(MergeAttrMaps(present, incoming).value) == IdsOf(present) + IdsOf(incoming)
    ensures TokenIdsKey in MergeAttrMaps(present, incoming).value ==> MergeAttrMaps(present, incoming).value[TokenIdsKey].List?
  {
    if TokenIdsKey in present && TokenIdsKey in incoming {
      ElementsConcat(present[TokenIdsKey].items, incoming[TokenIdsKey].items);
    }
  }

  // ------------------------------------------------------------ graph merge

  /** The names of `vs[i..]`. */
  function NamesFrom(vs: seq<Vertex>, i: nat): (r: set<string>)
    ensures forall k | i <= k < |vs| :: vs[k].name in r
    decreases |vs| - i
  {
    if i >= |vs| then {} else {vs[i].name} + NamesFrom(vs, i + 1)
  }

  /**
   * One vertex of an incoming graph merged in: appended with all its
   * attributes when no vertex has its name, otherwise its attributes merged
   * into those of the vertex found.
   */
  function MergeVertex(g: Graph, v: Vertex): (r: Result<Graph, MergeError>)
    ensures r.Success? ==> r.value.edges == g.edges && |g.vertices| <= |r.value.vertices|
    ensures r.Success? ==> Names(r.value) == Names(g) + {v.name}
    ensures r.Success? && EdgesInRange(g) ==> EdgesInRange(r.value)
  {
    match FindVertex(g.vertices, v.name)
    case None =>
      NamesAppend(g, v);
      Success(g.(vertices := g.vertices + [v]))
    case Some(i) =>
      match MergeAttrMaps(g.vertices[i].attrs, v.attrs)
      case Failure(e) => Failure(e)
      case Success(m) =>
        var g' := g.(vertices := g.vertices[i := g.vertices[i].(attrs := m)]);
        VertexAttrsKeepEdges(g, g');
        Success(g')
  }

  /** The vertices `vs[i..]` merged in, in order; the first error ends the merge. */
  function MergeVerticesFrom(g: Graph, vs: seq<Vertex>, i: nat): (r: Result<Graph, MergeError>)
    ensures r.Success? ==> r.value.edges == g.edges
    ensures r.Success? ==> Names(r.value) == Names(g) + NamesFrom(vs, i)
    ensures r.Success? && EdgesInRange(g) ==> EdgesInRange(r.value)
    decreases |vs| - i
  {
    if i >= |vs| then Success(g)
    else match MergeVertex(g, vs[i])
      case Failure(e) => Failure(e)
      case Success(g1) => MergeVerticesFrom(g1, vs, i + 1)
  }

  /**
   * One incoming edge, given by its endpoints' names, merged in: added with
   * all its attributes when the two vertices are not joined, otherwise its
   * attributes merged into those of the edge found.
   */
  function MergeEdge(g: Graph, s: string, t: string, a: Attrs): (r: Result<Graph, MergeError>)
    requires s in Names(g) && t in Names(g)
    ensures r.Success? ==> r.value.vertices == g.vertices
    ensures r.Success? && EdgesInRange(g) ==> EdgesInRange(r.value)
  {
    var i, j := FindVertex(g.vertices, s).value, FindVertex(g.vertices, t).value;
    match FindEdge(g.edges, i, j)
    case None => Success(SetEdge(g, i, j, a))
    case Some(k) =>
      match MergeAttrMaps(g.edges[k].attrs, a)
      case Failure(e) => Failure(e)
      case Success(m) => Success(SetEdge(g, i, j, m))
  }

  /** Whether every edge of `es` joins two positions of `vs`. */
  predicate EndpointsIn(vs: seq<Vertex>, es: seq<Edge>)
  {
    forall k | 0 <= k < |es| :: es[k].source < |vs| && es[k].target < |vs|
  }

  /** The edges `es[n..]` of a graph with vertices `vs` merged in, in order; the first error ends the merge. */
  function MergeEdgesFrom(g: Graph, vs: seq<Vertex>, es: seq<Edge>, n: nat): (r: Result<Graph, MergeError>)
    requires EndpointsIn(vs, es)
    requires forall k | 0 <= k < |vs| :: vs[k].name in Names(g)
    ensures r.Success? ==> r.value.vertices == g.vertices
    ensures r.Success? && EdgesInRange(g) ==> EdgesInRange(r.value)
    decreases |es| - n
  {
    if n >= |es| then Success(g)
    else match MergeEdge(g, vs[es[n].source].name, vs[es[n].target].name, es[n].attrs)
      case Failure(e) => Failure(e)
      case Success(g1) => MergeEdgesFrom(g1, vs, es, n + 1)
  }

  /** One further graph merged in: its vertices first, then its edges. */
  function MergeInto(g: Graph, h: Graph): (r: Result<Graph, MergeError>)
    requires EdgesInRange(h)
    ensures r.Success? && EdgesInRange(g) ==> EdgesInRange(r.value)
  {
    match MergeVerticesFrom(g, h.vertices, 0)
    case Failure(e) => Failure(e)
    case Success(g1) => MergeEdgesFrom(g1, h.vertices, h.edges, 0)
  }

  /** The graphs `hs[n..]` merged in, in argument order; the first error ends the merge. */
  function MergeAllFrom(g: Graph, hs: seq<Graph>, n: nat): (r: Result<Graph, MergeError>)
    requires forall k | 0 <= k < |hs| :: EdgesInRange(hs[k])
    decreases |hs| - n
  {
    if n >= |hs| then Success(g)
    else match MergeInto(g, hs[n])
      case Failure(e) => Failure(e)
      case Success(g1) => MergeAllFrom(g1, hs, n + 1)
  }

  // -------------------------------------------------------- merge on a store

  /** One vertex of a further graph merged into the store: added when its name is new, else its attributes merged. */
  method MergeVertexInto(graph: GraphStore, v: Vertex) returns (ok: bool)
    modifies graph
    ensures ok <==> MergeVertex(old(graph.Value()), v).Success?
    ensures ok ==> graph.Value() == MergeVertex(old(graph.Value()), v).value
  {
    var found := FindVertex(graph.vertices, v.name);
    if found.None? {
      var added := graph.FindOrAddVertex(v.name, v.attrs);
      return true;
    }
    var m := MergeAttributes(graph.vertices[found.value].attrs, v.attrs);
    if m.Failure? {
      return false;
    }
    graph.SetVertexAttrs(found.value, m.value);
    return true;
  }

  /** The vertex loop of `merge_graphs` for one further graph, updating the store. */
  method MergeVerticesInto(graph: GraphStore, vs: seq<Vertex>) returns (ok: bool)
    modifies graph
    ensures ok <==> MergeVerticesFrom(old(graph.Value()), vs, 0).Success?
    ensures ok ==> graph.Value() == MergeVerticesFrom(old(graph.Value()), vs, 0).value
  {
    ghost var g0 := graph.Value();
    var i := 0;
    while i < |vs|
      invariant 0 <= i <= |vs|
      invariant MergeVerticesFrom(g0, vs, 0) == MergeVerticesFrom(graph.Value(), vs, i)
    {
      ok := MergeVertexInto(graph, vs[i]);
      if !ok {
        return;
      }
      i := i + 1;
    }
    return true;
  }

  /** One edge merged into the store, given by its endpoints' names: added when they are not joined, else its attributes merged. */
  method MergeEdgeInto(graph: GraphStore, s: string, t: string, a: Attrs) returns (ok: bool)
    requires s in Names(graph.Value()) && t in Names(graph.Value())
    modifies graph
    ensures ok <==> MergeEdge(old(graph.Value()), s, t, a).Success?
    ensures ok ==> graph.Value() == MergeEdge(old(graph.Value()), s, t, a).value
  {
    var i := FindVertex(graph.vertices, s).value;
    var j := FindVertex(graph.vertices, t).value;
    var found := FindEdge(graph.edges, i, j);
    if found.None? {
      graph.PutEdge(i, j, a);
      return true;
    }
    var m := MergeAttributes(graph.edges[found.value].attrs, a);
    if m.Failure? {
      return false;
    }
    graph.PutEdge(i, j, m.value);
    return true;
  }

  /** The edge loop of `merge_graphs` for one further graph with vertices `vs` and edges `es`, updating the store. */
  method MergeEdgesInto(graph: GraphStore, vs: seq<Vertex>, es: seq<Edge>) returns (ok: bool)
    requires EndpointsIn(vs, es)
    requires forall k | 0 <= k < |vs| :: vs[k].name in Names(graph.Value())
    modifies graph
    ensures ok <==> MergeEdgesFrom(old(graph.Value()), vs, es, 0).Success?
    ensures ok ==> graph.Value() == MergeEdgesFrom(old(graph.Value()), vs, es, 0).value
  {
    ghost var g0 := graph.Value();
    var n := 0;
    while n < |es|
      invariant 0 <= n <= |es|
      invariant graph.vertices == g0.vertices
      invariant MergeEdgesFrom(g0, vs, es, 0) == MergeEdgesFrom(graph.Value(), vs, es, n)
    {
      assert Names(graph.Value()) == Names(g0);
      ok := MergeEdgeInto(graph, vs[es[n].source].name, vs[es[n].target].name, es[n].attrs);
      if !ok {
        return;
      }
      n := n + 1;
    }
    return true;
  }

  /** One further graph merged into the store: its vertices, then its edges. */
  method MergeGraphInto(graph: GraphStore, h: Graph) returns (ok: bool)
    requires EdgesInRange(h)
    modifies graph
    ensures ok <==> MergeInto(old(graph.Value()), h).Success?
    ensures ok ==> graph.Value() == MergeInto(old(graph.Value()), h).value
  {
    ghost var g0 := graph.Value();
    ok := MergeVerticesInto(graph, h.vertices);
    if ok {
      MergeIntoPhases(g0, h);
      ok := MergeEdgesInto(graph, h.vertices, h.edges);
    }
  }

  /**
   * `merge_graphs(first, *rest)`: a copy of the first graph with every
   * further graph merged in, in argument order; the inputs are left alone.
   */
  method MergeGraphs(first: Graph, rest: seq<Graph>) returns (r: Result<GraphStore, MergeError>)
    requires forall k | 0 <= k < |rest| :: EdgesInRange(rest[k])
    ensures r.Success? <==> MergeAllFrom(first, rest, 0).Success?
    ensures r.Success? ==> fresh(r.value) && r.value.Value() == MergeAllFrom(first, rest, 0).value
  {
    var graph := new GraphStore.Copy(first);
    var n := 0;
    while n < |rest|
      invariant 0 <= n <= |rest|
      invariant fresh(graph)
      invariant MergeAllFrom(first, rest, 0) == MergeAllFrom(graph.Value(), rest, n)
    {
      var ok := MergeGraphInto(graph, rest[n]);
      if !ok {
        return Failure(KindMismatch);
      }
      n := n + 1;
    }
    return Success(graph);
  }

  // ------------------------------------------------- lemmas: vertex phase

  /** The shape of a graph and the edges between its names, which the vertex phase of a merge keeps. */
  ghost predicate SameEdges(g: Graph, g': Graph)
  {
    Simple(g') && (Valid(g) ==> Valid(g')) && forall a, b | true :: AttrsBetween(g', a, b) == AttrsBetween(g, a, b)
  }

  /** Merging a vertex keeps the graph's shape and every edge between names. */
  lemma MergeVertexKeepsEdges(g: Graph, v: Vertex)
    requires Simple(g)
    requires MergeVertex(g, v).Success?
    ensures SameEdges(g, MergeVertex(g, v).value)
  {
    if FindVertex(g.vertices, v.name).None? {
      assert MergeVertex(g, v).value == g.(vertices := g.vertices + [v]);
      AppendVertexKeepsEdges(g, v);
    } else {
      var i := FindVertex(g.vertices, v.name).value;
      var m := MergeAttrMaps(g.vertices[i].attrs, v.attrs).value;
      assert MergeVertex(g, v).value == g.(vertices := g.vertices[i := g.vertices[i].(attrs := m)]);
      ReplaceAttrsKeepsEdges(g, i, m);
    }
  }

  lemma ReplaceAttrsKeepsEdges(g: Graph, i: nat, m: Attrs)
    requires Simple(g)
    requires i < |g.vertices|
    ensures SameEdges(g, g.(vertices := g.vertices[i := g.vertices[i].(attrs := m)]))
  {
    VertexAttrsKeepEdges(g, g.(vertices := g.vertices[i := g.vertices[i].(attrs := m)]));
  }

  lemma AppendVertexKeepsEdges(g: Graph, v: Vertex)
    requires Simple(g)
    requires FindVertex(g.vertices, v.name).None?
    ensures SameEdges(g, g.(vertices := g.vertices + [v]))
  {
    assert g.(vertices := g.vertices + [v]) == FindOrAdd(g, v.name, v.attrs).0;
    FindOrAddKeepsEdges(g, v.name, v.attrs);
  }

  lemma {:induction false} MergeVerticesKeepsEdges(g: Graph, vs: seq<Vertex>, i: nat)
    requires Simple(g)
    requires MergeVerticesFrom(g, vs, i).Success?
    ensures SameEdges(g, MergeVerticesFrom(g, vs, i).value)
    decreases |vs| - i
  {
    if i < |vs| {
      var g1 := MergeVertex(g, vs[i]).value;
      MergeVertexKeepsEdges(g, vs[i]);
      MergeVerticesKeepsEdges(g1, vs, i + 1);
    }
  }

  // --------------------------------------------------- lemmas: edge phase

  /** Between the names of vertices i and j, in either order, are the attributes of the edge joining i and j. */
  lemma PairAttrs(g: Graph, i: nat, j: nat, x: string, y: string)
    requires DistinctNames(g.vertices)
    requires i < |g.vertices| && j < |g.vertices|
    requires SamePair(x, y, g.vertices[i].name, g.vertices[j].name)
    ensures AttrsBetween(g, x, y) == EdgeAttrs(g, i, j)
  {
    EdgeAttrsByName(g, i, j);
    EdgeAttrsByName(g, j, i);
    FindEdgeSymmetric(g.edges, i, j);
  }

  /**
   * Merging an edge keeps the graph simple, weighted when the incoming edge
   * carries a positive weight, and free of loops when its endpoints differ.
   */
  lemma MergeEdgeValid(g: Graph, s: string, t: string, a: Attrs)
    requires Simple(g)
    requires s in Names(g) && t in Names(g)
    requires MergeEdge(g, s, t, a).Success?
    ensures Simple(MergeEdge(g, s, t, a).value)
    ensures Weighted(g.edges) && PositiveWeight(a) ==> Weighted(MergeEdge(g, s, t, a).value.edges)
    ensures NoLoops(g.edges) && s != t ==> NoLoops(MergeEdge(g, s, t, a).value.edges)
  {
    var i, j := FindVertex(g.vertices, s).value, FindVertex(g.vertices, t).value;
    match FindEdge(g.edges, i, j)
    case None =>
      SetEdgeValid(g, i, j, a);
    case Some(k) =>
      var m := MergeAttrMaps(g.edges[k].attrs, a).value;
      MergeAttrMapsWeight(g.edges[k].attrs, a);
      SetEdgeValid(g, i, j, m);
  }

  /** Merging an edge adds its weight to the weight between its endpoints' names and changes no other weight. */
  lemma MergeEdgeWeight(g: Graph, s: string, t: string, a: Attrs, x: string, y: string)
    requires DistinctNames(g.vertices)
    requires s in Names(g) && t in Names(g)
    requires MergeEdge(g, s, t, a).Success?
    ensures WeightBetween(MergeEdge(g, s, t, a).value, x, y) ==
      WeightBetween(g, x, y) + (if SamePair(x, y, s, t) then WeightAttr(a) else 0)
  {
    var i, j := FindVertex(g.vertices, s).value, FindVertex(g.vertices, t).value;
    if SamePair(x, y, s, t) {
      PairAttrs(g, i, j, x, y);
    }
    match FindEdge(g.edges, i, j)
    case None =>
      SetEdgeBetween(g, i, j, a, x, y);
    case Some(k) =>
      var m := MergeAttrMaps(g.edges[k].attrs, a).value;
      MergeAttrMapsWeight(g.edges[k].attrs, a);
      SetEdgeBetween(g, i, j, m, x, y);
  }

  /** The total weight the edges `es[n..]` of a graph with vertices `vs` carry between the names x and y. */
  function EdgeWeightSum(vs: seq<Vertex>, es: seq<Edge>, x: string, y: string, n: nat): int
    requires EndpointsIn(vs, es)
    decreases |es| - n
  {
    if n >= |es| then 0
    else
      var here := if SamePair(x, y, vs[es[n].source].name, vs[es[n].target].name) then WeightAttr(es[n].attrs) else 0;
      here + EdgeWeightSum(vs, es, x, y, n + 1)
  }

  /** Merging edges adds, between every two names, the weights the merged edges carry between them. */
  lemma {:induction false} MergeEdgesWeight(g: Graph, vs: seq<Vertex>, es: seq<Edge>, n: nat, x: string, y: string)
    requires DistinctNames(g.vertices)
    requires EndpointsIn(vs, es)
    requires forall k | 0 <= k < |vs| :: vs[k].name in Names(g)
    requires MergeEdgesFrom(g, vs, es, n).Success?
    ensures WeightBetween(MergeEdgesFrom(g, vs, es, n).value, x, y) == WeightBetween(g, x, y) + EdgeWeightSum(vs, es, x, y, n)
    decreases |es| - n
  {
    if n < |es| {
      var s, t := vs[es[n].source].name, vs[es[n].target].name;
      var g1 := MergeEdge(g, s, t, es[n].attrs).value;
      MergeEdgeWeight(g, s, t, es[n].attrs, x, y);
      MergeEdgesWeight(g1, vs, es, n + 1, x, y);
    }
  }

  /** Merging edges keeps the graph simple, and weighted when every merged edge carries a positive weight. */
  lemma {:induction false} MergeEdgesValid(g: Graph, vs: seq<Vertex>, es: seq<Edge>, n: nat)
    requires Simple(g)
    requires EndpointsIn(vs, es)
    requires forall k | 0 <= k < |vs| :: vs[k].name in Names(g)
    requires MergeEdgesFrom(g, vs, es, n).Success?
    ensures Simple(MergeEdgesFrom(g, vs, es, n).value)
    ensures Weighted(g.edges) && Weighted(es) ==> Weighted(MergeEdgesFrom(g, vs, es, n).value.edges)
    ensures NoLoops(g.edges) && NoLoops(es) && DistinctNames(vs) ==> NoLoops(MergeEdgesFrom(g, vs, es, n).value.edges)
    decreases |es| - n
  {
    if n < |es| {
      var s, t := vs[es[n].source].name, vs[es[n].target].name;
      var g1 := MergeEdge(g, s, t, es[n].attrs).value;
      MergeEdgeValid(g, s, t, es[n].attrs);
      MergeEdgesValid(g1, vs, es, n + 1);
    }
  }

  /** Edges none of which joins the names x and y carry no weight between them. */
  lemma {:induction false} EdgeWeightSumNone(vs: seq<Vertex>, es: seq<Edge>, x: string, y: string, n: nat)
    requires EndpointsIn(vs, es)
    requires forall k | n <= k < |es| :: !SamePair(x, y, vs[es[k].source].name, vs[es[k].target].name)
    ensures EdgeWeightSum(vs, es, x, y, n) == 0
    decreases |es| - n
  {
    if n < |es| {
      EdgeWeightSumNone(vs, es, x, y, n + 1);
    }
  }

  /** In a simple graph, the edges from `n` on carry between two names the weight of the first of them joining the two vertices. */
  lemma {:induction false} EdgeWeightSumFirst(h: Graph, x: string, y: string, n: nat)
    requires Simple(h)
    requires FindVertex(h.vertices, x).Some? && FindVertex(h.vertices, y).Some?
    requires forall k | 0 <= k < |h.edges| ::
      SamePair(x, y, h.vertices[h.edges[k].source].name, h.vertices[h.edges[k].target].name) <==>
      Joins(h.edges[k], FindVertex(h.vertices, x).value, FindVertex(h.vertices, y).value)
    ensures EdgeWeightSum(h.vertices, h.edges, x, y, n) ==
      match FindEdgeFrom(h.edges, FindVertex(h.vertices, x).value, FindVertex(h.vertices, y).value, n)
      case None => 0
      case Some(k) => WeightAttr(h.edges[k].attrs)
    decreases |h.edges| - n
  {
    var i, j := FindVertex(h.vertices, x).value, FindVertex(h.vertices, y).value;
    if n < |h.edges| {
      if Joins(h.edges[n], i, j) {
        assert forall l | n < l < |h.edges| :: !Joins(h.edges[l], h.edges[n].source, h.edges[n].target);
        EdgeWeightSumNone(h.vertices, h.edges, x, y, n + 1);
      } else {
        EdgeWeightSumFirst(h, x, y, n + 1);
      }
    }
  }

  /** In a simple graph the weights its edges carry between two names add up to the weight between them. */
  lemma EdgeWeightSumSimple(h: Graph, x: string, y: string)
    requires Simple(h)
    ensures EdgeWeightSum(h.vertices, h.edges, x, y, 0) == WeightBetween(h, x, y)
  {
    var vs, es := h.vertices, h.edges;
    if FindVertex(vs, x).Some? && FindVertex(vs, y).Some? {
      var i, j := FindVertex(vs, x).value, FindVertex(vs, y).value;
      forall k | 0 <= k < |es|
        ensures SamePair(x, y, vs[es[k].source].name, vs[es[k].target].name) <==> Joins(es[k], i, j)
      {
        SamePairByName(vs, es[k].source, es[k].target, x, y);
      }
      EdgeWeightSumFirst(h, x, y, 0);
    } else {
      EdgeWeightSumNone(vs, es, x, y, 0);
    }
  }

  // ------------------------------------------------- lemmas: one graph in

  /** The names of a whole vertex sequence are the graph's names. */
  lemma NamesFromAll(h: Graph)
    ensures NamesFrom(h.vertices, 0) == Names(h)
  {
    forall a | a in NamesFrom(h.vertices, 0) ensures a in Names(h) {
      NamesFromMember(h.vertices, 0, a);
    }
  }

  lemma {:induction false} NamesFromMember(vs: seq<Vertex>, i: nat, a: string)
    requires a in NamesFrom(vs, i)
    ensures exists k | i <= k < |vs| :: vs[k].name == a
    decreases |vs| - i
  {
    if vs[i].name != a {
      NamesFromMember(vs, i + 1, a);
    }
  }

  /** After a merge the names are those of both graphs. */
  lemma MergeIntoNames(g: Graph, h: Graph)
    requires EdgesInRange(h)
    requires MergeInto(g, h).Success?
    ensures Names(MergeInto(g, h).value) == Names(g) + Names(h)
  {
    NamesFromAll(h);
  }

  /** After the vertex phase every vertex of the merged graph is present, and the edge phase finishes the merge. */
  lemma MergeIntoPhases(g: Graph, h: Graph)
    requires EdgesInRange(h)
    requires MergeVerticesFrom(g, h.vertices, 0).Success?
    ensures var g1 := MergeVerticesFrom(g, h.vertices, 0).value;
      (forall k | 0 <= k < |h.vertices| :: h.vertices[k].name in Names(g1)) &&
      MergeInto(g, h) == MergeEdgesFrom(g1, h.vertices, h.edges, 0)
  {
    var g1 := MergeVerticesFrom(g, h.vertices, 0).value;
    assert Names(g1) == Names(g) + NamesFrom(h.vertices, 0);
  }

  /** Merging keeps a graph simple; valid when the merged graph is weighted; loop-free when both are and the merged graph's names are distinct. */
  lemma MergeIntoValid(g: Graph, h: Graph)
    requires Simple(g) && EdgesInRange(h)
    requires MergeInto(g, h).Success?
    ensures Simple(MergeInto(g, h).value)
    ensures Valid(g) && Weighted(h.edges) ==> Valid(MergeInto(g, h).value)
    ensures NoLoops(g.edges) && NoLoops(h.edges) && DistinctNames(h.vertices) ==> NoLoops(MergeInto(g, h).value.edges)
  {
    var g1 := MergeVerticesFrom(g, h.vertices, 0).value;
    MergeVerticesKeepsEdges(g, h.vertices, 0);
    MergeEdgesValid(g1, h.vertices, h.edges, 0);
  }

  /** Merging a simple graph adds its weight between every two names to the weight already there. */
  lemma MergeIntoWeights(g: Graph, h: Graph, x: string, y: string)
    requires Simple(g) && Simple(h)
    requires MergeInto(g, h).Success?
    ensures WeightBetween(MergeInto(g, h).value, x, y) == WeightBetween(g, x, y) + WeightBetween(h, x, y)
  {
    var g1 := MergeVerticesFrom(g, h.vertices, 0).value;
    assert Simple(g1) && AttrsBetween(g1, x, y) == AttrsBetween(g, x, y) by {
      MergeVerticesKeepsEdges(g, h.vertices, 0);
    }
    MergeIntoPhases(g, h);
    MergeSimpleEdgesWeight(g1, h, x, y);
  }

  /** The edge phase of merging a simple graph adds its weight between every two names. */
  lemma MergeSimpleEdgesWeight(g: Graph, h: Graph, x: string, y: string)
    requires DistinctNames(g.vertices) && Simple(h)
    requires forall k | 0 <= k < |h.vertices| :: h.vertices[k].name in Names(g)
    requires MergeEdgesFrom(g, h.vertices, h.edges, 0).Success?
    ensures WeightBetween(MergeEdgesFrom(g, h.vertices, h.edges, 0).value, x, y) == WeightBetween(g, x, y) + WeightBetween(h, x, y)
  {
    EdgeWeightSumSimple(h, x, y);
    MergeEdgesWeight(g, h.vertices, h.edges, 0, x, y);
  }

  // ----------------------------------------------------- lemmas: token IDs

  /** The token IDs vertex `v` carries when it is named `a`. */
  function IdsNamed(v: Vertex, a: string): set<string>
  {
    if v.name == a then IdsOf(v.attrs) else {}
  }

  /** The token IDs the vertices of `vs[i..]` named `a` carry. */
  function IdsFrom(vs: seq<Vertex>, a: string, i: nat): set<string>
    decreases |vs| - i
  {
    if i >= |vs| then {} else IdsNamed(vs[i], a) + IdsFrom(vs, a, i + 1)
  }

  lemma {:induction false} IdsFromNone(vs: seq<Vertex>, a: string, i: nat)
    requires forall k | i <= k < |vs| :: vs[k].name != a
    ensures IdsFrom(vs, a, i) == {}
    decreases |vs| - i
  {
    if i < |vs| {
      IdsFromNone(vs, a, i + 1);
    }
  }

  /** With distinct names, the IDs the vertices named `a` carry are those of the one vertex with that name. */
  lemma {:induction false} IdsFromDistinct(vs: seq<Vertex>, a: string, i: nat)
    requires DistinctNames(vs)
    ensures IdsFrom(vs, a, i) == match FindVertexFrom(vs, a, i) case None => {} case Some(k) => IdsOf(vs[k].attrs)
    decreases |vs| - i
  {
    if i < |vs| {
      if vs[i].name == a {
        IdsFromNone(vs, a, i + 1);
      } else {
        IdsFromDistinct(vs, a, i + 1);
      }
    }
  }

  /** Merging a vertex whose name is new adds its IDs under its name. */
  lemma AppendVertexIds(g: Graph, v: Vertex, a: string)
    requires FindVertex(g.vertices, v.name).None?
    ensures IdsAt(g.(vertices := g.vertices + [v]), a) == IdsAt(g, a) + IdsNamed(v, a)
  {
    var vs := g.vertices + [v];
    if a != v.name {
      FindVertexAppendOther(g.vertices, v, a);
    } else {
      assert vs[|g.vertices|] == v;
      assert FindVertex(vs, a) == Some(|g.vertices|);
    }
  }

  /** Merging a vertex into the vertex of its name adds its IDs there. */
  lemma ReplaceAttrsIds(g: Graph, v: Vertex, a: string)
    requires ListIds(g.vertices)
    requires TokenIdsKey in v.attrs ==> v.attrs[TokenIdsKey].List?
    requires FindVertex(g.vertices, v.name).Some?
    requires MergeAttrMaps(g.vertices[FindVertex(g.vertices, v.name).value].attrs, v.attrs).Success?
    ensures var i := FindVertex(g.vertices, v.name).value;
      var r := g.(vertices := g.vertices[i := g.vertices[i].(attrs := MergeAttrMaps(g.vertices[i].attrs, v.attrs).value)]);
      ListIds(r.vertices) && IdsAt(r, a) == IdsAt(g, a) + IdsNamed(v, a)
  {
    var i := FindVertex(g.vertices, v.name).value;
    var r := g.(vertices := g.vertices[i := g.vertices[i].(attrs := MergeAttrMaps(g.vertices[i].attrs, v.attrs).value)]);
    VertexAttrsKeepEdges(g, r);
    MergeAttrMapsIds(g.vertices[i].attrs, v.attrs);
  }

  /** Merging a vertex adds its IDs under its name and keeps every `tokenIDs` a list. */
  lemma MergeVertexIds(g: Graph, v: Vertex, a: string)
    requires ListIds(g.vertices)
    requires TokenIdsKey in v.attrs ==> v.attrs[TokenIdsKey].List?
    requires MergeVertex(g, v).Success?
    ensures ListIds(MergeVertex(g, v).value.vertices)
    ensures IdsAt(MergeVertex(g, v).value, a) == IdsAt(g, a) + IdsNamed(v, a)
  {
    if FindVertex(g.vertices, v.name).None? {
      assert MergeVertex(g, v).value == g.(vertices := g.vertices + [v]);
      AppendVertexIds(g, v, a);
    } else {
      var i := FindVertex(g.vertices, v.name).value;
      var m := MergeAttrMaps(g.vertices[i].attrs, v.attrs).value;
      assert MergeVertex(g, v).value == g.(vertices := g.vertices[i := g.vertices[i].(attrs := m)]);
      ReplaceAttrsIds(g, v, a);
    }
  }

  lemma {:induction false} MergeVerticesListIds(g: Graph, vs: seq<Vertex>, i: nat)
    requires ListIds(g.vertices) && ListIds(vs)
    requires MergeVerticesFrom(g, vs, i).Success?
    ensures ListIds(MergeVerticesFrom(g, vs, i).value.vertices)
    decreases |vs| - i
  {
    if i < |vs| {
      var g1 := MergeVertex(g, vs[i]).value;
      assert TokenIdsKey in vs[i].attrs ==> vs[i].attrs[TokenIdsKey].List?;
      MergeVertexIds(g, vs[i], "");
      MergeVerticesListIds(g1, vs, i + 1);
    }
  }

  lemma {:induction false} MergeVerticesIds(g: Graph, vs: seq<Vertex>, i: nat, a: string)
    requires ListIds(g.vertices) && ListIds(vs)
    requires MergeVerticesFrom(g, vs, i).Success?
    ensures IdsAt(MergeVerticesFrom(g, vs, i).value, a) == IdsAt(g, a) + IdsFrom(vs, a, i)
    decreases |vs| - i
  {
    if i < |vs| {
      var g1 := MergeVertex(g, vs[i]).value;
      assert ListIds(g1.vertices) && IdsAt(g1, a) == IdsAt(g, a) + IdsNamed(vs[i], a) by {
        assert TokenIdsKey in vs[i].attrs ==> vs[i].attrs[TokenIdsKey].List?;
        MergeVertexIds(g, vs[i], a);
      }
      assert MergeVerticesFrom(g, vs, i) == MergeVerticesFrom(g1, vs, i + 1);
      MergeVerticesIds(g1, vs, i + 1, a);
    }
  }

  /** After a merge every name carries the token IDs it carried in either graph, and `tokenIDs` stay lists. */
  lemma MergeIntoIds(g: Graph, h: Graph, a: string)
    requires ListIds(g.vertices) && ListIds(h.vertices)
    requires DistinctNames(h.vertices) && EdgesInRange(h)
    requires MergeInto(g, h).Success?
    ensures ListIds(MergeInto(g, h).value.vertices)
    ensures IdsAt(MergeInto(g, h).value, a) == IdsAt(g, a) + IdsAt(h, a)
  {
    var g1 := MergeVerticesFrom(g, h.vertices, 0).value;
    MergeVerticesListIds(g, h.vertices, 0);
    MergeVerticesIds(g, h.vertices, 0, a);
    IdsFromDistinct(h.vertices, a, 0);
    assert MergeInto(g, h).value.vertices == g1.vertices;
  }

  // --------------------------------------------------------- lemmas: schema

  /** Whether every attribute has the type a schema gives its key. */
  predicate Conforms(a: Attrs, schema: map<string, Kind>)
  {
    forall k | k in a :: k in schema && KindOf(a[k]) == schema[k]
  }

  /** Whether every vertex's attributes follow `vschema` and every edge's follow `eschema`. */
  ghost predicate GraphConforms(g: Graph, vschema: map<string, Kind>, eschema: map<string, Kind>)
  {
    (forall k | 0 <= k < |g.vertices| :: Conforms(g.vertices[k].attrs, vschema)) &&
    (forall k | 0 <= k < |g.edges| :: Conforms(g.edges[k].attrs, eschema))
  }

  /** Two attribute maps following one schema always merge, and the merged map follows it too. */
  lemma MergeAttrMapsConforms(present: Attrs, incoming: Attrs, schema: map<string, Kind>)
    requires Conforms(present, schema) && Conforms(incoming, schema)
    ensures MergeAttrMaps(present, incoming).Success?
    ensures Conforms(MergeAttrMaps(present, incoming).value, schema)
  {
    forall k | k in present && k in incoming ensures MergeAttr(present[k], incoming[k]).Success? {
      MergeAttrKeepsKind(present[k], incoming[k]);
    }
    var m := MergeAttrMaps(present, incoming).value;
    forall k | k in m ensures k in schema && KindOf(m[k]) == schema[k] {
      if k in present && k in incoming {
        MergeAttrKeepsKind(present[k], incoming[k]);
      }
    }
  }

  lemma MergeVertexConforms(g: Graph, v: Vertex, vschema: map<string, Kind>, eschema: map<string, Kind>)
    requires GraphConforms(g, vschema, eschema) && Conforms(v.attrs, vschema)
    ensures MergeVertex(g, v).Success?
    ensures GraphConforms(MergeVertex(g, v).value, vschema, eschema)
  {
    match FindVertex(g.vertices, v.name)
    case None =>
    case Some(i) =>
      MergeAttrMapsConforms(g.vertices[i].attrs, v.attrs, vschema);
  }

  lemma {:induction false} MergeVerticesConforms(g: Graph, vs: seq<Vertex>, i: nat, vschema: map<string, Kind>, eschema: map<string, Kind>)
    requires GraphConforms(g, vschema, eschema)
    requires forall k | 0 <= k < |vs| :: Conforms(vs[k].attrs, vschema)
    ensures MergeVerticesFrom(g, vs, i).Success?
    ensures GraphConforms(MergeVerticesFrom(g, vs, i).value, vschema, eschema)
    decreases |vs| - i
  {
    if i < |vs| {
      MergeVertexConforms(g, vs[i], vschema, eschema);
      MergeVerticesConforms(MergeVertex(g, vs[i]).value, vs, i + 1, vschema, eschema);
    }
  }

  lemma MergeEdgeConforms(g: Graph, s: string, t: string, a: Attrs, vschema: map<string, Kind>, eschema: map<string, Kind>)
    requires s in Names(g) && t in Names(g)
    requires GraphConforms(g, vschema, eschema) && Conforms(a, eschema)
    ensures MergeEdge(g, s, t, a).Success?
    ensures GraphConforms(MergeEdge(g, s, t, a).value, vschema, eschema)
  {
    var i, j := FindVertex(g.vertices, s).value, FindVertex(g.vertices, t).value;
    match FindEdge(g.edges, i, j)
    case None =>
    case Some(k) =>
      MergeAttrMapsConforms(g.edges[k].attrs, a, eschema);
  }

  lemma {:induction false} MergeEdgesConforms(g: Graph, vs: seq<Vertex>, es: seq<Edge>, n: nat, vschema: map<string, Kind>, eschema: map<string, Kind>)
    requires EndpointsIn(vs, es)
    requires forall k | 0 <= k < |vs| :: vs[k].name in Names(g)
    requires GraphConforms(g, vschema, eschema)
    requires forall k | 0 <= k < |es| :: Conforms(es[k].attrs, eschema)
    ensures MergeEdgesFrom(g, vs, es, n).Success?
    ensures GraphConforms(MergeEdgesFrom(g, vs, es, n).value, vschema, eschema)
    decreases |es| - n
  {
    if n < |es| {
      var s, t := vs[es[n].source].name, vs[es[n].target].name;
      MergeEdgeConforms(g, s, t, es[n].attrs, vschema, eschema);
      MergeEdgesConforms(MergeEdge(g, s, t, es[n].attrs).value, vs, es, n + 1, vschema, eschema);
    }
  }

  /**
   * Two graphs whose vertex and edge attributes follow the same schemas (as
   * the graphs one builder produces do) always merge, and the merged graph
   * follows the schemas too.
   */
  lemma MergeIntoConforms(g: Graph, h: Graph, vschema: map<string, Kind>, eschema: map<string, Kind>)
    requires EdgesInRange(h)
    requires GraphConforms(g, vschema, eschema) && GraphConforms(h, vschema, eschema)
    ensures MergeInto(g, h).Success?
    ensures GraphConforms(MergeInto(g, h).value, vschema, eschema)
  {
    MergeVerticesConforms(g, h.vertices, 0, vschema, eschema);
    var g1 := MergeVerticesFrom(g, h.vertices, 0).value;
    MergeIntoPhases(g, h);
    MergeEdgesConforms(g1, h.vertices, h.edges, 0, vschema, eschema);
  }

  // --------------------------------------------------- lemmas: many graphs

  /** The names of the graphs `hs[n..]`. */
  function NamesOfAll(hs: seq<Graph>, n: nat): set<string>
    decreases |hs| - n
  {
    if n >= |hs| then {} else Names(hs[n]) + NamesOfAll(hs, n + 1)
  }

  /** The total weight the graphs `hs[n..]` carry between the names x and y. */
  function WeightOfAll(hs: seq<Graph>, n: nat, x: string, y: string): int
    decreases |hs| - n
  {
    if n >= |hs| then 0 else WeightBetween(hs[n], x, y) + WeightOfAll(hs, n + 1, x, y)
  }

  /** After merging several graphs the names are those of all of them. */
  lemma {:induction false} MergeAllNames(g: Graph, hs: seq<Graph>, n: nat)
    requires forall k | 0 <= k < |hs| :: EdgesInRange(hs[k])
    requires MergeAllFrom(g, hs, n).Success?
    ensures Names(MergeAllFrom(g, hs, n).value) == Names(g) + NamesOfAll(hs, n)
    decreases |hs| - n
  {
    if n < |hs| {
      MergeIntoNames(g, hs[n]);
      MergeAllNames(MergeInto(g, hs[n]).value, hs, n + 1);
    }
  }

  /** Merging valid graphs into a valid graph gives a valid graph. */
  lemma {:induction false} MergeAllValid(g: Graph, hs: seq<Graph>, n: nat)
    requires Valid(g)
    requires forall k | 0 <= k < |hs| :: Valid(hs[k]) && EdgesInRange(hs[k])
    requires MergeAllFrom(g, hs, n).Success?
    ensures Valid(MergeAllFrom(g, hs, n).value)
    decreases |hs| - n
  {
    if n < |hs| {
      MergeIntoValid(g, hs[n]);
      MergeAllValid(MergeInto(g, hs[n]).value, hs, n + 1);
    }
  }

  /** Merging simple graphs sums their weights between every two names. */
  lemma {:induction false} MergeAllWeights(g: Graph, hs: seq<Graph>, n: nat, x: string, y: string)
    requires Simple(g)
    requires forall k | 0 <= k < |hs| :: Simple(hs[k]) && EdgesInRange(hs[k])
    requires MergeAllFrom(g, hs, n).Success?
    ensures WeightBetween(MergeAllFrom(g, hs, n).value, x, y) == WeightBetween(g, x, y) + WeightOfAll(hs, n, x, y)
    decreases |hs| - n
  {
    if n < |hs| {
      var g1 := MergeInto(g, hs[n]).value;
      MergeIntoValid(g, hs[n]);
      MergeIntoWeights(g, hs[n], x, y);
      MergeAllWeights(g1, hs, n + 1, x, y);
    }
  }

  /**
   * Merging is associative on weights: merging g2 into g1 and then g3, or
   * merging into g1 the result of merging g3 into g2, gives every pair of
   * names the same weight.
   */
  lemma MergeWeightAssociative(g1: Graph, g2: Graph, g3: Graph, x: string, y: string)
    requires Simple(g1) && Simple(g2) && Simple(g3)
    requires MergeInto(g1, g2).Success? && MergeInto(g2, g3).Success?
    requires MergeInto(MergeInto(g1, g2).value, g3).Success?
    requires MergeInto(g1, MergeInto(g2, g3).value).Success?
    ensures WeightBetween(MergeInto(MergeInto(g1, g2).value, g3).value, x, y) ==
            WeightBetween(MergeInto(g1, MergeInto(g2, g3).value).value, x, y)
  {
    var left, right := MergeInto(g1, g2).value, MergeInto(g2, g3).value;
    MergeIntoValid(g1, g2);
    MergeIntoValid(g2, g3);
    MergeIntoWeights(g1, g2, x, y);
    MergeIntoWeights(left, g3, x, y);
    MergeIntoWeights(g2, g3, x, y);
    MergeIntoWeights(g1, right, x, y);
  }

  // ------------------------------------------------------------ graph_to_tcf

  predicate IsDigit(c: char)
  {
    '0' <= c <= '9'
  }

  predicate AllDigits(s: string)
  {
    forall k | 0 <= k < |s| :: IsDigit(s[k])
  }

  function DigitChar(d: nat): (c: char)
    requires d < 10
    ensures IsDigit(c) && c as int - '0' as int == d
  {
    ('0' as int + d) as char
  }

  /** Python's `str` of a natural number: its decimal digits, most significant first. */
  function NatToString(n: nat): (r: string)
    ensures |r| >= 1 && AllDigits(r)
    decreases n
  {
    if n < 10 then [DigitChar(n)] else NatToString(n / 10) + [DigitChar(n % 10)]
  }

  /** The number a string of decimal digits denotes. */
  function DigitsValue(s: string): nat
    requires AllDigits(s)
    decreases |s|
  {
    if |s| == 0 then 0 else 10 * DigitsValue(s[..|s| - 1]) + (s[|s| - 1] as int - '0' as int)
  }

  /** Python's `str` of an integer. */
  function IntToString(n: int): (r: string)
    ensures |r| >= 1 && (r[0] == '-' <==> n < 0)
  {
    if n < 0 then "-" + NatToString(-n) else NatToString(n)
  }

  /** Python's `int` of a string, for an optional minus sign and decimal digits; `None` stands for the `ValueError`. */
  function ParseInt(s: string): Option<int>
  {
    if |s| >= 2 && s[0] == '-' && AllDigits(s[1..]) then
      var v: int := DigitsValue(s[1..]);
      Some(-v)
    else if |s| >= 1 && AllDigits(s) then Some(DigitsValue(s))
    else None
  }

  /** Reading the digits of a natural number gives the number back. */
  lemma {:induction false} NatToStringRoundTrip(n: nat)
    ensures DigitsValue(NatToString(n)) == n
    decreases n
  {
    if n >= 10 {
      var s := NatToString(n / 10);
      NatToStringRoundTrip(n / 10);
      assert (s + [DigitChar(n % 10)])[..|s|] == s;
    }
  }

  /** `int(str(n)) == n`: a weight written out as text reads back as the same number. */
  lemma IntToStringRoundTrip(n: int)
    ensures ParseInt(IntToString(n)) == Some(n)
  {
    if n < 0 {
      NatToStringRoundTrip(-n);
      assert IntToString(n)[1..] == NatToString(-n);
    } else {
      NatToStringRoundTrip(n);
    }
  }

  /** The ID `n_<i>` of the node exported for vertex `i`. */
  function NodeId(i: nat): string
  {
    "n_" + NatToString(i)
  }

  /** Different vertices get different node IDs. */
  lemma NodeIdInjective(i: nat, j: nat)
    ensures NodeId(i) == NodeId(j) <==> i == j
  {
    if NodeId(i) == NodeId(j) {
      assert NodeId(i)[2..] == NatToString(i);
      assert NodeId(j)[2..] == NatToString(j);
      NatToStringRoundTrip(i);
      NatToStringRoundTrip(j);
    }
  }

  /** An attribute value of a TCF element: text, a value list, or the `str` of a set or dict. */
  datatype TcfValue =
    | Text(s: string)
    | ValueList(items: seq<string>)
    | Shown(value: Attr)   // `str(value)` of a set or dict; Python's rendering of it is not modelled

  datatype TcfNode = TcfNode(id: string, text: string, attrs: map<string, TcfValue>)
  datatype TcfEdge = TcfEdge(source: string, target: string, attrs: map<string, TcfValue>)
  datatype TcfGraph = TcfGraph(nodes: seq<TcfNode>, edges: seq<TcfEdge>)

  /** How one attribute value is written: lists as value lists, everything else as `str(value)`. */
  function ExportValue(x: Attr): TcfValue
  {
    match x
    case Str(t) => Text(t)
    case Num(n) => Text(IntToString(n))
    case List(xs) => ValueList(xs)
    case _ => Shown(x)
  }

  /** The exported attributes: every key but `skip`, each value written by `ExportValue`. */
  function ExportAttrs(a: Attrs, skip: set<string>): map<string, TcfValue>
  {
    map k | k in a.Keys - skip :: ExportValue(a[k])
  }

  /** The attribute loop of `graph_to_tcf` for one vertex or edge, skipping the keys in `skip`. */
  method ExportAttributes(a: Attrs, skip: set<string>) returns (r: map<string, TcfValue>)
    ensures r.Keys == a.Keys - skip
    ensures forall k | k in r :: r[k] == ExportValue(a[k])
  {
    r := map[];
    var todo := a.Keys;
    while todo != {}
      invariant todo <= a.Keys
      invariant r.Keys == (a.Keys - todo) - skip
      invariant forall k | k in r :: r[k] == ExportValue(a[k])
      decreases todo
    {
      var k :| k in todo;
      if k !in skip {
        r := r[k := ExportValue(a[k])];
      }
      todo := todo - {k};
    }
  }

  /**
   * `graph_to_tcf`: vertex i becomes a node with ID `n_<i>`, its name as
   * text and its other attributes; every edge joins the IDs of its
   * endpoints and carries all of its attributes.
   */
  method GraphToTcf(g: Graph) returns (t: TcfGraph)
    ensures Exports(g, t)
  {
    var nodes: seq<TcfNode> := [];
    for i := 0 to |g.vertices|
      invariant |nodes| == i
      invariant forall j | 0 <= j < i ::
        nodes[j].id == NodeId(j) && nodes[j].text == g.vertices[j].name &&
        nodes[j].attrs == ExportAttrs(g.vertices[j].attrs, {"name"})
    {
      var attrs := ExportAttributes(g.vertices[i].attrs, {"name"});
      nodes := nodes + [TcfNode(NodeId(i), g.vertices[i].name, attrs)];
    }
    var edges: seq<TcfEdge> := [];
    for k := 0 to |g.edges|
      invariant |edges| == k
      invariant forall l | 0 <= l < k ::
        edges[l].source == NodeId(g.edges[l].source) && edges[l].target == NodeId(g.edges[l].target) &&
        edges[l].attrs == ExportAttrs(g.edges[l].attrs, {})
    {
      var e := g.edges[k];
      var attrs := ExportAttributes(e.attrs, {});
      edges := edges + [TcfEdge(NodeId(e.source), NodeId(e.target), attrs)];
    }
    t := TcfGraph(nodes, edges);
  }

  /** The text of the first node with ID `id`, or the empty string when there is none (XPath `string(node[@ID = id])`). */
  function NodeText(nodes: seq<TcfNode>, id: string): string
    decreases |nodes|
  {
    if |nodes| == 0 then ""
    else if nodes[0].id == id then nodes[0].text
    else NodeText(nodes[1..], id)
  }

  lemma {:induction false} NodeTextOfId(nodes: seq<TcfNode>, i: nat, offset: nat)
    requires i < |nodes|
    requires forall j | 0 <= j < |nodes| :: nodes[j].id == NodeId(offset + j)
    ensures NodeText(nodes, NodeId(offset + i)) == nodes[i].text
    decreases i
  {
    if i > 0 {
      NodeIdInjective(offset, offset + i);
      NodeTextOfId(nodes[1..], i - 1, offset + 1);
    }
  }

  /** Whether `t` is the export of `g`: what `graph_to_tcf` produces. */
  ghost predicate Exports(g: Graph, t: TcfGraph)
  {
    |t.nodes| == |g.vertices| && |t.edges| == |g.edges| &&
    (forall i | 0 <= i < |g.vertices| ::
      t.nodes[i].id == NodeId(i) && t.nodes[i].text == g.vertices[i].name &&
      t.nodes[i].attrs == ExportAttrs(g.vertices[i].attrs, {"name"})) &&
    (forall k | 0 <= k < |g.edges| ::
      t.edges[k].source == NodeId(g.edges[k].source) && t.edges[k].target == NodeId(g.edges[k].target) &&
      t.edges[k].attrs == ExportAttrs(g.edges[k].attrs, {}))
  }

  /** In an exported graph, the node with ID `n_<i>` carries the name of vertex i. */
  lemma ExportedNodeText(g: Graph, t: TcfGraph, i: nat)
    requires Exports(g, t)
    requires i < |g.vertices|
    ensures NodeText(t.nodes, NodeId(i)) == g.vertices[i].name
  {
    assert forall j | 0 <= j < |t.nodes| :: t.nodes[j].id == NodeId(0 + j);
    NodeTextOfId(t.nodes, i, 0);
  }

  /** Reading an exported graph back: the node an edge's source or target ID names carries the name of the edge's endpoint. */
  lemma ExportedEdgesResolve(g: Graph, t: TcfGraph, k: nat)
    requires EdgesInRange(g) && Exports(g, t)
    requires k < |g.edges|
    ensures NodeText(t.nodes, t.edges[k].source) == g.vertices[g.edges[k].source].name
    ensures NodeText(t.nodes, t.edges[k].target) == g.vertices[g.edges[k].target].name
  {
    ExportedNodeText(g, t, g.edges[k].source);
    ExportedNodeText(g, t, g.edges[k].target);
  }

  /** A numeric weight written out as text parses back to the same number, as the readers of exported graphs rely on. */
  lemma ExportedWeightParses(a: Attrs)
    requires WeightKey in a && a[WeightKey].Num?
    ensures WeightKey in ExportAttrs(a, {})
    ensures ExportAttrs(a, {})[WeightKey] == Text(IntToString(a[WeightKey].n))
    ensures ParseInt(ExportAttrs(a, {})[WeightKey].s) == Some(a[WeightKey].n)
  {
    IntToStringRoundTrip(a[WeightKey].n);
  }
}

=== FILE: wrappers.dfy ===
/** Failure-compatible wrappers used throughout the model. */
module Wrappers {

  datatype Option<+T> = None | Some(value: T)

  datatype Result<+R, +E> = Success(value: R) | Failure(error: E) {
    predicate IsFailure() {
      Failure?
    }

    function PropagateFailure<U>(): Result<U, E>
      requires Failure?
    {
      Failure(error)
    }

    function Extract(): R
      requires Success?
    {
      value
    }
  }
}
